=== FILE: README.md ===
# FloodSense AI: a verified model of its data-acquisition and query core

FloodSense AI (also called Floody) is a flood-risk platform for India with three main parts:

- a Python "AI cortex" that fetches weather and river-discharge data from Open-Meteo and serves risk predictions;
- an Express backend that handles citizens, SOS alerts, flood reports and safe routes;
- a Next.js command dashboard. It carries its own copies of some of this logic and adds an offline mesh chat, a local report store, a static table of states and districts, and a translation lookup.

This project models the core of each of these parts in Dafny and proves what that code promises.

| module (file) | models |
|---|---|
| `WeatherService` (weather_service.dfy) | the cortex acquisition layer: the grid-cell cache key, the bounded retry loop with exponential backoff, the hourly and daily normalisers, and the three-tier fallback (fresh result, cached copy relabelled "(cached)", fixed defaults labelled "unavailable") over two caches held by a class |
| `CortexApi` (cortex_api.dfy) | `/predict` (the degraded status, the notice, the safe error response), `/weather`, `/discharge` and the capped `/predict/bulk` loop |
| `FrontendApi` (frontend_api.dfy) | the dashboard's direct weather normaliser with JavaScript `slice` semantics, the last-resort score and the three-stage prediction fallback chain |
| `BackendValidation` (backend_validation.dfy) | latitude/longitude and phone validation, phone cleaning and NDRF team assignment |
| `OtpService` (backend_otp.dfy) | the in-memory OTP store: send with expiry sweep, and verify with an attempt counter |
| `CoreTables` (backend_tables.dfy) | the report, segment and SOS tables as sequences: report creation, the status whitelists, segment deactivation on resolve, and pagination with its clamps |
| `RouteSafety` (backend_routes.dfy) | `/api/routes`: hazard collection, the scoring loop, risk level, warning, camp choice and the route plan |
| `MeshChat` (mesh_chat.dfy) | the mesh message store (dedup, 200-message cap), the TTL/hop relay rule, channel reads, node ids and a node object with its seen-set |
| `ReportsStore` (reports_store.dfy) | the dashboard's citizen report list (load once, insert at front, status update in place), its filters and counters, the accuracy classifier and the nearest-tower list |
| `StatesData` (states_data.dfy) | the query helpers over the states table, including the table's elided entry |
| `Translations` (translations.dfy) | the language-name map and the `t` lookup with its fallback chain |

Shared helpers are `Wrappers` (Option, Result), `Numeric` (powers, decimal rounding on reals, sums, maxima, means), `Text` (prefixes, suffixes, decimal digits) and `Sorting` (a stable insertion sort by a real key).

How the outside world enters the model:

- Network calls become parameters. The retry loop reads attempt `k`'s outcome from `net(k)`. An HTTP exchange is an `Answered`/`Threw` value.
- Sleeps are returned as the list of waits.
- Clocks (`datetime.now`, `Date.now`) are explicit `now` parameters.
- `Math.random` draws are real parameters in `[0, 1)`.
- Haversine and planar distances are function parameters.
- The risk predictor and the alert interpreter are uninterpreted function parameters.
- Browser storage is an `Option` field.

Points where the code's own names or comments suggest something else; the model follows the code:

- With the default three retries, `_fetch_with_retry` waits 0.5 s and then 1 s, never 2 s. The comment at weather_service.py:49 lists three waits, but the `attempt < retries - 1` guard allows only two.
- `_cache_key` rounds each coordinate to two decimals, so two points a few metres apart can still land on different keys: longitudes 77.454 and 77.456 round to 77.45 and 77.46 (`WeatherService.NeighboursMayNotShareKey`).
- The fields `max_discharge_7d` and `avg_discharge_7d` (weather_service.py:176-177) are computed over every non-null daily sample the request asks for, which is `past_days: 7` plus `forecast_days: 3` (weather_service.py:160-161), so they cover up to ten days, forecast days included.

## Model

| member | source | states |
|---|---|---|
| WeatherService.Hundredths | ai-cortex/services/weather_service.py:25 | the rounded hundredths lie within half a unit of `100·x` |
| WeatherService.KeyOf | ai-cortex/services/weather_service.py:24-25 | the cache key is the pair of rounded latitude and longitude hundredths |
| WeatherService.SharedKeyIsClose | ai-cortex/services/weather_service.py:24-25 | two coordinates that share a key differ by less than 0.01 in each component |
| WeatherService.SameCellSharesKey | ai-cortex/services/weather_service.py:24-25 | every coordinate in one rounding cell maps to that cell's key |
| WeatherService.NeighboursMayNotShareKey | ai-cortex/services/weather_service.py:24-25 | 77.454 and 77.456 fall under different keys |
| WeatherService.Backoff | ai-cortex/services/weather_service.py:49 | the wait before a retry is at least 0.5 s |
| WeatherService.FetchWithRetry | ai-cortex/services/weather_service.py:38-52 | the loop's outcome, waits and attempt count are exactly those of the recursive reference run `RetryFrom` |
| WeatherService.RetryShape | ai-cortex/services/weather_service.py:41-51 | at most `retries` attempts, at least one when the budget is positive; one wait fewer than attempts, the k-th wait being `0.5·2^k` |
| WeatherService.FirstDecisiveAttemptWins | ai-cortex/services/weather_service.py:43-46 | after retryable failures, the first success or non-retryable error ends the run with that outcome |
| WeatherService.ExhaustedRetriesRaiseLast | ai-cortex/services/weather_service.py:46-52 | when every attempt fails retryably, all `retries` attempts are made and the last error is raised |
| WeatherService.DefaultRetriesWaitTwice | ai-cortex/services/weather_service.py:47-52 | with three retryable failures the waits are exactly [0.5, 1.0] and the third error is raised |
| WeatherService.NoBudgetRaisesTypeError | ai-cortex/services/weather_service.py:40-52 | with no attempt budget, nothing is fetched and `raise None` fails |
| WeatherService.PastWindow | ai-cortex/services/weather_service.py:83-88 | the window holds the last `min(hours, len-72)` samples before index `len-72`, and is empty when `len ≤ 72` |
| WeatherService.NonNull | ai-cortex/services/weather_service.py:86 | a value is kept exactly when it occurs as a non-null sample |
| WeatherService.NonNullAppend | ai-cortex/services/weather_service.py:86 | dropping nulls distributes over concatenation |
| WeatherService.LastValidIsLastSome | ai-cortex/services/weather_service.py:91-92 | the soil value is the last non-null sample, or 0.0 when there is none |
| WeatherService.StandardWindows | ai-cortex/services/weather_service.py:82-88 | on a 240-hour series the windows are hours 144..168 and 0..168 |
| WeatherService.DayWindowEndsWeekWindow | ai-cortex/services/weather_service.py:85-88 | the 24-hour window is a suffix of the 7-day window |
| WeatherService.SumNonNullNonnegative | ai-cortex/services/weather_service.py:86 | non-negative samples give a non-negative rainfall sum |
| WeatherService.SuffixSumAtMost | ai-cortex/services/weather_service.py:86-89 | with non-negative samples, a suffix sums to no more than the whole |
| WeatherService.DayRainAtMostWeekRain | ai-cortex/services/weather_service.py:85-104 | the rounded 24-hour rainfall never exceeds the rounded 7-day rainfall |
| WeatherService.CurrentField | ai-cortex/services/weather_service.py:97-102 | a missing current-conditions field reads as 0 |
| WeatherService.NormalizeWeather | ai-cortex/services/weather_service.py:94-110 | the normalised record keeps the coordinates and the daily arrays, and is labelled "Open-Meteo" with no error |
| WeatherService.DefaultWeather | ai-cortex/services/weather_service.py:130-147 | the default record is labelled "unavailable" and carries the error text |
| WeatherService.ShortSeriesHasNoRain | ai-cortex/services/weather_service.py:84-89 | a series of at most 72 hours yields zero 24-hour and 7-day rainfall |
| WeatherService.NullSamplesSkipped | ai-cortex/services/weather_service.py:86 | null samples contribute nothing to a sum |
| WeatherService.NormalizeDischarge | ai-cortex/services/weather_service.py:172-181 | the discharge record keeps the coordinates and the raw trend and dates arrays |
| WeatherService.DischargeAggregates | ai-cortex/services/weather_service.py:170-177 | current and max are non-null samples, max bounds every sample, current ≤ max, the mean stays at or below max; all three are 0.0 with no samples |
| WeatherService.DischargeExample | ai-cortex/services/weather_service.py:170-177 | [7, null, 5] gives current 5, max 7, mean 6 |
| WeatherService.AcquireWeatherTiers | ai-cortex/services/weather_service.py:112-147 | on success the stamped result overwrites the key's entry; on failure the cached copy (relabelled, stamp removed, cache unchanged) or else the defaults |
| WeatherService.AcquireDischargeTiers | ai-cortex/services/weather_service.py:183-204 | the same three tiers for discharge, whose defaults are all zero with empty arrays |
| WeatherService.CachedWeatherNeverExpires | ai-cortex/services/weather_service.py:121-126 | a cached entry is served however much later the failure comes, since the age check is never called |
| WeatherService.AcquisitionLayer.constructor | ai-cortex/services/weather_service.py:19-20 | both caches start empty |
| WeatherService.AcquisitionLayer.GetCurrentWeather | ai-cortex/services/weather_service.py:55-147 | runs the retry loop, then the three tiers; the weather cache changes as they say, the discharge cache does not |
| WeatherService.AcquisitionLayer.GetRiverDischarge | ai-cortex/services/weather_service.py:150-204 | runs the retry loop, then the three tiers; the discharge cache changes as they say, the weather cache does not |
| CortexApi.Respond | ai-cortex/main.py:73-109 | assessed iff predictor and interpreter succeed; status "degraded" iff the weather is degraded; notice iff degraded; otherwise the fixed UNKNOWN error body with the error text |
| CortexApi.StatusIgnoresDischarge | ai-cortex/main.py:79-95 | status and notice do not depend on the discharge |
| CortexApi.FreshSourceNotCached | ai-cortex/main.py:79 | a fresh weather label does not end in "(cached)" |
| CortexApi.DegradedExactlyWhenWeatherFetchFailed | ai-cortex/main.py:79 | behind the acquisition layer, degraded exactly when the weather fetch raised |
| CortexApi.PredictFloodRisk | ai-cortex/main.py:56-109 | fetches weather, then discharge, through the layer and responds; both caches end as the tiers say |
| CortexApi.GetWeather | ai-cortex/main.py:114-124 | the weather result wrapped with status "success" |
| CortexApi.GetDischarge | ai-cortex/main.py:129-139 | the discharge result wrapped with status "success" |
| CortexApi.BulkEntryFor | ai-cortex/main.py:170-188 | a scored entry iff the predictor succeeds, otherwise an error entry for that location |
| CortexApi.BulkRunShape | ai-cortex/main.py:168-188 | after `n` locations there are exactly `n` entries, the `j`-th naming the `j`-th location, whatever the network and the predictor do |
| CortexApi.BulkEntryScoredIff | ai-cortex/main.py:168-188 | the `j`-th entry is the one built from the weather and discharge acquired for location `j` through the caches the earlier locations left; it is scored iff the predictor succeeds on them |
| CortexApi.PredictBulk | ai-cortex/main.py:164-189 | the results and both final caches are those of `BulkRun` over the first 50 locations, each location fetched through the acquisition layer with its own network outcomes and time |
| FrontendApi.JsIndex | frontend-command/src/lib/api.ts:173-174 | a JavaScript slice bound: a negative index counts back from the end, clamped to [0, len] |
| FrontendApi.JsSlice | frontend-command/src/lib/api.ts:173-174 | the slice is the elements between the two resolved bounds |
| FrontendApi.JsWindowAgreesWhenLong | frontend-command/src/lib/api.ts:171-174 | with at least 72 hours, the JavaScript window equals the Python one |
| FrontendApi.JsWindowCountsBackWhenShort | frontend-command/src/lib/api.ts:171-174 | with 37 to 71 hours, JavaScript takes a prefix where Python takes nothing |
| FrontendApi.JsWindowEmptyWhenTiny | frontend-command/src/lib/api.ts:171-174 | with at most 36 hours both windows are empty |
| FrontendApi.JsSumIsSumNonNull | frontend-command/src/lib/api.ts:186-187 | summing `v \|\| 0` equals summing the non-null samples |
| FrontendApi.FetchWeatherDirect | frontend-command/src/lib/api.ts:178-193 | keeps the coordinates and the daily arrays, labelled "Open-Meteo (direct)" |
| FrontendApi.DirectAgreesWithCortex | frontend-command/src/lib/api.ts:171-188 | with at least 72 hours, rainfall equals the Python result, and the soil value rounds to the Python one |
| FrontendApi.MissingFieldsReadZero | frontend-command/src/lib/api.ts:180 | a missing or null temperature reads 0 here, where the Python record keeps null |
| FrontendApi.LastResortScore | frontend-command/src/lib/api.ts:143 | the score is at most 10, and non-negative for non-negative inputs |
| FrontendApi.LastResortMonotone | frontend-command/src/lib/api.ts:143-146 | more rain or wetter soil never lowers the score or the level |
| FrontendApi.LastResort | frontend-command/src/lib/api.ts:140-154 | HIGH iff score > 7, MODERATE iff 4 < score ≤ 7, LOW iff score ≤ 4; the risk score is the score rounded to one decimal and at most 10; the probability is exactly score/10 (the cap at 1 never bites); rainfall impact HIGH iff more than 50 mm; the high-risk advice iff the level is HIGH; a zeroed "unavailable" discharge at the requested point, no alerts, model "frontend-fallback" |
| FrontendApi.FetchRiskPrediction | frontend-command/src/lib/api.ts:94-154 | the backend answer if ok, else the cortex answer if ok, else the last resort from a direct fetch; it fails only when all three do |
| FrontendApi.FieldOrEmpty | frontend-command/src/lib/api.ts:212-220 | the response's list under the field when it is there; [] when the field is missing, the request throws or the body does not parse |
| FrontendApi.StatusNotChecked | frontend-command/src/lib/api.ts:214-216 | a failed HTTP status yields the same list as a successful one |
| FrontendApi.FetchAlerts | frontend-command/src/lib/api.ts:212-220 | the response's `alerts` list, or [] when it is missing or anything throws |
| FrontendApi.FetchBulkRisk | frontend-command/src/lib/api.ts:225-239 | the response's `results` list, or [] when it is missing or anything throws |
| BackendValidation.ValidLatLon | backend/index.ts:211-213 | anything other than two numbers is rejected; two numbers are accepted iff the latitude is at most 90 and the longitude at most 180 away from zero, bounds included |
| BackendValidation.NaNIsNeverValid | backend/index.ts:211-213 | NaN fails the range check in either position |
| BackendValidation.DigitsOf | backend/index.ts:216 | only digits remain, no more characters than the input |
| BackendValidation.DigitsOfDigits | backend/index.ts:216 | an all-digit string is unchanged |
| BackendValidation.ValidPhone | backend/index.ts:215-217 | a valid phone has at least 10 characters |
| BackendValidation.ValidPhoneOfDigits | backend/index.ts:215-217 | a digits-only number is accepted iff it has 10 to 15 digits |
| BackendValidation.ValidPhoneIgnoresSeparator | backend/index.ts:216 | inserting a non-digit anywhere never changes whether a number is accepted |
| BackendValidation.CleanPhone | backend/index.ts:287 | the cleaned phone is the last (up to) 10 digits of the digit-only form |
| BackendValidation.CleanPhoneOfValid | backend/index.ts:215-217 | a valid phone cleans to exactly 10 digits, and cleaning is idempotent |
| BackendValidation.DigitsOfAppend | backend/index.ts:216 | digit extraction distributes over concatenation |
| BackendValidation.CountryCodeIgnored | backend/index.ts:215-217 | a prefix of up to 5 digits (such as "+91 ") keeps the phone valid and cleans away |
| BackendValidation.TeamByLatitude | backend/index.ts:243-246 | the latitude bands <15, <20, <25 and the rest map to their four battalions |
| BackendValidation.AssignNdrfTeam | backend/index.ts:229-247 | a listed state gets its table entry; otherwise the latitude band decides |
| BackendValidation.AssignmentIsListedBattalion | backend/index.ts:229-247 | every assignment is one of the table's battalions |
| BackendValidation.UnlistedStatesShareAssignment | backend/index.ts:241-246 | absent and unlisted states are assigned alike |
| OtpService.OtpOf | backend/index.ts:288 | the code is six decimal digits |
| OtpService.Sweep | backend/index.ts:292-294 | exactly the entries with `expiresAt ≥ now` survive, unchanged |
| OtpService.VerifyStep | backend/index.ts:317-327 | checks in order: a missing field or a missing entry changes nothing; an expired entry, then an entry with 3 attempts, is deleted; a mismatch counts one attempt; a match is verified and deletes the entry |
| OtpService.AtMostThreeWrongGuesses | backend/index.ts:320-327 | over any sequence of guesses, at most 3 minus the attempts so far are wrong, and at most one succeeds |
| OtpService.IssuedCodeVerifies | backend/index.ts:289-327 | a freshly issued code verifies within five minutes |
| OtpService.IssuedCodeExpires | backend/index.ts:289-323 | after five minutes it is reported expired and deleted |
| OtpService.OtpStore.constructor | backend/index.ts:261 | the store starts empty |
| OtpService.OtpStore.SendOtp | backend/index.ts:281-294 | an invalid phone changes nothing; otherwise the entry is set with 0 attempts and a 5-minute expiry, then the sweep runs and the new entry survives |
| OtpService.OtpStore.VerifyOtp | backend/index.ts:315-327 | outcome and new store are those of `VerifyStep` |
| CoreTables.CreateReport | backend/index.ts:655-688 | accepted iff description, position and type are valid, with the errors checked in that order; appends a PENDING report (severity MODERATE by default) and, for FLOOD, WATERLOGGING and ROAD_BLOCK, one active segment |
| CoreTables.PatchReport | backend/index.ts:714-727 | rejected iff a non-empty status is outside the whitelist; patches the report with that id (an empty status or volunteer keeps the old value); RESOLVED deactivates its segments |
| CoreTables.ResolveDeactivatesOwnSegments | backend/index.ts:716-722 | resolving deactivates exactly the report's own segments and changes no other row |
| CoreTables.PatchUnknownIdChangesNothing | backend/index.ts:717-722 | an unknown id with a non-resolving status leaves the tables as they were |
| CoreTables.WritesKeepSegmentReferences | backend/index.ts:681-722 | creating and patching reports keep every segment's `reportId` pointing at a stored report |
| CoreTables.PatchSos | backend/index.ts:483-491 | rejected iff the status is outside ACTIVE, RESPONDING, RESOLVED; otherwise only the matching alert changes, and RESOLVED marks it resolved |
| CoreTables.ParseIntOr | backend/index.ts:691-692 | `parseInt(x) \|\| d`: a non-zero parsed value or the fallback |
| CoreTables.ReportPage | backend/index.ts:691 | the page is at least 1 |
| CoreTables.ReportLimitAsWritten | backend/index.ts:692 | at most 50, 20 by default; nothing bounds it below |
| CoreTables.SosLimitAsWritten | backend/index.ts:472 | at most 100, 50 by default; nothing bounds it below |
| CoreTables.LimitOffset | backend/index.ts:702 | SQLite LIMIT/OFFSET: the slice of `limit` rows from `offset` (a negative offset reads as 0, a negative limit as no bound, an offset past the end gives nothing) |
| CoreTables.NegativeLimitBypassesCap | backend/index.ts:692-702 | `limit=-1` yields LIMIT -1 and returns all of more than 50 reports |
| CoreTables.NegativeSosLimitBypassesCap | backend/index.ts:472-477 | `limit=-1` returns all of more than 100 SOS alerts |
| CoreTables.ReportLimit | backend/index.ts:692 | the corrected clamp: between 1 and 50, 20 by default, an in-range request kept |
| CoreTables.SosLimit | backend/index.ts:472 | the corrected clamp: between 1 and 100, 50 by default, an in-range request kept |
| CoreTables.ListReportsAsWritten | backend/index.ts:690-705 | each row a stored report matching the filters; at most 50 rows for a non-negative limit, but every matching row for `limit=-1` |
| CoreTables.ListReportsAgreeOnPositiveLimits | backend/index.ts:690-705 | the corrected handler returns exactly what the written one does whenever the requested limit is at least 1 |
| CoreTables.ListReports | backend/index.ts:690-705 | the corrected handler: at most 50 rows, each a stored report matching the given status and type filters |
| CoreTables.FilterReports | backend/index.ts:694-700 | a report is kept iff it matches every filter given, and each matching report as often as it is stored |
| CoreTables.PagesAreConsecutive | backend/index.ts:691-693 | a short page is the last one, and pages p and p+1 together are the double-sized window from page p's offset, so each page starts where the previous ends |
| CoreTables.WindowsAdjacent | backend/index.ts:691-693 | two windows of `lim` rows, the second at the first's offset plus `lim`, concatenate to the window of `2·lim` rows |
| RouteSafety.SegmentHazards | backend/index.ts:603-612 | the hazards are exactly the active segments' positions and severities, each as often as there are active segments for it |
| RouteSafety.ReportHazards | backend/index.ts:604-612 | the hazards are exactly the recent, unresolved FLOOD and ROAD_BLOCK reports, each as often as there are such reports for it |
| RouteSafety.ResolvedReportIsNoHazard | backend/index.ts:603-612 | once a report is resolved, neither it nor its segments feed the route hazards |
| RouteSafety.SeverityPoints | backend/index.ts:621 | each hazard weighs 1 to 3, and 3 exactly for SEVERE |
| RouteSafety.ScoreBetweenCounts | backend/index.ts:615-623 | the raw score lies between the nearby count and three times it; it is zero iff no hazard is near |
| RouteSafety.ScoreRoute | backend/index.ts:615-624 | the loop yields the raw score capped at 10 and the nearby count |
| RouteSafety.RiskLevel | backend/index.ts:643 | HIGH iff score > 7, LOW iff score ≤ 4, MODERATE otherwise |
| RouteSafety.RouteWarning | backend/index.ts:646 | a warning iff score > 5 |
| RouteSafety.LevelAndWarningAgree | backend/index.ts:643-646 | HIGH always warns, LOW never does, and score 5 is MODERATE with no warning |
| RouteSafety.TwoSevereHazardsWarn | backend/index.ts:615-646 | one nearby SEVERE hazard does not warn; two do |
| RouteSafety.ClearRouteIsLow | backend/index.ts:615-646 | with no hazard near, the score is 0, the level LOW and no warning |
| RouteSafety.ActiveCamps | backend/index.ts:593-598 | exactly the active camps |
| RouteSafety.FindCamp | backend/index.ts:588-592 | an active camp with the requested id, or none when no active camp has it |
| RouteSafety.Destination | backend/index.ts:588-598 | the requested camp, or else an active camp at minimal distance; none only when there is no active camp |
| RouteSafety.Polyline | backend/index.ts:627-632 | eleven points from origin to destination, monotone in latitude |
| RouteSafety.PlanRoute | backend/index.ts:579-649 | missing coordinates, an unknown camp and no active camp are the three errors; otherwise the distance, ETA, score, level, nearby count, polyline and warning of the chosen corridor |
| MeshChat.KeepLast | frontend-command/src/lib/meshChat.ts:86-88 | keeps the last `min(len, cap)` elements |
| MeshChat.SavedProperties | frontend-command/src/lib/meshChat.ts:82-91 | after a save: at most 200 messages, unique ids, the message present, the oldest dropped first, and saving again changes nothing |
| MeshChat.Relayed | frontend-command/src/lib/meshChat.ts:112-114 | relayed iff `ttl > 0` and this node is not in `via`; the copy keeps `ttl + hops`, lowers ttl and appends this node |
| MeshChat.RelayBoundedByTtl | frontend-command/src/lib/meshChat.ts:112-114 | a message survives at most `ttl` relays, and its via list records the path |
| MeshChat.SentMessageRelayedAtMostSevenTimes | frontend-command/src/lib/meshChat.ts:150-161 | a sent message is relayed at most 7 times |
| MeshChat.AnnouncementTravelsOneHop | frontend-command/src/lib/meshChat.ts:122-134 | the presence announcement is relayed at most once |
| MeshChat.OnChannel | frontend-command/src/lib/meshChat.ts:78 | exactly the messages of the channel |
| MeshChat.MessagesOn | frontend-command/src/lib/meshChat.ts:74-80 | a permutation of the channel's messages, in ascending timestamp order |
| MeshChat.NodeIdChar | frontend-command/src/lib/meshChat.ts:45-47 | the drawn character comes from A-Z0-9 |
| MeshChat.GenNodeId | frontend-command/src/lib/meshChat.ts:44-49 | "FM-" followed by six characters from A-Z0-9, one per draw |
| MeshChat.MeshNode.constructor | frontend-command/src/lib/meshChat.ts:56-65 | a node with its identity and nothing seen, stored or sent |
| MeshChat.MeshNode.SaveMessage | frontend-command/src/lib/meshChat.ts:82-91 | the store becomes `Saved(old store, msg)` and nothing else changes |
| MeshChat.MeshNode.OnMessage | frontend-command/src/lib/meshChat.ts:106-119 | a seen id changes nothing; otherwise the id is marked seen, the relay rule is posted, and the message is saved and delivered |
| MeshChat.MeshNode.SendMeshMessage | frontend-command/src/lib/meshChat.ts:144-167 | the message has ttl 7, hops 0 and via [self]; it is marked seen and saved, then posted and delivered while the mesh is on |
| MeshChat.MeshNode.StartMesh | frontend-command/src/lib/meshChat.ts:100-142 | posts a ttl-1 ACK on the global channel, replays the stored global messages in time order and reports the node as active |
| MeshChat.MeshNode.StopMesh | frontend-command/src/lib/meshChat.ts:173-177 | the node goes inactive and nothing else changes |
| ReportsStore.LoadReports | frontend-command/src/lib/reportsStore.ts:36-43 | stored reports are returned as they are; with nothing stored, the sample reports |
| ReportsStore.ReportId | frontend-command/src/lib/reportsStore.ts:104 | "RPT-" followed by four digits |
| ReportsStore.FirstIndex | frontend-command/src/lib/reportsStore.ts:118 | the index of the first report with the id, or none when no report has it |
| ReportsStore.WithStatus | frontend-command/src/lib/reportsStore.ts:116-120 | only the status of the first report with the id changes; an unknown id changes nothing |
| ReportsStore.ByLocation | frontend-command/src/lib/reportsStore.ts:122-130 | the whole list with no filter; otherwise exactly the reports matching every filter given, each as often as in the list |
| ReportsStore.ByLocationIsSubsequence | frontend-command/src/lib/reportsStore.ts:125-129 | the filtered list takes its reports from the list at strictly increasing positions, so list order is kept |
| ReportsStore.Count | frontend-command/src/lib/reportsStore.ts:136-140 | a bucket never exceeds the list length |
| ReportsStore.Stats | frontend-command/src/lib/reportsStore.ts:132-142 | total is the length, and each bucket is at most the total |
| ReportsStore.BucketsDisjoint | frontend-command/src/lib/reportsStore.ts:136-140 | the severity buckets together, and the status buckets together, stay within the total |
| ReportsStore.NewReportIsPending | frontend-command/src/lib/reportsStore.ts:105-138 | a submitted report put in front raises total and pending by one, severe or high by one when it has that severity, and leaves the other status buckets |
| ReportsStore.LocationMethod | frontend-command/src/lib/reportsStore.ts:156 | gps below 50 m, wifi below 500 m, cell tower otherwise, each an if-and-only-if |
| ReportsStore.TowerId | frontend-command/src/lib/reportsStore.ts:204 | "TWR-" followed by three digits, a dash and two digits |
| ReportsStore.TowerOf | frontend-command/src/lib/reportsStore.ts:200-207 | the tower lies within ±0.015° of the position, and its signal is between -79 and -50 |
| ReportsStore.TowersOf | frontend-command/src/lib/reportsStore.ts:199-209 | one tower per draw, in draw order |
| ReportsStore.GetNearestTowers | frontend-command/src/lib/reportsStore.ts:197-211 | exactly the three drawn towers, sorted by ascending distance |
| ReportsStore.ReportList.constructor | frontend-command/src/lib/reportsStore.ts:94 | the list starts unloaded, seeded by the sample reports |
| ReportsStore.ReportList.GetReports | frontend-command/src/lib/reportsStore.ts:96-99 | loads once; later calls return the same list |
| ReportsStore.ReportList.AddReport | frontend-command/src/lib/reportsStore.ts:101-114 | the new "submitted" report with 0 upvotes goes in front of the earlier ones, and the list is saved |
| ReportsStore.ReportList.UpdateReportStatus | frontend-command/src/lib/reportsStore.ts:116-120 | the list becomes `WithStatus` of the old one, and is saved iff the id was found |
| StatesData.VulnScore | frontend-command/src/data/statesData.ts:45-48 | the input fields are copied, and the score is at most 10 and non-negative for non-negative inputs |
| StatesData.VulnScoreMonotone | frontend-command/src/data/statesData.ts:46-47 | larger inputs never lower the score |
| StatesData.TagDistricts | frontend-command/src/data/statesData.ts:332 | each district tagged with the state's name, in order |
| StatesData.AllDistricts | frontend-command/src/data/statesData.ts:330-334 | every district of every present state appears, tagged; nothing else does |
| StatesData.AllDistrictsSkipsHoles | frontend-command/src/data/statesData.ts:330-334 | the elided entry contributes nothing, concatenation distributes, and the length is the district count |
| StatesData.OnlyHigh | frontend-command/src/data/statesData.ts:337 | exactly the HIGH districts |
| StatesData.HighRiskDistricts | frontend-command/src/data/statesData.ts:336-338 | a permutation of the HIGH districts in descending risk score |
| StatesData.HighRiskIsExactlyHigh | frontend-command/src/data/statesData.ts:336-338 | a district is listed iff it is HIGH |
| StatesData.VulnerableDistricts | frontend-command/src/data/statesData.ts:340-342 | a permutation of all districts in descending vulnerability score |
| StatesData.TagDams | frontend-command/src/data/statesData.ts:347 | each dam tagged with its district and state, in order |
| StatesData.DamsOfDistricts | frontend-command/src/data/statesData.ts:346-348 | every dam of the districts appears, tagged; nothing else does |
| StatesData.AllDams | frontend-command/src/data/statesData.ts:344-350 | every dam of every present state appears, tagged with its district and state, and nothing else does: each entry is a nearby dam of a district of that name in a state of that name |
| StatesData.DangerDams | frontend-command/src/data/statesData.ts:352-354 | exactly the dams with status DANGER or OVERFLOW |
| StatesData.KeepDanger | frontend-command/src/data/statesData.ts:353 | exactly the DANGER or OVERFLOW dams of the list |
| StatesData.FindAsWritten | frontend-command/src/data/statesData.ts:357-371 | `.find` as written: a found state is in the table and carries the name |
| StatesData.FoundBeforeHole | frontend-command/src/data/statesData.ts:357 | the lookup returns the first state with the name when every earlier slot holds a state of another name |
| StatesData.FoundBeforeHoleInLayout | frontend-command/src/data/statesData.ts:357 | in the shipped layout each of the ten states before the hole (Assam to Delhi) is found by its name |
| StatesData.LookupPastHoleThrows | frontend-command/src/data/statesData.ts:357 | a name not matched before the hole makes the lookup throw |
| StatesData.OdishaLookupThrows | frontend-command/src/data/statesData.ts:141-143 | looking up "Odisha" throws |
| StatesData.FindState | frontend-command/src/data/statesData.ts:357 | the corrected lookup: a state with that name, or none when no present state has it |
| StatesData.LookupsAgreeWhenNoThrow | frontend-command/src/data/statesData.ts:357 | where the written lookup returns, the corrected one returns the same |
| StatesData.EveryStateFoundWhenHolesSkipped | frontend-command/src/data/statesData.ts:50-327 | the corrected lookup finds every state of the table |
| StatesData.DamsByState | frontend-command/src/data/statesData.ts:356-362 | throws iff the lookup does; [] for an unknown name; otherwise `DamsOfDistricts` of that state: every nearby dam of its districts, tagged, and nothing else |
| StatesData.VulnerableByState | frontend-command/src/data/statesData.ts:364-368 | throws iff the lookup does; [] for an unknown name; otherwise the state's districts in descending vulnerability |
| StatesData.CountLevel | frontend-command/src/data/statesData.ts:373-375 | a level count never exceeds the number of districts |
| StatesData.Summary | frontend-command/src/data/statesData.ts:372-379 | all zero when no state is given; for a state, each level count is the number of districts at that level, the totals are the sums of population and shelters, and the average is the district mean rounded to one decimal, NaN iff there are no districts |
| StatesData.LevelCountsPartition | frontend-command/src/data/statesData.ts:373-375 | the three counts add up to the district count when every level is HIGH, MODERATE or LOW |
| StatesData.StateRiskSummary | frontend-command/src/data/statesData.ts:370-379 | a state object is summarised directly; a name throws iff the lookup does, an unknown name gives all zeros, and a found name gives the summary of the state found |
| StatesData.SummaryCountsAddUp | frontend-command/src/data/statesData.ts:373-375 | high + moderate + low equals the number of districts |
| StatesData.SummaryOfAddedDistrict | frontend-command/src/data/statesData.ts:373-378 | a district added to a state raises only its own level's count, by one, and adds its population and shelters to the totals |
| StatesData.AverageRiskWithin | frontend-command/src/data/statesData.ts:376-379 | when every district's risk score lies between two whole numbers, the rounded average does too |
| Numeric.MeanBetween | frontend-command/src/data/statesData.ts:376-377 | a mean of a total between n·lo and n·hi lies between lo and hi |
| Translations.LangMapIsOneToOne | frontend-command/src/lib/translations.ts:6-10 | the twelve names map to twelve distinct codes, and naming a code's language gives the name back |
| Translations.CodeOf | frontend-command/src/lib/translations.ts:931 | a listed name gives its code; any other gives English |
| Translations.T | frontend-command/src/lib/translations.ts:930-933 | the chosen language's non-empty string, else the English one, else the key; never "" for a non-empty key |
| Translations.UnknownLanguageReadsEnglish | frontend-command/src/lib/translations.ts:931-932 | an unlisted language reads exactly as English |

## Left out

- Python's `round` is half-to-even on binary floats, and JavaScript's `Math.round` rounds half up on binary floats; the model rounds exact reals half up. Signed zero and float error are not modelled.
- JSON payloads are typed records, so null or non-array fields (where `data.get` would return something else) are not modelled; a missing series is an empty sequence.
- Each call reads the clock once: the result's timestamp and its cache stamp are the same `now`.
- `_is_cache_valid` is never called, so it has no member; `CachedWeatherNeverExpires` states the consequence.
- Concurrency is not modelled: concurrent requests on the Python caches, socket.io broadcasts and the asynchronous browser callbacks all run as atomic, sequential steps.
- HTTP, SQLite, localStorage, BroadcastChannel, SMS sending and JWT signing are replaced by parameters, sequences and fields.
- `predict_risk` and `interpret_weather_risk` are not part of this model. They are function parameters.
- The haversine formula (backend/index.ts:220-226) and the tower distance are distance parameters; no trigonometry is modelled.
- `Math.random` and `crypto.randomUUID` are explicit draws or ids passed in.
- Keys inherited from `Object.prototype` (a state called "constructor" in `assignNdrfTeam`'s table, a language called "toString" in `LANG_MAP`) are not modelled: the maps hold only their listed keys.
- `CoreTables.ListReports` and `CoreTables.ListReportsAsWritten` take rows in table order, which stands for the SQL `ORDER BY createdAt DESC`. Timestamps are integers, not ISO text.
- The SOS list's filters and the `pages` field of the reports response are not modelled; only the limit clamps are. The upvote, health, alerts, family and photo-upload endpoints are left out.
- The OTP value is compared as a string; a numeric `otp` in a JSON body, which would never equal the stored string, is not modelled.
- `getNodeIdentity`, `setNickname` and `genMsgId` storage and randomness are identity parameters. `getSimLocation` and `simulateCellTower` are left out apart from the accuracy classifier and the tower-id format.
- The figures in the states table are a parameter. Only its layout (36 states with the elided entry at index 10) is fixed, as `StatesData.LaidOutLikeStatesData`.
- `speak` (speech synthesis) in translations.ts is left out.
- `ReportsStore.DefaultReports` carries no contract: it is the eight literal seed reports, used as they are.
- `FrontendApi.LastResort` keeps only the impact of its single contributing factor; the factor's name `Rainfall` and its value text (the rainfall followed by "mm") are not modelled.
- `RouteSafety.Polyline` states the endpoints and monotonicity of the interpolated points, not their exact values.
- `RouteSafety.PlanRoute` rounds the distance and ETA on exact reals, not on binary floats.

## Findings

| source | as written | input that shows it | evidently intended | confidence | as-written member | corrected member |
|---|---|---|---|---|---|---|
| backend/index.ts:692 | `Math.min(50, parseInt(limit) \|\| 20)`, and likewise the SOS list's `Math.min(100, ...)` at backend/index.ts:472, bounds the limit only from above | `GET /api/reports?limit=-1` gives `LIMIT -1`, and SQLite then returns every row; the SOS list does the same | a limit between 1 and the cap | high (not executed) | CoreTables.NegativeLimitBypassesCap, CoreTables.NegativeSosLimitBypassesCap, CoreTables.ListReportsAsWritten | CoreTables.ReportLimit, CoreTables.SosLimit, CoreTables.ListReports |
| frontend-command/src/data/statesData.ts:141 | a stray comma leaves an empty slot after Delhi, and `.find` calls the predicate on it as `undefined` | `getDamsByState("Odisha")` (also `getVulnerableByState`, and `getStateRiskSummary` with a name) evaluates `undefined.name` and throws a TypeError | lookups that skip the empty slot and find every state | high (not executed) | StatesData.OdishaLookupThrows | StatesData.FindState, StatesData.EveryStateFoundWhenHolesSkipped |

=== FILE: backend_otp.dfy ===
/** The in-memory OTP store of the core API: `send-otp` issues a code valid for five minutes
    and sweeps out expired codes; `verify-otp` accepts a code once, within its lifetime,
    after at most three wrong guesses. Times are milliseconds as `Date.now()` gives them. */
module OtpService {
  import opened Numeric
  import opened Text
  import opened BackendValidation

  datatype OtpEntry = OtpEntry(otp: string, expiresAt: int, attempts: nat)

  const OTP_LIFETIME_MS: int := 5 * 60 * 1000
  const MAX_ATTEMPTS: nat := 3

  /** `String(Math.floor(100000 + Math.random() * 900000))` for a draw `r` in [0, 1). */
  function OtpOf(r: real): (otp: string)
    requires 0.0 <= r < 1.0
    ensures |otp| == 6
    ensures forall i :: 0 <= i < |otp| ==> IsDigit(otp[i])
  {
    var n := (100000.0 + r * 900000.0).Floor;
    assert 100000 <= n < 1000000;
    assert Pow10(5) == 100000 && Pow10(6) == 1000000;
    DecimalLength(n, 6);
    Decimal(n)
  }

  /** The entries the expiry sweep keeps: those whose `expiresAt` is not before `now`. */
  function Sweep(m: map<string, OtpEntry>, now: int): (r: map<string, OtpEntry>)
    ensures forall k :: k in r <==> k in m && m[k].expiresAt >= now
    ensures forall k :: k in r ==> r[k] == m[k]
  {
    map k | k in m && m[k].expiresAt >= now :: m[k]
  }

  datatype SendResult = InvalidPhone | OtpIssued(phone: string, otp: string)

  datatype VerifyOutcome = Missing | NoOtp | Expired | TooManyAttempts | WrongOtp | Verified(phone: string)

  /** One `verify-otp` request against the store: its outcome and the store it leaves. The
      checks run in the order missing field, no entry, expiry, attempts, mismatch. */
  function VerifyStep(m: map<string, OtpEntry>, phone: string, otp: string, now: int): (r: (VerifyOutcome, map<string, OtpEntry>))
    ensures phone == "" || otp == "" ==> r == (Missing, m)
    ensures phone != "" && otp != "" && CleanPhone(phone) !in m ==> r == (NoOtp, m)
    ensures phone != "" && otp != "" && CleanPhone(phone) in m ==>
              var key := CleanPhone(phone);
              var e := m[key];
              (e.expiresAt < now ==> r == (Expired, m - {key}))
              && (e.expiresAt >= now && e.attempts >= MAX_ATTEMPTS ==> r == (TooManyAttempts, m - {key}))
              && (e.expiresAt >= now && e.attempts < MAX_ATTEMPTS && e.otp != otp ==>
                    r == (WrongOtp, m[key := e.(attempts := e.attempts + 1)]))
              && (e.expiresAt >= now && e.attempts < MAX_ATTEMPTS && e.otp == otp ==> r == (Verified(key), m - {key}))
    ensures r.0.Verified? <==>
              phone != "" && otp != "" && CleanPhone(phone) in m
              && m[CleanPhone(phone)].expiresAt >= now && m[CleanPhone(phone)].attempts < MAX_ATTEMPTS
              && m[CleanPhone(phone)].otp == otp
    ensures r.0 == WrongOtp ==>
              CleanPhone(phone) in m && m[CleanPhone(phone)].attempts < MAX_ATTEMPTS && r.1 == m[CleanPhone(phone) := m[CleanPhone(phone)].(attempts := m[CleanPhone(phone)].attempts + 1)]
    ensures r.0 in {Expired, TooManyAttempts} || r.0.Verified? ==> r.1 == m - {CleanPhone(phone)}
    ensures r.0 in {Missing, NoOtp} ==> r.1 == m
  {
    if phone == "" || otp == "" then (Missing, m)
    else
      var key := CleanPhone(phone);
      if key !in m then (NoOtp, m)
      else
        var stored := m[key];
        if stored.expiresAt < now then (Expired, m - {key})
        else if stored.attempts >= MAX_ATTEMPTS then (TooManyAttempts, m - {key})
        else if stored.otp != otp then (WrongOtp, m[key := stored.(attempts := stored.attempts + 1)])
        else (Verified(key), m - {key})
  }

  /** The outcomes of a run of `verify-otp` requests for one phone, each a guess at a time. */
  datatype Guess = Guess(otp: string, now: int)

  function VerifyAll(m: map<string, OtpEntry>, phone: string, guesses: seq<Guess>): seq<VerifyOutcome>
    decreases |guesses|
  {
    if guesses == [] then []
    else
      var step := VerifyStep(m, phone, guesses[0].otp, guesses[0].now);
      [step.0] + VerifyAll(step.1, phone, guesses[1..])
  }

  function CountWrong(outs: seq<VerifyOutcome>): nat
  {
    if outs == [] then 0 else (if outs[0] == WrongOtp then 1 else 0) + CountWrong(outs[1..])
  }

  function CountVerified(outs: seq<VerifyOutcome>): nat
  {
    if outs == [] then 0 else (if outs[0].Verified? then 1 else 0) + CountVerified(outs[1..])
  }

  /** What one request does to the entry of the phone it names. */
  lemma StepEffect(m: map<string, OtpEntry>, phone: string, otp: string, now: int)
    ensures var step := VerifyStep(m, phone, otp, now);
      var key := CleanPhone(phone);
      (step.0 == WrongOtp ==>
         key in m && m[key].attempts < MAX_ATTEMPTS && key in step.1 && step.1[key].attempts == m[key].attempts + 1)
      && (step.0.Verified? ==> key in m && key !in step.1)
      && (step.0 != WrongOtp && !step.0.Verified? ==> step.1 == m || key !in step.1)
  {
  }

  /** However many guesses follow, an issued code takes at most three wrong guesses and is
      accepted at most once; without a code nothing is ever accepted. */
  lemma {:induction false} AtMostThreeWrongGuesses(m: map<string, OtpEntry>, phone: string, guesses: seq<Guess>)
    requires CleanPhone(phone) in m ==> m[CleanPhone(phone)].attempts <= MAX_ATTEMPTS
    ensures var outs := VerifyAll(m, phone, guesses);
      var key := CleanPhone(phone);
      CountWrong(outs) <= (if key in m then MAX_ATTEMPTS - m[key].attempts else 0)
      && CountVerified(outs) <= (if key in m then 1 else 0)
    decreases |guesses|
  {
    if guesses != [] {
      var step := VerifyStep(m, phone, guesses[0].otp, guesses[0].now);
      var rest := VerifyAll(step.1, phone, guesses[1..]);
      var outs := [step.0] + rest;
      assert VerifyAll(m, phone, guesses) == outs;
      assert outs[1..] == rest;
      StepEffect(m, phone, guesses[0].otp, guesses[0].now);
      AtMostThreeWrongGuesses(step.1, phone, guesses[1..]);
    }
  }

  /** A code just issued is accepted when presented for the same number within five minutes. */
  lemma IssuedCodeVerifies(m: map<string, OtpEntry>, phone: string, otp: string, sentAt: int, presented: string, at: int)
    requires ValidPhone(phone) && otp != ""
    requires CleanPhone(presented) == CleanPhone(phone) && presented != ""
    requires at <= sentAt + OTP_LIFETIME_MS
    ensures var store := Sweep(m[CleanPhone(phone) := OtpEntry(otp, sentAt + OTP_LIFETIME_MS, 0)], sentAt);
      VerifyStep(store, presented, otp, at).0 == Verified(CleanPhone(phone))
  {
  }

  /** After five minutes the same code is refused as expired, and the entry is deleted. */
  lemma IssuedCodeExpires(m: map<string, OtpEntry>, phone: string, otp: string, sentAt: int, presented: string, at: int)
    requires ValidPhone(phone) && otp != ""
    requires CleanPhone(presented) == CleanPhone(phone) && presented != ""
    requires at > sentAt + OTP_LIFETIME_MS
    ensures var store := Sweep(m[CleanPhone(phone) := OtpEntry(otp, sentAt + OTP_LIFETIME_MS, 0)], sentAt);
      VerifyStep(store, presented, otp, at) == (Expired, store - {CleanPhone(phone)})
  {
  }

  /** The `otpStore` map and the two handlers that change it. */
  class OtpStore {
    var entries: map<string, OtpEntry>

    constructor ()
      ensures entries == map[]
    {
      entries := map[];
    }

    /** `send-otp`: reject an invalid phone; otherwise overwrite the cleaned phone's entry with a
        fresh code, then delete every expired entry. The new entry always survives the sweep. */
    method SendOtp(phone: string, r: real, now: int) returns (result: SendResult)
      requires 0.0 <= r < 1.0
      modifies this
      ensures !ValidPhone(phone) ==> result == InvalidPhone && entries == old(entries)
      ensures ValidPhone(phone) ==>
                result == OtpIssued(CleanPhone(phone), OtpOf(r))
                && entries == Sweep(old(entries)[CleanPhone(phone) := OtpEntry(OtpOf(r), now + OTP_LIFETIME_MS, 0)], now)
                && CleanPhone(phone) in entries && entries[CleanPhone(phone)].attempts == 0
                && forall k :: k in entries ==> entries[k].expiresAt >= now
    {
      if !ValidPhone(phone) {
        return InvalidPhone;
      }
      var clean := CleanPhone(phone);
      var otp := OtpOf(r);
      entries := entries[clean := OtpEntry(otp, now + OTP_LIFETIME_MS, 0)];
      ghost var before := entries;
      var pending := entries.Keys;
      while pending != {}
        invariant pending <= before.Keys
        invariant forall k :: k in entries <==> k in before && (k in pending || before[k].expiresAt >= now)
        invariant forall k :: k in entries ==> entries[k] == before[k]
        decreases pending
      {
        var k :| k in pending;
        if entries[k].expiresAt < now {
          entries := entries - {k};
        }
        pending := pending - {k};
      }
      assert entries == Sweep(before, now);
      result := OtpIssued(clean, otp);
    }

    /** `verify-otp`: one request against the store. */
    method VerifyOtp(phone: string, otp: string, now: int) returns (outcome: VerifyOutcome)
      modifies this
      ensures (outcome, entries) == VerifyStep(old(entries), phone, otp, now)
    {
      if phone == "" || otp == "" {
        return Missing;
      }
      var key := CleanPhone(phone);
      if key !in entries {
        return NoOtp;
      }
      var stored := entries[key];
      if stored.expiresAt < now {
        entries := entries - {key};
        return Expired;
      }
      if stored.attempts >= MAX_ATTEMPTS {
        entries := entries - {key};
        return TooManyAttempts;
      }
      if stored.otp != otp {
        entries := entries[key := stored.(attempts := stored.attempts + 1)];
        return WrongOtp;
      }
      entries := entries - {key};
      outcome := Verified(key);
    }
  }
}

=== FILE: backend_routes.dfy ===
/** `GET /api/routes`: the straight route from a point to a relief camp, scored by the flood
    hazards near it. Great-circle distance is a parameter of the model. */
module RouteSafety {
  import opened Wrappers
  import opened Numeric
  import opened Sorting
  import opened CoreTables

  /** A great-circle distance in kilometres between two latitude/longitude points. */
  type Distance = (real, real, real, real) -> real

  datatype Hazard = Hazard(lat: real, lon: real, severity: string)

  datatype Camp = Camp(id: string, name: string, lat: real, lon: real, isActive: bool)

  /** The two ends of a route. */
  datatype Corridor = Corridor(fromLat: real, fromLon: real, toLat: real, toLon: real)

  /** How many active segments stand for the hazard `h`. */
  function ActiveSegmentsAt(segments: seq<Segment>, h: Hazard): nat
  {
    if segments == [] then 0
    else
      var s := segments[|segments| - 1];
      ActiveSegmentsAt(segments[..|segments| - 1], h) + (if s.isActive && Hazard(s.lat, s.lon, s.severity) == h then 1 else 0)
  }

  /** The hazards of the active flooded segments, in table order, one per segment. */
  function SegmentHazards(segments: seq<Segment>): (hs: seq<Hazard>)
    ensures forall h :: h in hs <==> exists s :: s in segments && s.isActive && h == Hazard(s.lat, s.lon, s.severity)
    ensures forall h :: multiset(hs)[h] == ActiveSegmentsAt(segments, h)
  {
    if segments == [] then []
    else
      var rest := SegmentHazards(segments[..|segments| - 1]);
      var s := segments[|segments| - 1];
      assert segments == segments[..|segments| - 1] + [s];
      rest + (if s.isActive then [Hazard(s.lat, s.lon, s.severity)] else [])
  }

  /** The reports that count as hazards: flood or road-block reports, not resolved, newer than `since`. */
  predicate IsHazardReport(r: Report, since: int)
  {
    (r.reportType == "FLOOD" || r.reportType == "ROAD_BLOCK") && r.status != "RESOLVED" && r.createdAt > since
  }

  /** How many hazard reports stand for the hazard `h`. */
  function HazardReportsAt(reports: seq<Report>, since: int, h: Hazard): nat
  {
    if reports == [] then 0
    else
      var r := reports[|reports| - 1];
      HazardReportsAt(reports[..|reports| - 1], since, h) + (if IsHazardReport(r, since) && Hazard(r.lat, r.lon, r.severity) == h then 1 else 0)
  }

  /** The hazards of the recent open flood and road-block reports, in table order, one per report. */
  function ReportHazards(reports: seq<Report>, since: int): (hs: seq<Hazard>)
    ensures forall h :: h in hs <==> exists r :: r in reports && IsHazardReport(r, since) && h == Hazard(r.lat, r.lon, r.severity)
    ensures forall h :: multiset(hs)[h] == HazardReportsAt(reports, since, h)
  {
    if reports == [] then []
    else
      var rest := ReportHazards(reports[..|reports| - 1], since);
      var r := reports[|reports| - 1];
      assert reports == reports[..|reports| - 1] + [r];
      rest + (if IsHazardReport(r, since) then [Hazard(r.lat, r.lon, r.severity)] else [])
  }

  /** Every hazard the route check considers: active segments first, then recent open reports. */
  function RouteHazards(t: Tables, since: int): seq<Hazard>
  {
    SegmentHazards(t.segments) + ReportHazards(t.reports, since)
  }

  /** Once a report is resolved, neither it nor a segment created from it is a hazard any more:
      the route hazards are those of the other reports and segments alone. */
  lemma ResolvedReportIsNoHazard(t: Tables, id: string, volunteer: string, since: int)
    ensures var w := PatchReport(t, id, "RESOLVED", volunteer);
      w.Accepted? &&
      forall h :: h in RouteHazards(w.tables, since) ==>
        (exists s :: s in t.segments && s.isActive && s.reportId != id && h == Hazard(s.lat, s.lon, s.severity))
        || (exists r :: r in t.reports && IsHazardReport(r, since) && r.id != id && h == Hazard(r.lat, r.lon, r.severity))
  {
    var w := PatchReport(t, id, "RESOLVED", volunteer);
    ResolveDeactivatesOwnSegments(t, id, volunteer);
    forall h | h in RouteHazards(w.tables, since)
      ensures (exists s :: s in t.segments && s.isActive && s.reportId != id && h == Hazard(s.lat, s.lon, s.severity))
        || (exists r :: r in t.reports && IsHazardReport(r, since) && r.id != id && h == Hazard(r.lat, r.lon, r.severity))
    {
      if h in SegmentHazards(w.tables.segments) {
        var s :| s in w.tables.segments && s.isActive && h == Hazard(s.lat, s.lon, s.severity);
        var i :| 0 <= i < |w.tables.segments| && w.tables.segments[i] == s;
        assert t.segments[i] == s;
      } else {
        var r :| r in w.tables.reports && IsHazardReport(r, since) && h == Hazard(r.lat, r.lon, r.severity);
        var i :| 0 <= i < |w.tables.reports| && w.tables.reports[i] == r;
        assert t.reports[i] == r;
      }
    }
  }

  /** Severity points: SEVERE 3, HIGH 2, anything else 1. */
  function SeverityPoints(severity: string): (p: nat)
    ensures 1 <= p <= 3
    ensures p == 3 <==> severity == "SEVERE"
  {
    if severity == "SEVERE" then 3 else if severity == "HIGH" then 2 else 1
  }

  /** A hazard is near the route when it lies within 2 km of either end, or when the detour
      through it is less than one and a half times the direct distance. */
  predicate NearRoute(dist: Distance, c: Corridor, h: Hazard)
  {
    var toStart := dist(c.fromLat, c.fromLon, h.lat, h.lon);
    var toEnd := dist(c.toLat, c.toLon, h.lat, h.lon);
    toStart < 2.0 || toEnd < 2.0 || toStart + toEnd < dist(c.fromLat, c.fromLon, c.toLat, c.toLon) * 1.5
  }

  /** The severity points of the hazards near the route, before the cap. */
  function RawScore(hs: seq<Hazard>, dist: Distance, c: Corridor): nat
  {
    if hs == [] then 0
    else
      var h := hs[|hs| - 1];
      RawScore(hs[..|hs| - 1], dist, c) + (if NearRoute(dist, c, h) then SeverityPoints(h.severity) else 0)
  }

  /** How many hazards are near the route. */
  function NearCount(hs: seq<Hazard>, dist: Distance, c: Corridor): nat
  {
    if hs == [] then 0
    else NearCount(hs[..|hs| - 1], dist, c) + (if NearRoute(dist, c, hs[|hs| - 1]) then 1 else 0)
  }

  /** Each nearby hazard scores between one and three points, and no hazard is counted twice. */
  lemma {:induction false} ScoreBetweenCounts(hs: seq<Hazard>, dist: Distance, c: Corridor)
    ensures NearCount(hs, dist, c) <= RawScore(hs, dist, c) <= 3 * NearCount(hs, dist, c)
    ensures NearCount(hs, dist, c) <= |hs|
    ensures NearCount(hs, dist, c) == 0 <==> forall h :: h in hs ==> !NearRoute(dist, c, h)
  {
    if hs != [] {
      var init := hs[..|hs| - 1];
      ScoreBetweenCounts(init, dist, c);
      assert hs == init + [hs[|hs| - 1]];
      assert forall h :: h in hs <==> h in init || h == hs[|hs| - 1];
    }
  }

  /** The proximity loop: counts the nearby hazards and adds up their points, then caps at 10. */
  method ScoreRoute(hs: seq<Hazard>, dist: Distance, c: Corridor) returns (score: int, nearby: nat)
    ensures score == MinInt(10, RawScore(hs, dist, c)) && nearby == NearCount(hs, dist, c)
    ensures 0 <= score <= 10
  {
    score := 0;
    nearby := 0;
    var i := 0;
    while i < |hs|
      invariant 0 <= i <= |hs|
      invariant score == RawScore(hs[..i], dist, c) && nearby == NearCount(hs[..i], dist, c)
    {
      var h := hs[i];
      var toStart := dist(c.fromLat, c.fromLon, h.lat, h.lon);
      var toEnd := dist(c.toLat, c.toLon, h.lat, h.lon);
      assert hs[..i + 1][..i] == hs[..i];
      if toStart < 2.0 || toEnd < 2.0 || toStart + toEnd < dist(c.fromLat, c.fromLon, c.toLat, c.toLon) * 1.5 {
        nearby := nearby + 1;
        score := score + (if h.severity == "SEVERE" then 3 else if h.severity == "HIGH" then 2 else 1);
      }
      i := i + 1;
    }
    assert hs[..i] == hs;
    score := MinInt(10, score);
  }

  /** `risk_level`: above 7 HIGH, above 4 MODERATE, otherwise LOW. */
  function RiskLevel(score: int): (level: string)
    ensures level == "HIGH" <==> score > 7
    ensures level == "LOW" <==> score <= 4
    ensures level in {"HIGH", "MODERATE", "LOW"}
  {
    if score > 7 then "HIGH" else if score > 4 then "MODERATE" else "LOW"
  }

  const ROUTE_WARNING := "Route passes through reported flood zones. Consider alternative transport."

  /** The warning accompanies every score above 5. */
  function RouteWarning(score: int): (w: Option<string>)
    ensures w.Some? <==> score > 5
    ensures w.Some? ==> w.value == ROUTE_WARNING
  {
    if score > 5 then Some(ROUTE_WARNING) else None
  }

  /** A HIGH route always carries the warning and a LOW one never does; a MODERATE route carries
      it only from score 6 on, so a score of 5 is MODERATE without a warning. */
  lemma LevelAndWarningAgree(score: int)
    ensures RiskLevel(score) == "HIGH" ==> RouteWarning(score).Some?
    ensures RiskLevel(score) == "LOW" ==> RouteWarning(score).None?
    ensures RiskLevel(5) == "MODERATE" && RouteWarning(5).None?
  {
  }

  /** Two SEVERE hazards near the route are enough for the warning; one is not. */
  lemma TwoSevereHazardsWarn(a: Hazard, b: Hazard, dist: Distance, c: Corridor)
    requires a.severity == "SEVERE" && b.severity == "SEVERE"
    requires NearRoute(dist, c, a) && NearRoute(dist, c, b)
    ensures RawScore([a], dist, c) == 3 && RouteWarning(MinInt(10, RawScore([a], dist, c))).None?
    ensures RawScore([a, b], dist, c) == 6 && RouteWarning(MinInt(10, RawScore([a, b], dist, c))).Some?
  {
    assert [a, b][..1] == [a];
    assert [a][..0] == [];
  }

  /** The active camps, in table order. */
  function ActiveCamps(camps: seq<Camp>): (active: seq<Camp>)
    ensures forall x :: x in active <==> x in camps && x.isActive
  {
    if camps == [] then []
    else
      assert camps == [camps[0]] + camps[1..];
      (if camps[0].isActive then [camps[0]] else []) + ActiveCamps(camps[1..])
  }

  /** The first active camp with the given id. */
  function FindCamp(camps: seq<Camp>, id: string): (found: Option<Camp>)
    ensures found.Some? ==> found.value in camps && found.value.isActive && found.value.id == id
    ensures found.None? ==> forall x :: x in camps && x.isActive ==> x.id != id
  {
    if camps == [] then None
    else if camps[0].isActive && camps[0].id == id then Some(camps[0])
    else
      var rest := FindCamp(camps[1..], id);
      assert forall x :: x in camps ==> x == camps[0] || x in camps[1..];
      rest
  }

  /** The destination: the camp asked for, or else the active camp nearest the origin (the first
      of the camps sorted by distance). */
  function Destination(camps: seq<Camp>, dist: Distance, fromLat: real, fromLon: real, toCampId: string): (d: Option<Camp>)
    ensures toCampId != "" ==> d == FindCamp(camps, toCampId)
    ensures toCampId == "" ==> (d.None? <==> ActiveCamps(camps) == [])
    ensures toCampId == "" && d.Some? ==>
              d.value in camps && d.value.isActive
              && forall x :: x in camps && x.isActive ==>
                   dist(fromLat, fromLon, d.value.lat, d.value.lon) <= dist(fromLat, fromLon, x.lat, x.lon)
  {
    if toCampId != "" then FindCamp(camps, toCampId)
    else
      var active := ActiveCamps(camps);
      if active == [] then None
      else
        var key := (x: Camp) => dist(fromLat, fromLon, x.lat, x.lon);
        var sorted := SortBy(active, key);
        assert sorted[0] in multiset(active);
        assert forall x :: x in active ==> x in multiset(sorted);
        assert forall x :: x in sorted ==> key(sorted[0]) <= key(x) by {
          forall x | x in sorted
            ensures key(sorted[0]) <= key(x)
          {
            var j :| 0 <= j < |sorted| && sorted[j] == x;
            if j > 0 {
              assert key(sorted[0]) <= key(sorted[j]);
            }
          }
        }
        Some(sorted[0])
  }

  /** The eleven evenly spaced points of the straight line from origin to camp. */
  function Polyline(c: Corridor): (points: seq<(real, real)>)
    ensures |points| == 11
    ensures points[0] == (c.fromLat, c.fromLon) && points[10] == (c.toLat, c.toLon)
    ensures forall i :: 0 < i < 10 ==> points[i - 1].0 <= points[i].0 <= points[i + 1].0 || points[i - 1].0 >= points[i].0 >= points[i + 1].0
  {
    var ps := seq(11, i requires 0 <= i < 11 =>
      (c.fromLat + (c.toLat - c.fromLat) * (i as real / 10.0), c.fromLon + (c.toLon - c.fromLon) * (i as real / 10.0)));
    assert ps[0] == (c.fromLat + (c.toLat - c.fromLat) * 0.0, c.fromLon + (c.toLon - c.fromLon) * 0.0);
    assert ps[10] == (c.fromLat + (c.toLat - c.fromLat) * 1.0, c.fromLon + (c.toLon - c.fromLon) * 1.0);
    ps
  }

  datatype Route = Route(corridor: Corridor, campName: string, distanceKm: real, etaMinutes: int, riskScore: int,
                         riskLevel: string, nearby: nat, coordinates: seq<(real, real)>, warning: Option<string>)

  datatype RouteError = MissingOrigin | CampNotFound | NoActiveCamps

  datatype RoutePlan = Planned(route: Route) | RouteFailed(error: RouteError)

  /** The whole handler. `None` stands for a coordinate that parses to `NaN`; `since` is the
      instant 24 hours before the request. */
  method PlanRoute(t: Tables, camps: seq<Camp>, dist: Distance, fromLat: Option<real>, fromLon: Option<real>,
                   toCampId: string, since: int) returns (plan: RoutePlan)
    ensures fromLat.None? || fromLon.None? <==> plan == RouteFailed(MissingOrigin)
    ensures fromLat.Some? && fromLon.Some? ==>
              var d := Destination(camps, dist, fromLat.value, fromLon.value, toCampId);
              (d.None? <==> plan.RouteFailed?)
              && (d.None? ==> plan.error == if toCampId != "" then CampNotFound else NoActiveCamps)
              && (d.Some? ==>
                    var c := Corridor(fromLat.value, fromLon.value, d.value.lat, d.value.lon);
                    var distance := dist(c.fromLat, c.fromLon, c.toLat, c.toLon);
                    var score := MinInt(10, RawScore(RouteHazards(t, since), dist, c));
                    plan == Planned(Route(c, d.value.name, RoundTo(distance, 2), Scaled(distance * 2.0, 0), score,
                                          RiskLevel(score), NearCount(RouteHazards(t, since), dist, c), Polyline(c),
                                          RouteWarning(score))))
  {
    if fromLat.None? || fromLon.None? {
      return RouteFailed(MissingOrigin);
    }
    var d := Destination(camps, dist, fromLat.value, fromLon.value, toCampId);
    if d.None? {
      return RouteFailed(if toCampId != "" then CampNotFound else NoActiveCamps);
    }
    var c := Corridor(fromLat.value, fromLon.value, d.value.lat, d.value.lon);
    var distance := dist(c.fromLat, c.fromLon, c.toLat, c.toLon);
    var score, nearby := ScoreRoute(RouteHazards(t, since), dist, c);
    var eta := (distance / 30.0 * 60.0 + 0.5).Floor;
    assert distance / 30.0 * 60.0 == distance * 2.0 * Scale(0);
    plan := Planned(Route(c, d.value.name, RoundTo(distance, 2), eta, score, RiskLevel(score), nearby,
                          Polyline(c), RouteWarning(score)));
  }

  /** With no hazard near the route the score is 0, LOW and unwarned. */
  lemma ClearRouteIsLow(hs: seq<Hazard>, dist: Distance, c: Corridor)
    requires forall h :: h in hs ==> !NearRoute(dist, c, h)
    ensures MinInt(10, RawScore(hs, dist, c)) == 0
    ensures RiskLevel(MinInt(10, RawScore(hs, dist, c))) == "LOW" && RouteWarning(0).None?
  {
    ScoreBetweenCounts(hs, dist, c);
  }
}

=== FILE: backend_tables.dfy ===
/** The citizen-report, flooded-segment and SOS tables of the core API, held as in-memory
    sequences, with the handlers that write them (status whitelists, segment creation and
    deactivation) and the list endpoints' paging clamps under SQLite's LIMIT/OFFSET rules. */
module CoreTables {
  import opened Wrappers
  import opened Numeric
  import opened BackendValidation

  datatype Report = Report(id: string, userId: string, reportType: string, description: string,
                           lat: real, lon: real, photoUrl: string, severity: string, status: string,
                           assignedVolunteerId: string, upvotes: nat, createdAt: int)

  datatype Segment = Segment(id: string, lat: real, lon: real, severity: string, reportId: string, isActive: bool)

  datatype SosAlert = SosAlert(id: string, userId: string, lat: real, lon: real, assignedTeam: string,
                               status: string, resolved: bool)

  /** The rows of the three tables; an empty string stands for SQL NULL in optional text columns. */
  datatype Tables = Tables(reports: seq<Report>, segments: seq<Segment>, sos: seq<SosAlert>)

  const REPORT_TYPES: set<string> := {"FLOOD", "DRAIN_BLOCK", "ROAD_BLOCK", "RESCUE_NEEDED",
                                       "DAM_OVERFLOW", "LANDSLIDE", "WATERLOGGING", "OTHER"}
  const SEGMENT_TYPES: set<string> := {"FLOOD", "WATERLOGGING", "ROAD_BLOCK"}
  const REPORT_STATUSES: set<string> := {"PENDING", "ACKNOWLEDGED", "IN_PROGRESS", "RESOLVED"}
  const SOS_STATUSES: set<string> := {"ACTIVE", "RESPONDING", "RESOLVED"}

  /** `x || fallback` on a string. */
  function OrDefault(x: string, fallback: string): string
  {
    if x == "" then fallback else x
  }

  datatype ApiError = MissingFields | InvalidLatLon | InvalidType | InvalidStatus

  datatype Written = Rejected(error: ApiError) | Accepted(tables: Tables)

  /** The body of `POST /api/reports`; an empty string is a missing field. */
  datatype ReportRequest = ReportRequest(reportType: string, description: string, lat: JsValue, lon: JsValue,
                                         photoUrl: string, severity: string)

  /** `POST /api/reports`: validate, insert the report as PENDING with no upvotes, and for a
      flood, waterlogging or road-block report insert one active segment pointing at it. */
  function CreateReport(t: Tables, req: ReportRequest, userId: string, id: string, segmentId: string, now: int): (w: Written)
    ensures w.Accepted? <==>
              req.description != "" && ValidLatLon(req.lat, req.lon) && req.reportType in REPORT_TYPES
    ensures w.Rejected? ==>
              w.error == (if req.reportType == "" || req.description == "" then MissingFields
                          else if !ValidLatLon(req.lat, req.lon) then InvalidLatLon else InvalidType)
    ensures w.Accepted? ==>
              var severity := OrDefault(req.severity, "MODERATE");
              w.tables.sos == t.sos
              && w.tables.reports == t.reports + [Report(id, userId, req.reportType, req.description,
                                                         req.lat.value, req.lon.value, req.photoUrl, severity,
                                                         "PENDING", "", 0, now)]
              && w.tables.segments == t.segments
                   + (if req.reportType in SEGMENT_TYPES
                      then [Segment(segmentId, req.lat.value, req.lon.value, severity, id, true)] else [])
  {
    if req.reportType == "" || req.description == "" then Rejected(MissingFields)
    else if !ValidLatLon(req.lat, req.lon) then Rejected(InvalidLatLon)
    else if req.reportType !in REPORT_TYPES then Rejected(InvalidType)
    else
      var severity := OrDefault(req.severity, "MODERATE");
      var report := Report(id, userId, req.reportType, req.description, req.lat.value, req.lon.value,
                           req.photoUrl, severity, "PENDING", "", 0, now);
      var segments := if req.reportType in SEGMENT_TYPES
                      then t.segments + [Segment(segmentId, req.lat.value, req.lon.value, severity, id, true)]
                      else t.segments;
      Accepted(Tables(t.reports + [report], segments, t.sos))
  }

  /** The row update of `PATCH /api/reports/:id`: `COALESCE` keeps a column when no value is given. */
  function PatchRow(r: Report, id: string, newStatus: string, volunteer: string): Report
  {
    if r.id == id then r.(status := OrDefault(newStatus, r.status), assignedVolunteerId := OrDefault(volunteer, r.assignedVolunteerId))
    else r
  }

  function DeactivateFor(s: Segment, reportId: string): Segment
  {
    if s.reportId == reportId then s.(isActive := false) else s
  }

  /** `PATCH /api/reports/:id`: a given status must be whitelisted; a RESOLVED report deactivates
      every segment created from it. The id is not checked: an unknown id changes no row. */
  function PatchReport(t: Tables, id: string, newStatus: string, volunteer: string): (w: Written)
    ensures w.Rejected? <==> newStatus != "" && newStatus !in REPORT_STATUSES
    ensures w.Rejected? ==> w.error == InvalidStatus
    ensures w.Accepted? ==>
              |w.tables.reports| == |t.reports| && |w.tables.segments| == |t.segments| && w.tables.sos == t.sos
              && (forall i :: 0 <= i < |t.reports| ==> w.tables.reports[i] == PatchRow(t.reports[i], id, newStatus, volunteer))
              && (forall i :: 0 <= i < |t.segments| ==>
                    w.tables.segments[i] == if newStatus == "RESOLVED" then DeactivateFor(t.segments[i], id) else t.segments[i])
  {
    if newStatus != "" && newStatus !in REPORT_STATUSES then Rejected(InvalidStatus)
    else
      var reports := seq(|t.reports|, i requires 0 <= i < |t.reports| => PatchRow(t.reports[i], id, newStatus, volunteer));
      var segments := if newStatus == "RESOLVED"
                      then seq(|t.segments|, i requires 0 <= i < |t.segments| => DeactivateFor(t.segments[i], id))
                      else t.segments;
      Accepted(Tables(reports, segments, t.sos))
  }

  /** Resolving a report leaves no active segment of that report and touches no other segment;
      every other report keeps its row. */
  lemma ResolveDeactivatesOwnSegments(t: Tables, id: string, volunteer: string)
    ensures var w := PatchReport(t, id, "RESOLVED", volunteer);
      w.Accepted?
      && (forall i :: 0 <= i < |w.tables.segments| && w.tables.segments[i].reportId == id ==> !w.tables.segments[i].isActive)
      && (forall i :: 0 <= i < |w.tables.segments| && t.segments[i].reportId != id ==> w.tables.segments[i] == t.segments[i])
      && (forall i :: 0 <= i < |w.tables.reports| && t.reports[i].id == id ==> w.tables.reports[i].status == "RESOLVED")
      && (forall i :: 0 <= i < |w.tables.reports| && t.reports[i].id != id ==> w.tables.reports[i] == t.reports[i])
  {
  }

  /** A patch naming no existing report, and no resolution, leaves the tables as they were. */
  lemma PatchUnknownIdChangesNothing(t: Tables, id: string, newStatus: string, volunteer: string)
    requires forall i :: 0 <= i < |t.reports| ==> t.reports[i].id != id
    requires newStatus in REPORT_STATUSES - {"RESOLVED"} || newStatus == ""
    ensures PatchReport(t, id, newStatus, volunteer) == Accepted(t)
  {
    var w := PatchReport(t, id, newStatus, volunteer);
    assert w.tables.reports == t.reports;
  }

  /** The ids of the reports in the tables. */
  function ReportIds(t: Tables): (ids: set<string>)
    ensures forall r :: r in t.reports ==> r.id in ids
    ensures forall k :: k in ids ==> exists r :: r in t.reports && r.id == k
  {
    set r | r in t.reports :: r.id
  }

  /** Every segment points at a report that exists. */
  predicate SegmentsReferToReports(t: Tables)
  {
    forall s :: s in t.segments ==> s.reportId in ReportIds(t)
  }

  /** Creating and patching reports keep every segment pointing at an existing report. */
  lemma WritesKeepSegmentReferences(t: Tables, req: ReportRequest, userId: string, id: string, segmentId: string, now: int,
                                    patchId: string, newStatus: string, volunteer: string)
    requires SegmentsReferToReports(t)
    ensures var w := CreateReport(t, req, userId, id, segmentId, now);
      w.Accepted? ==> SegmentsReferToReports(w.tables)
    ensures var w := PatchReport(t, patchId, newStatus, volunteer);
      w.Accepted? ==> SegmentsReferToReports(w.tables)
  {
    var c := CreateReport(t, req, userId, id, segmentId, now);
    if c.Accepted? {
      assert ReportIds(t) <= ReportIds(c.tables);
      assert c.tables.reports[|t.reports|].id == id;
    }
    var p := PatchReport(t, patchId, newStatus, volunteer);
    if p.Accepted? {
      forall s | s in p.tables.segments
        ensures s.reportId in ReportIds(p.tables)
      {
        var i :| 0 <= i < |p.tables.segments| && p.tables.segments[i] == s;
        var r :| r in t.reports && r.id == t.segments[i].reportId;
        var j :| 0 <= j < |t.reports| && t.reports[j] == r;
        assert p.tables.reports[j] == PatchRow(t.reports[j], patchId, newStatus, volunteer);
      }
    }
  }

  /** `PATCH /api/sos/:id`: the status must be one of ACTIVE, RESPONDING, RESOLVED; RESOLVED also
      stamps the resolution time. */
  function PatchSos(t: Tables, id: string, newStatus: string): (w: Written)
    ensures w.Rejected? <==> newStatus !in SOS_STATUSES
    ensures w.Accepted? ==>
              w.tables.reports == t.reports && w.tables.segments == t.segments && |w.tables.sos| == |t.sos|
              && forall i :: 0 <= i < |t.sos| ==>
                   w.tables.sos[i] == if t.sos[i].id == id
                                      then t.sos[i].(status := newStatus, resolved := t.sos[i].resolved || newStatus == "RESOLVED")
                                      else t.sos[i]
  {
    if newStatus !in SOS_STATUSES then Rejected(InvalidStatus)
    else
      var sos := seq(|t.sos|, i requires 0 <= i < |t.sos| =>
                   if t.sos[i].id == id then t.sos[i].(status := newStatus, resolved := t.sos[i].resolved || newStatus == "RESOLVED")
                   else t.sos[i]);
      Accepted(Tables(t.reports, t.segments, sos))
  }

  // ---------------------------------------------------------------- paging

  /** `parseInt(x) || fallback`: `None` is `NaN`; `NaN` and 0 both fall back. */
  function ParseIntOr(parsed: Option<int>, fallback: int): (n: int)
    ensures n == fallback || (parsed == Some(n) && n != 0)
  {
    match parsed
    case Some(n) => if n == 0 then fallback else n
    case None => fallback
  }

  /** `Math.max(1, parseInt(page) || 1)`. */
  function ReportPage(parsed: Option<int>): (page: int)
    ensures page >= 1
  {
    MaxInt(1, ParseIntOr(parsed, 1))
  }

  /** `Math.min(50, parseInt(limit) || 20)`, as written: nothing bounds it from below. */
  function ReportLimitAsWritten(parsed: Option<int>): (limit: int)
    ensures limit <= 50
    ensures parsed == None ==> limit == 20
  {
    MinInt(50, ParseIntOr(parsed, 20))
  }

  /** `Math.min(100, parseInt(limit) || 50)` for the SOS list, as written. */
  function SosLimitAsWritten(parsed: Option<int>): (limit: int)
    ensures limit <= 100
    ensures parsed == None ==> limit == 50
  {
    MinInt(100, ParseIntOr(parsed, 50))
  }

  /** SQLite's `LIMIT limit OFFSET offset`: a negative offset counts as 0 and a negative limit
      means no upper bound. */
  function LimitOffset<T>(rows: seq<T>, limit: int, offset: int): (page: seq<T>)
    ensures limit >= 0 ==> |page| <= limit
    ensures limit < 0 && offset <= 0 ==> page == rows
    ensures forall x :: x in page ==> x in rows
    ensures 0 <= offset <= |rows| && limit >= 0 ==> page == rows[offset..MinInt(offset + limit, |rows|)]
    ensures offset < 0 && limit >= 0 ==> page == rows[..MinInt(limit, |rows|)]
    ensures offset > |rows| ==> page == []
    ensures 0 <= offset <= |rows| && limit < 0 ==> page == rows[offset..]
  {
    var from := MinInt(MaxInt(offset, 0), |rows|);
    var to := if limit < 0 then |rows| else MinInt(from + limit, |rows|);
    rows[from..to]
  }

  /** A negative `limit` passes the clamp, makes the offset non-positive, and SQLite then
      returns every matching row: the cap of 50 reports per page is not enforced. */
  lemma NegativeLimitBypassesCap<T>(rows: seq<T>, page: Option<int>)
    requires |rows| > 50
    ensures var limit := ReportLimitAsWritten(Some(-1));
      var offset := (ReportPage(page) - 1) * limit;
      limit == -1 && LimitOffset(rows, limit, offset) == rows && |LimitOffset(rows, limit, offset)| > 50
  {
  }

  /** The same gap in the SOS list: `limit=-1` returns every alert instead of at most 100. */
  lemma NegativeSosLimitBypassesCap<T>(rows: seq<T>)
    requires |rows| > 100
    ensures LimitOffset(rows, SosLimitAsWritten(Some(-1)), 0) == rows
  {
  }

  /** The evidently intended clamp: between 1 and 50, 20 by default. */
  function ReportLimit(parsed: Option<int>): (limit: int)
    ensures 1 <= limit <= 50
    ensures parsed == None ==> limit == 20
    ensures parsed.Some? && 1 <= parsed.value <= 50 ==> limit == parsed.value
  {
    MinInt(50, MaxInt(1, ParseIntOr(parsed, 20)))
  }

  /** The evidently intended SOS clamp: between 1 and 100, 50 by default. */
  function SosLimit(parsed: Option<int>): (limit: int)
    ensures 1 <= limit <= 100
    ensures parsed == None ==> limit == 50
    ensures parsed.Some? && 1 <= parsed.value <= 100 ==> limit == parsed.value
  {
    MinInt(100, MaxInt(1, ParseIntOr(parsed, 50)))
  }

  /** `GET /api/reports` as written: one page of the reports matching the given filters;
      `""` is a filter not given. A negative `limit` lifts the cap. */
  function ListReportsAsWritten(t: Tables, status: string, reportType: string, page: Option<int>, limit: Option<int>): (rows: seq<Report>)
    ensures ParseIntOr(limit, 20) >= 0 ==> |rows| <= 50
    ensures limit == Some(-1) ==> rows == FilterReports(t.reports, status, reportType)
    ensures forall r :: r in rows ==>
              r in t.reports && (status == "" || r.status == status) && (reportType == "" || r.reportType == reportType)
  {
    var matching := FilterReports(t.reports, status, reportType);
    var lim := ReportLimitAsWritten(limit);
    LimitOffset(matching, lim, (ReportPage(page) - 1) * lim)
  }

  /** The corrected handler answers exactly as the written one whenever the requested limit
      does not fall below 1. */
  lemma ListReportsAgreeOnPositiveLimits(t: Tables, status: string, reportType: string, page: Option<int>, limit: Option<int>)
    requires ParseIntOr(limit, 20) >= 1
    ensures ListReports(t, status, reportType, page, limit) == ListReportsAsWritten(t, status, reportType, page, limit)
  {
  }

  /** `GET /api/reports` with the corrected clamp: one page of the reports matching the given
      filters; `""` is a filter not given. */
  function ListReports(t: Tables, status: string, reportType: string, page: Option<int>, limit: Option<int>): (rows: seq<Report>)
    ensures |rows| <= 50
    ensures forall r :: r in rows ==>
              r in t.reports && (status == "" || r.status == status) && (reportType == "" || r.reportType == reportType)
  {
    var matching := FilterReports(t.reports, status, reportType);
    var lim := ReportLimit(limit);
    LimitOffset(matching, lim, (ReportPage(page) - 1) * lim)
  }

  /** The reports query's filters: `""` is a filter not given. */
  predicate ReportMatches(r: Report, status: string, reportType: string)
  {
    (status == "" || r.status == status) && (reportType == "" || r.reportType == reportType)
  }

  /** The `WHERE` clause of `GET /api/reports`: every matching row, as often as it occurs. */
  function FilterReports(rs: seq<Report>, status: string, reportType: string): (m: seq<Report>)
    ensures forall r :: r in m <==> r in rs && (status == "" || r.status == status) && (reportType == "" || r.reportType == reportType)
    ensures forall r :: multiset(m)[r] == if ReportMatches(r, status, reportType) then multiset(rs)[r] else 0
  {
    if rs == [] then []
    else
      var rest := FilterReports(rs[1..], status, reportType);
      assert rs == [rs[0]] + rs[1..];
      if (status == "" || rs[0].status == status) && (reportType == "" || rs[0].reportType == reportType)
      then [rs[0]] + rest else rest
  }

  /** Paging with the corrected clamp visits the rows in order: page `p` starts where page
      `p - 1` ends, and a short page is the last one. */
  lemma PagesAreConsecutive(rows: seq<Report>, p: nat, limit: Option<int>)
    requires p >= 1
    ensures var lim := ReportLimit(limit);
      var first := LimitOffset(rows, lim, (p - 1) * lim);
      var next := LimitOffset(rows, lim, p * lim);
      |first| < lim ==> next == []
    ensures var lim := ReportLimit(limit);
      LimitOffset(rows, lim, (p - 1) * lim) + LimitOffset(rows, lim, p * lim)
        == LimitOffset(rows, 2 * lim, (p - 1) * lim)
  {
    var lim := ReportLimit(limit);
    var q: nat := p - 1;
    assert q * lim >= 0 && q * lim + lim == p * lim by {
      PageOffsets(q, lim);
    }
    WindowsAdjacent(rows, lim, q * lim);
  }

  lemma PageOffsets(q: nat, lim: int)
    requires lim >= 1
    ensures q * lim >= 0 && q * lim + lim == (q + 1) * lim
  {
  }

  /** Two windows of `lim` rows, the second starting where the first ends, together make the
      window of `2·lim` rows from the first offset. */
  lemma WindowsAdjacent<T>(rows: seq<T>, lim: int, o: int)
    requires lim >= 1 && o >= 0
    ensures |LimitOffset(rows, lim, o)| < lim ==> LimitOffset(rows, lim, o + lim) == []
    ensures LimitOffset(rows, lim, o) + LimitOffset(rows, lim, o + lim) == LimitOffset(rows, 2 * lim, o)
  {
    var start := MinInt(o, |rows|);
    var mid := MinInt(start + lim, |rows|);
    var end := MinInt(start + 2 * lim, |rows|);
    if o <= |rows| {
      if o + lim <= |rows| {
        assert LimitOffset(rows, lim, o + lim) == rows[mid..end];
      }
      assert rows[start..mid] + rows[mid..end] == rows[start..end];
    }
  }
}

=== FILE: backend_validation.dfy ===
/** The core API's request validators and its NDRF battalion assignment. */
module BackendValidation {
  import opened Wrappers
  import opened Text

  /** A JSON body field as `typeof` sees it: a number (`NaN` apart), `NaN`, or anything else. */
  datatype JsValue = Number(value: real) | NaN | NotNumber

  /** `validateLatLon`: both are numbers and lie within the latitude and longitude ranges. */
  predicate ValidLatLon(lat: JsValue, lon: JsValue): (v: bool)
    ensures !lat.Number? || !lon.Number? ==> !v
    ensures lat.Number? && lon.Number? ==>
              (v <==> Magnitude(lat.value) <= 90.0 && Magnitude(lon.value) <= 180.0)
  {
    lat.Number? && lon.Number?
    && -90.0 <= lat.value <= 90.0 && -180.0 <= lon.value <= 180.0
  }

  /** The distance of `x` from zero. */
  function Magnitude(x: real): real
  {
    if x < 0.0 then -x else x
  }

  /** `NaN` fails every comparison, so it is never a valid coordinate. */
  lemma NaNIsNeverValid(other: JsValue)
    ensures !ValidLatLon(NaN, other) && !ValidLatLon(other, NaN)
  {
  }

  /** `s.replace(/\D/g, '')`: the ASCII digits of `s`, in order. */
  function DigitsOf(s: string): (d: string)
    ensures |d| <= |s|
    ensures forall i :: 0 <= i < |d| ==> IsDigit(d[i])
  {
    if s == [] then []
    else
      assert s == [s[0]] + s[1..];
      (if IsDigit(s[0]) then [s[0]] else []) + DigitsOf(s[1..])
  }

  /** A string already made of digits is left as it is. */
  lemma {:induction false} DigitsOfDigits(s: string)
    requires forall i :: 0 <= i < |s| ==> IsDigit(s[i])
    ensures DigitsOf(s) == s
  {
    if s != [] {
      DigitsOfDigits(s[1..]);
    }
  }

  /** `validatePhone`: the digits of the number, separators dropped, are 10 to 15 long. */
  predicate ValidPhone(phone: string): (v: bool)
    ensures v ==> 10 <= |phone|
  {
    10 <= |DigitsOf(phone)| <= 15
  }

  /** A number written with digits only is valid exactly when it has 10 to 15 of them. */
  lemma ValidPhoneOfDigits(phone: string)
    requires forall i :: 0 <= i < |phone| ==> IsDigit(phone[i])
    ensures ValidPhone(phone) <==> 10 <= |phone| <= 15
  {
    DigitsOfDigits(phone);
  }

  /** `phone.replace(/\D/g, '').slice(-10)`: the last ten digits, or all of them when fewer. */
  function CleanPhone(phone: string): (c: string)
    ensures var d := DigitsOf(phone);
      |c| == (if |d| < 10 then |d| else 10) && c == d[|d| - |c|..]
    ensures forall i :: 0 <= i < |c| ==> IsDigit(c[i])
  {
    var d := DigitsOf(phone);
    if |d| < 10 then d else d[|d| - 10..]
  }

  /** A valid phone always cleans to exactly ten digits, and cleaning twice changes nothing more. */
  lemma CleanPhoneOfValid(phone: string)
    requires ValidPhone(phone)
    ensures |CleanPhone(phone)| == 10
    ensures CleanPhone(CleanPhone(phone)) == CleanPhone(phone)
  {
    DigitsOfDigits(CleanPhone(phone));
  }

  lemma {:induction false} DigitsOfAppend(a: string, b: string)
    ensures DigitsOf(a + b) == DigitsOf(a) + DigitsOf(b)
  {
    if a == [] {
      assert a + b == b;
    } else {
      assert (a + b)[0] == a[0];
      assert (a + b)[1..] == a[1..] + b;
      DigitsOfAppend(a[1..], b);
    }
  }

  /** A separator (any character other than a digit) anywhere in a number does not change
      whether it validates. */
  lemma ValidPhoneIgnoresSeparator(a: string, c: char, b: string)
    requires !IsDigit(c)
    ensures ValidPhone(a + [c] + b) == ValidPhone(a + b)
  {
    DigitsOfAppend(a + [c], b);
    DigitsOfAppend(a, [c]);
    DigitsOfAppend(a, b);
    assert DigitsOf([c]) == [];
  }

  /** A ten-digit number behind a prefix such as "+91 " validates and cleans to itself, so the
      same subscriber reaches the same OTP entry with or without the country code. */
  lemma CountryCodeIgnored(prefix: string, number: string)
    requires |number| == 10 && forall i :: 0 <= i < |number| ==> IsDigit(number[i])
    requires |DigitsOf(prefix)| <= 5
    ensures ValidPhone(prefix + number)
    ensures CleanPhone(prefix + number) == number
  {
    DigitsOfAppend(prefix, number);
    DigitsOfDigits(number);
  }

  // ---------------------------------------------------------------- NDRF

  /** The state → battalion table of `assignNdrfTeam`. */
  const NDRF_TEAMS: map<string, string> := map[
    "Tamil Nadu" := "4 NDRF Bn, Arakkonam", "Kerala" := "4 NDRF Bn, Arakkonam",
    "Andhra Pradesh" := "10 NDRF Bn, Vijayawada", "Telangana" := "10 NDRF Bn, Vijayawada",
    "Karnataka" := "5 NDRF Bn, Pune", "Maharashtra" := "5 NDRF Bn, Pune",
    "Gujarat" := "6 NDRF Bn, Vadodara", "Rajasthan" := "6 NDRF Bn, Vadodara",
    "West Bengal" := "2 NDRF Bn, Kolkata", "Odisha" := "3 NDRF Bn, Mundali",
    "Bihar" := "9 NDRF Bn, Patna", "Jharkhand" := "9 NDRF Bn, Patna",
    "Uttar Pradesh" := "8 NDRF Bn, Ghaziabad", "Delhi" := "8 NDRF Bn, Ghaziabad",
    "Punjab" := "7 NDRF Bn, Bhatinda", "Haryana" := "7 NDRF Bn, Bhatinda",
    "Assam" := "1 NDRF Bn, Guwahati", "Arunachal Pradesh" := "12 NDRF Bn, Itanagar"
  ]

  /** The battalion covering a latitude band, for states outside the table. */
  function TeamByLatitude(lat: real): (team: string)
    ensures lat < 15.0 ==> team == "4 NDRF Bn, Arakkonam"
    ensures 15.0 <= lat < 20.0 ==> team == "10 NDRF Bn, Vijayawada"
    ensures 20.0 <= lat < 25.0 ==> team == "5 NDRF Bn, Pune"
    ensures 25.0 <= lat ==> team == "8 NDRF Bn, Ghaziabad"
  {
    if lat < 15.0 then "4 NDRF Bn, Arakkonam"
    else if lat < 20.0 then "10 NDRF Bn, Vijayawada"
    else if lat < 25.0 then "5 NDRF Bn, Pune"
    else "8 NDRF Bn, Ghaziabad"
  }

  /** `assignNdrfTeam`: the table entry for a listed state, otherwise the latitude band. The
      longitude is never consulted. */
  function AssignNdrfTeam(lat: real, lon: real, state: Option<string>): (team: string)
    ensures state.Some? && state.value in NDRF_TEAMS ==> team == NDRF_TEAMS[state.value]
    ensures !(state.Some? && state.value in NDRF_TEAMS) ==> team == TeamByLatitude(lat)
  {
    match state
    case Some(s) => if s in NDRF_TEAMS then NDRF_TEAMS[s] else TeamByLatitude(lat)
    case None => TeamByLatitude(lat)
  }

  /** Every assignment names one of the battalions of the table. */
  lemma AssignmentIsListedBattalion(lat: real, lon: real, state: Option<string>)
    ensures AssignNdrfTeam(lat, lon, state) in NDRF_TEAMS.Values
  {
    var team := AssignNdrfTeam(lat, lon, state);
    if !(state.Some? && state.value in NDRF_TEAMS) {
      if lat < 15.0 {
        assert NDRF_TEAMS["Kerala"] == team;
      } else if lat < 20.0 {
        assert NDRF_TEAMS["Telangana"] == team;
      } else if lat < 25.0 {
        assert NDRF_TEAMS["Karnataka"] == team;
      } else {
        assert NDRF_TEAMS["Delhi"] == team;
      }
    }
  }

  /** An unlisted state, or none at all, is assigned by latitude alone: the same point gets the
      same battalion whatever unlisted name is given. */
  lemma UnlistedStatesShareAssignment(lat: real, lon: real, s1: Option<string>, s2: Option<string>)
    requires s1.None? || s1.value !in NDRF_TEAMS
    requires s2.None? || s2.value !in NDRF_TEAMS
    ensures AssignNdrfTeam(lat, lon, s1) == AssignNdrfTeam(lat, lon, s2)
  {
  }
}

=== FILE: cortex_api.dfy ===
/** The prediction endpoints of the AI cortex: how a fetched weather and discharge pair is
    turned into a response, when the response is marked "degraded", the safe error response,
    and the capped bulk prediction that records per-location failures and keeps going.
    The risk model and the alert interpreter are parameters the model does not look into. */
module CortexApi {
  import opened Wrappers
  import opened Text
  import opened WeatherService

  /** A location as posted to `/predict` or inside a bulk request. */
  datatype PredictRequest = PredictRequest(lat: real, lon: real, districtName: Option<string>, stateName: Option<string>)

  /** The fields of the predictor's answer that the endpoints read. */
  datatype Risk = Risk(riskLevel: string, riskScore: real, probability: real, category: string)

  /** One alert produced by the interpreter; its content is not interpreted here. */
  datatype Alert = Alert(fields: map<string, string>)

  /** `predict_risk(weather, discharge)`: a risk, or the text of the exception it raises. */
  type Predictor = (Weather, Discharge) -> Result<Risk>

  /** `interpret_weather_risk(weather)`: the alerts, or the text of the exception it raises. */
  type Interpreter = Weather -> Result<seq<Alert>>

  datatype Location = Location(lat: real, lon: real, district: Option<string>, state: Option<string>)

  /** The body of a `/predict` response. */
  datatype PredictResponse =
    | Assessed(status: string, location: Location, risk: Risk, weather: Weather, discharge: Discharge,
               alerts: seq<Alert>, notice: Option<string>)
    | Errored(status: string, location: Location, risk: Risk,
              weatherSource: string, weatherRainfall24h: real, weatherSoilMoisture: real,
              dischargeSource: string, dischargeCurrent: real,
              alerts: seq<Alert>, error: string)

  const CACHED_SUFFIX: string := "(cached)"
  const NOTICE: string := "Data may be stale — network temporarily unavailable. Using cached/estimated values."
  const UNKNOWN_RISK: Risk := Risk("UNKNOWN", 0.0, 0.0, "unknown")

  /** The data is degraded when the weather came from the cache or from the defaults. */
  predicate IsDegraded(w: Weather)
  {
    EndsWith(w.source, CACHED_SUFFIX) || w.source == UNAVAILABLE
  }

  function LocationOf(req: PredictRequest): Location
  {
    Location(req.lat, req.lon, req.districtName, req.stateName)
  }

  /** `predict_flood_risk` once the weather and discharge are in hand: the predictor runs first,
      then the interpreter; either one raising yields the safe error response. */
  function Respond(req: PredictRequest, w: Weather, d: Discharge, predict: Predictor, interpret: Interpreter): (r: PredictResponse)
    ensures r.location == LocationOf(req)
    ensures r.Assessed? <==> predict(w, d).Success? && interpret(w).Success?
    ensures r.Assessed? ==> r.status == (if IsDegraded(w) then "degraded" else "success")
    ensures r.Assessed? ==> (r.notice.Some? <==> r.status == "degraded")
    ensures r.Assessed? ==>
              r.weather == w && r.discharge == d
              && r.risk == predict(w, d).value && r.alerts == interpret(w).value
    ensures r.Errored? ==>
              r.status == "error" && r.risk == UNKNOWN_RISK && r.alerts == []
              && r.weatherSource == UNAVAILABLE && r.weatherRainfall24h == 0.0 && r.weatherSoilMoisture == 0.0
              && r.dischargeSource == UNAVAILABLE && r.dischargeCurrent == 0.0
              && r.error == (if predict(w, d).Failure? then predict(w, d).error else interpret(w).error)
  {
    match predict(w, d)
    case Failure(msg) => ErrorResponse(req, msg)
    case Success(risk) =>
      match interpret(w)
      case Failure(msg) => ErrorResponse(req, msg)
      case Success(alerts) =>
        var degraded := IsDegraded(w);
        Assessed(if degraded then "degraded" else "success", LocationOf(req), risk, w, d, alerts,
                 if degraded then Some(NOTICE) else None)
  }

  function ErrorResponse(req: PredictRequest, msg: string): PredictResponse
  {
    Errored("error", LocationOf(req), UNKNOWN_RISK, UNAVAILABLE, 0.0, 0.0, UNAVAILABLE, 0.0, [], msg)
  }

  /** The discharge never influences whether a response is degraded. */
  lemma StatusIgnoresDischarge(req: PredictRequest, w: Weather, d1: Discharge, d2: Discharge, predict: Predictor, interpret: Interpreter)
    requires predict(w, d1).Success? && predict(w, d2).Success? && interpret(w).Success?
    ensures Respond(req, w, d1, predict, interpret).status == Respond(req, w, d2, predict, interpret).status
    ensures Respond(req, w, d1, predict, interpret).notice == Respond(req, w, d2, predict, interpret).notice
  {
  }

  lemma FreshSourceNotCached()
    ensures !EndsWith(WEATHER_SOURCE, CACHED_SUFFIX)
  {
    assert |WEATHER_SOURCE| - |CACHED_SUFFIX| == 2;
    assert WEATHER_SOURCE[2..][0] == 'e' && CACHED_SUFFIX[0] == '(';
  }

  /** Behind the acquisition layer, a response is degraded exactly when the weather fetch failed,
      whether a cached copy or the defaults stood in for it. */
  lemma DegradedExactlyWhenWeatherFetchFailed(cache: map<CacheKey, Weather>, lat: real, lon: real,
                                              fetched: Outcome<WeatherPayload>, now: Timestamp)
    requires WeatherCacheValid(cache)
    ensures IsDegraded(AcquireWeather(cache, lat, lon, fetched, now).result) <==> fetched.Raised?
  {
    var w := AcquireWeather(cache, lat, lon, fetched, now).result;
    AcquireWeatherTiers(cache, lat, lon, fetched, now);
    if fetched.Fetched? {
      FreshSourceNotCached();
    } else if KeyOf(lat, lon) in cache {
      assert w.source == WEATHER_CACHED_SOURCE;
      assert WEATHER_CACHED_SOURCE[|WEATHER_CACHED_SOURCE| - |CACHED_SUFFIX|..] == CACHED_SUFFIX;
    }
  }

  /** `/predict`: fetch the weather, then the discharge, through the cached acquisition layer,
      then respond. Neither fetch can make the endpoint raise. */
  method PredictFloodRisk(layer: AcquisitionLayer, req: PredictRequest,
                          weatherNet: nat -> Attempt<WeatherPayload>, dischargeNet: nat -> Attempt<DischargePayload>,
                          now: Timestamp, predict: Predictor, interpret: Interpreter)
    returns (r: PredictResponse)
    requires layer.Valid()
    modifies layer
    ensures layer.Valid()
    ensures var wa := AcquireWeather(old(layer.weatherCache), req.lat, req.lon, RetryFrom(weatherNet, DEFAULT_RETRIES, 0, None).outcome, now);
      var da := AcquireDischarge(old(layer.dischargeCache), req.lat, req.lon, RetryFrom(dischargeNet, DEFAULT_RETRIES, 0, None).outcome, now);
      r == Respond(req, wa.result, da.result, predict, interpret)
      && layer.weatherCache == wa.cache && layer.dischargeCache == da.cache
  {
    var w, _ := layer.GetCurrentWeather(req.lat, req.lon, weatherNet, now);
    var d, _ := layer.GetRiverDischarge(req.lat, req.lon, dischargeNet, now);
    r := Respond(req, w, d, predict, interpret);
  }

  /** The `{"status": "success", "data": ...}` envelope of `/weather` and `/discharge`. */
  datatype Envelope<T> = Envelope(status: string, data: T)

  /** `/weather`: the acquisition result always comes back wrapped as a success. */
  method GetWeather(layer: AcquisitionLayer, lat: real, lon: real, net: nat -> Attempt<WeatherPayload>, now: Timestamp)
    returns (e: Envelope<Weather>)
    requires layer.Valid()
    modifies layer
    ensures layer.Valid()
    ensures e.status == "success"
    ensures var a := AcquireWeather(old(layer.weatherCache), lat, lon, RetryFrom(net, DEFAULT_RETRIES, 0, None).outcome, now);
      e.data == a.result && layer.weatherCache == a.cache && layer.dischargeCache == old(layer.dischargeCache)
  {
    var w, _ := layer.GetCurrentWeather(lat, lon, net, now);
    e := Envelope("success", w);
  }

  /** `/discharge`: the acquisition result always comes back wrapped as a success. */
  method GetDischarge(layer: AcquisitionLayer, lat: real, lon: real, net: nat -> Attempt<DischargePayload>, now: Timestamp)
    returns (e: Envelope<Discharge>)
    requires layer.Valid()
    modifies layer
    ensures layer.Valid()
    ensures e.status == "success"
    ensures var a := AcquireDischarge(old(layer.dischargeCache), lat, lon, RetryFrom(net, DEFAULT_RETRIES, 0, None).outcome, now);
      e.data == a.result && layer.dischargeCache == a.cache && layer.weatherCache == old(layer.weatherCache)
  {
    var d, _ := layer.GetRiverDischarge(lat, lon, net, now);
    e := Envelope("success", d);
  }

  // ---------------------------------------------------------------- bulk

  const BULK_CAP: nat := 50

  /** One element of the bulk `results` list; a failed entry carries no state. */
  datatype BulkEntry =
    | Scored(lat: real, lon: real, district: Option<string>, state: Option<string>,
             riskLevel: string, riskScore: real, probability: real, rainfall24h: real)
    | BulkFailed(lat: real, lon: real, district: Option<string>, error: string)

  /** The entry for one location once its weather and discharge are known. */
  function BulkEntryFor(loc: PredictRequest, w: Weather, d: Discharge, predict: Predictor): (e: BulkEntry)
    ensures e.lat == loc.lat && e.lon == loc.lon && e.district == loc.districtName
    ensures e.Scored? <==> predict(w, d).Success?
    ensures e.BulkFailed? ==> e.error == predict(w, d).error
    ensures e.Scored? ==>
              e.state == loc.stateName && e.rainfall24h == w.rainfall24h
              && e.riskLevel == predict(w, d).value.riskLevel && e.riskScore == predict(w, d).value.riskScore
              && e.probability == predict(w, d).value.probability
  {
    match predict(w, d)
    case Success(risk) =>
      Scored(loc.lat, loc.lon, loc.districtName, loc.stateName, risk.riskLevel, risk.riskScore, risk.probability, w.rainfall24h)
    case Failure(msg) => BulkFailed(loc.lat, loc.lon, loc.districtName, msg)
  }

  /** The results gathered so far and the two caches they leave behind. */
  datatype BulkState = BulkState(results: seq<BulkEntry>, weatherCache: map<CacheKey, Weather>,
                                 dischargeCache: map<CacheKey, Discharge>)

  /** How the `i`-th location's weather or discharge is acquired from the cache it finds. */
  type WeatherAcquirer = (map<CacheKey, Weather>, PredictRequest, nat) -> Acquired<Weather>
  type DischargeAcquirer = (map<CacheKey, Discharge>, PredictRequest, nat) -> Acquired<Discharge>

  /** `get_current_weather` for the `i`-th location, behind the network it sees and its clock. */
  function LayerWeather(weatherNets: nat -> nat -> Attempt<WeatherPayload>, clock: nat -> Timestamp): WeatherAcquirer
  {
    (c: map<CacheKey, Weather>, loc: PredictRequest, i: nat) =>
      AcquireWeather(c, loc.lat, loc.lon, RetryFrom(weatherNets(i), DEFAULT_RETRIES, 0, None).outcome, clock(i))
  }

  /** `get_river_discharge` for the `i`-th location, behind the network it sees and its clock. */
  function LayerDischarge(dischargeNets: nat -> nat -> Attempt<DischargePayload>, clock: nat -> Timestamp): DischargeAcquirer
  {
    (c: map<CacheKey, Discharge>, loc: PredictRequest, i: nat) =>
      AcquireDischarge(c, loc.lat, loc.lon, RetryFrom(dischargeNets(i), DEFAULT_RETRIES, 0, None).outcome, clock(i))
  }

  /** One pass of the bulk loop for the location at position `i`: its weather, then its
      discharge, through the shared caches, then its entry appended. */
  function BulkStep(s: BulkState, i: nat, loc: PredictRequest, aw: WeatherAcquirer, ad: DischargeAcquirer,
                    predict: Predictor): BulkState
  {
    var wa := aw(s.weatherCache, loc, i);
    var da := ad(s.dischargeCache, loc, i);
    BulkState(s.results + [BulkEntryFor(loc, wa.result, da.result, predict)], wa.cache, da.cache)
  }

  /** The state after the first `n` locations have been processed, one after the other. */
  function BulkRun(wc: map<CacheKey, Weather>, dc: map<CacheKey, Discharge>, locs: seq<PredictRequest>, n: nat,
                   aw: WeatherAcquirer, ad: DischargeAcquirer, predict: Predictor): BulkState
    requires n <= |locs|
  {
    if n == 0 then BulkState([], wc, dc)
    else BulkStep(BulkRun(wc, dc, locs, n - 1, aw, ad, predict), n - 1, locs[n - 1], aw, ad, predict)
  }

  /** Every location gets exactly one entry, in order, naming that location, whatever the
      network and the predictor do. */
  lemma {:induction false} BulkRunShape(wc: map<CacheKey, Weather>, dc: map<CacheKey, Discharge>, locs: seq<PredictRequest>, n: nat,
                                        aw: WeatherAcquirer, ad: DischargeAcquirer, predict: Predictor)
    requires n <= |locs|
    ensures var r := BulkRun(wc, dc, locs, n, aw, ad, predict).results;
      |r| == n
      && forall j :: 0 <= j < n ==>
           r[j].lat == locs[j].lat && r[j].lon == locs[j].lon && r[j].district == locs[j].districtName
    decreases n
  {
    if n > 0 {
      BulkRunShape(wc, dc, locs, n - 1, aw, ad, predict);
      var before := BulkRun(wc, dc, locs, n - 1, aw, ad, predict);
      var step := BulkStep(before, n - 1, locs[n - 1], aw, ad, predict);
      assert BulkRun(wc, dc, locs, n, aw, ad, predict) == step;
      var e := step.results[n - 1];
      assert step.results == before.results + [e];
      assert e.lat == locs[n - 1].lat;
    }
  }

  /** The entry of location `j` is the one built from the data acquired for it, through the
      caches the earlier locations left, and no later location rewrites it: it is scored
      exactly when the predictor succeeds on that data. */
  lemma {:induction false} BulkEntryScoredIff(wc: map<CacheKey, Weather>, dc: map<CacheKey, Discharge>, locs: seq<PredictRequest>, n: nat, j: nat,
                                              aw: WeatherAcquirer, ad: DischargeAcquirer, predict: Predictor)
    requires j < n <= |locs|
    ensures var before := BulkRun(wc, dc, locs, j, aw, ad, predict);
      var w := aw(before.weatherCache, locs[j], j).result;
      var d := ad(before.dischargeCache, locs[j], j).result;
      var r := BulkRun(wc, dc, locs, n, aw, ad, predict).results;
      j < |r| && r[j] == BulkEntryFor(locs[j], w, d, predict)
      && (r[j].Scored? <==> predict(w, d).Success?)
    decreases n
  {
    BulkRunShape(wc, dc, locs, n - 1, aw, ad, predict);
    var before := BulkRun(wc, dc, locs, n - 1, aw, ad, predict);
    var step := BulkStep(before, n - 1, locs[n - 1], aw, ad, predict);
    assert BulkRun(wc, dc, locs, n, aw, ad, predict) == step;
    var e := step.results[n - 1];
    assert step.results == before.results + [e];
    if j < n - 1 {
      BulkEntryScoredIff(wc, dc, locs, n - 1, j, aw, ad, predict);
      assert step.results[j] == before.results[j];
    }
  }

  /** `/predict/bulk`: the first 50 locations in order, one entry each; a failing location
      yields an error entry and the loop goes on. `weatherNets(i)` and `dischargeNets(i)`
      are the network outcomes seen for the `i`-th location, `clock(i)` its time. The results
      and both caches are those of `BulkRun` over the capped list. */
  method PredictBulk(layer: AcquisitionLayer, locations: seq<PredictRequest>,
                     weatherNets: nat -> nat -> Attempt<WeatherPayload>,
                     dischargeNets: nat -> nat -> Attempt<DischargePayload>,
                     clock: nat -> Timestamp, predict: Predictor)
    returns (status: string, results: seq<BulkEntry>)
    requires layer.Valid()
    modifies layer
    ensures layer.Valid()
    ensures status == "success"
    ensures var capped := if |locations| < BULK_CAP then locations else locations[..BULK_CAP];
      BulkState(results, layer.weatherCache, layer.dischargeCache)
        == BulkRun(old(layer.weatherCache), old(layer.dischargeCache), capped, |capped|,
                   LayerWeather(weatherNets, clock), LayerDischarge(dischargeNets, clock), predict)
  {
    var capped := if |locations| < BULK_CAP then locations else locations[..BULK_CAP];
    ghost var wc0, dc0 := layer.weatherCache, layer.dischargeCache;
    ghost var aw, ad := LayerWeather(weatherNets, clock), LayerDischarge(dischargeNets, clock);
    results := [];
    var i := 0;
    while i < |capped|
      invariant 0 <= i <= |capped|
      invariant layer.Valid()
      invariant BulkState(results, layer.weatherCache, layer.dischargeCache)
                  == BulkRun(wc0, dc0, capped, i, aw, ad, predict)
    {
      var loc := capped[i];
      var w, _ := layer.GetCurrentWeather(loc.lat, loc.lon, weatherNets(i), clock(i));
      var d, _ := layer.GetRiverDischarge(loc.lat, loc.lon, dischargeNets(i), clock(i));
      results := results + [BulkEntryFor(loc, w, d, predict)];
      i := i + 1;
    }
    status := "success";
  }
}

=== FILE: frontend_api.dfy ===
/** The command dashboard's API client: its own copy of the weather normaliser, which
    works with JavaScript `slice` and `||` semantics, the last-resort risk score, the
    backend → cortex → direct fallback chain, and the list fetchers that swallow errors. */
module FrontendApi {
  import opened Wrappers
  import opened Numeric
  import opened WeatherService

  // ---------------------------------------------------------------- JS slice

  /** How `Array.prototype.slice` resolves an index: negative counts back from the end, and
      the result is clamped to `0..len`. */
  function JsIndex(len: nat, i: int): (k: nat)
    ensures k <= len
    ensures i >= 0 ==> k == MinInt(i, len)
    ensures i < 0 ==> k == MaxInt(len + i, 0)
  {
    if i < 0 then (if len + i > 0 then len + i else 0) else MinInt(i, len)
  }

  /** `s.slice(start, end)`. */
  function JsSlice<T>(s: seq<T>, start: int, end: int): (r: seq<T>)
    ensures var a, b := JsIndex(|s|, start), JsIndex(|s|, end);
      |r| == (if a < b then b - a else 0) && forall i :: 0 <= i < |r| ==> r[i] == s[a + i]
  {
    var a, b := JsIndex(|s|, start), JsIndex(|s|, end);
    if a < b then s[a..b] else []
  }

  /** `precip.slice(Math.max(0, nowIdx - hours), nowIdx)` with `nowIdx = precip.length - 72`. */
  function JsPastWindow(series: seq<Sample>, hours: nat): seq<Sample>
  {
    var nowIdx := |series| - FORECAST_HOURS;
    JsSlice(series, MaxInt(0, nowIdx - hours), nowIdx)
  }

  /** With at least 72 samples the JavaScript window is the Python window. */
  lemma JsWindowAgreesWhenLong(series: seq<Sample>, hours: nat)
    requires |series| >= FORECAST_HOURS
    ensures JsPastWindow(series, hours) == PastWindow(series, hours)
  {
  }

  /** With 37 to 71 samples the negative `nowIdx` counts back from the end: both JavaScript
      windows are the first `2·len − 72` samples, where Python has an empty window. */
  lemma JsWindowCountsBackWhenShort(series: seq<Sample>, hours: nat)
    requires FORECAST_HOURS / 2 < |series| < FORECAST_HOURS
    ensures JsPastWindow(series, hours) == series[..2 * |series| - FORECAST_HOURS]
    ensures PastWindow(series, hours) == []
  {
  }

  /** With at most 36 samples both windows are empty. */
  lemma JsWindowEmptyWhenTiny(series: seq<Sample>, hours: nat)
    requires |series| <= FORECAST_HOURS / 2
    ensures JsPastWindow(series, hours) == [] && PastWindow(series, hours) == []
  {
  }

  // ---------------------------------------------------------------- normaliser

  /** `v || 0` on a sample: null (and 0) become 0. */
  function OrZero(v: Sample): real
  {
    match v
    case Some(x) => x
    case None => 0.0
  }

  /** `series.reduce((s, v) => s + (v || 0), 0)`. */
  function JsSum(series: seq<Sample>): real
  {
    if series == [] then 0.0 else JsSum(series[..|series| - 1]) + OrZero(series[|series| - 1])
  }

  /** Counting a null as 0 gives the same total as skipping it, so both normalisers agree on the sum. */
  lemma {:induction false} JsSumIsSumNonNull(series: seq<Sample>)
    ensures JsSum(series) == SumNonNull(series)
  {
    if series != [] {
      var n := |series| - 1;
      assert series == series[..n] + [series[n]];
      JsSumIsSumNonNull(series[..n]);
      NonNullAppend(series[..n], [series[n]]);
      SumAppend(NonNull(series[..n]), NonNull([series[n]]));
      assert [series[n]][1..] == [];
      assert NonNull([series[n]]) == (match series[n] case Some(x) => [x] case None => []);
      if series[n].Some? {
        assert [series[n].value][1..] == [];
      }
    }
  }

  /** `current.name || 0`: a missing, null or zero field reads as 0. */
  function JsField(current: map<string, Sample>, name: string): real
  {
    if name in current then OrZero(current[name]) else 0.0
  }

  /** The `WeatherData` object `fetchWeatherDirect` builds. */
  datatype DirectWeather = DirectWeather(
    lat: real, lon: real,
    temperature: real, humidity: real, currentPrecipitation: real, currentRain: real,
    windSpeed: real, weatherCode: real,
    rainfall24h: real, rainfall7d: real, soilMoisture: real,
    dailyPrecipitation: seq<Sample>, dailyDates: seq<string>,
    source: string, timestamp: Timestamp)

  const DIRECT_SOURCE: string := "Open-Meteo (direct)"

  /** `fetchWeatherDirect` once the response body is parsed. The response status is not checked. */
  function FetchWeatherDirect(lat: real, lon: real, p: WeatherPayload, now: Timestamp): (w: DirectWeather)
    ensures w.lat == lat && w.lon == lon && w.source == DIRECT_SOURCE
    ensures w.dailyPrecipitation == p.dailyPrecipitationSum && w.dailyDates == p.dailyTime
  {
    DirectWeather(lat, lon,
      JsField(p.current, "temperature_2m"), JsField(p.current, "relative_humidity_2m"),
      JsField(p.current, "precipitation"), JsField(p.current, "rain"),
      JsField(p.current, "wind_speed_10m"), JsField(p.current, "weather_code"),
      RoundTo(JsSum(JsPastWindow(p.hourlyPrecipitation, 24)), 1),
      RoundTo(JsSum(JsPastWindow(p.hourlyPrecipitation, 168)), 1),
      LastValid(p.hourlySoilMoisture),
      p.dailyPrecipitationSum, p.dailyTime, DIRECT_SOURCE, now)
  }

  /** On a series of at least 72 hours the two normalisers compute the same rainfall totals;
      the soil moisture agrees up to the Python side's rounding to four places; a current field
      agrees whenever Python did not pass a null through. */
  lemma DirectAgreesWithCortex(lat: real, lon: real, p: WeatherPayload, now: Timestamp)
    requires |p.hourlyPrecipitation| >= FORECAST_HOURS
    ensures var js := FetchWeatherDirect(lat, lon, p, now);
      var py := NormalizeWeather(lat, lon, p, now);
      js.rainfall24h == py.rainfall24h && js.rainfall7d == py.rainfall7d
      && RoundTo(js.soilMoisture, 4) == py.soilMoisture
      && (py.temperature.Some? ==> js.temperature == py.temperature.value)
      && (py.humidity.Some? ==> js.humidity == py.humidity.value)
  {
    JsWindowAgreesWhenLong(p.hourlyPrecipitation, 24);
    JsWindowAgreesWhenLong(p.hourlyPrecipitation, 168);
    JsSumIsSumNonNull(PastWindow(p.hourlyPrecipitation, 24));
    JsSumIsSumNonNull(PastWindow(p.hourlyPrecipitation, 168));
  }

  /** Missing current-condition fields read as 0 where Python's `get(name, 0)` would also give 0,
      and a null field reads as 0 where Python passes the null on. */
  lemma MissingFieldsReadZero(lat: real, lon: real, p: WeatherPayload, now: Timestamp)
    requires "temperature_2m" !in p.current || p.current["temperature_2m"] == None
    ensures FetchWeatherDirect(lat, lon, p, now).temperature == 0.0
    ensures "temperature_2m" in p.current ==> NormalizeWeather(lat, lon, p, now).temperature == None
  {
  }

  // ---------------------------------------------------------------- last resort score

  /** `Math.min(10, rainfall * 0.15 + soil * 4)`. */
  function LastResortScore(rainfall24h: real, soil: real): (score: real)
    ensures score <= 10.0
    ensures rainfall24h >= 0.0 && soil >= 0.0 ==> score >= 0.0
  {
    MinReal(10.0, rainfall24h * 0.15 + soil * 4.0)
  }

  function LevelOf(score: real): string
  {
    if score > 7.0 then "HIGH" else if score > 4.0 then "MODERATE" else "LOW"
  }

  function LevelRank(level: string): nat
  {
    if level == "HIGH" then 2 else if level == "MODERATE" then 1 else 0
  }

  /** More rain or wetter soil never lowers the last-resort score or its level. */
  lemma LastResortMonotone(r1: real, s1: real, r2: real, s2: real)
    requires r1 <= r2 && s1 <= s2
    ensures LastResortScore(r1, s1) <= LastResortScore(r2, s2)
    ensures LevelRank(LevelOf(LastResortScore(r1, s1))) <= LevelRank(LevelOf(LastResortScore(r2, s2)))
  {
  }

  /** The zeroed discharge placeholder of the last resort. */
  datatype PlaceholderDischarge = PlaceholderDischarge(lat: real, lon: real, current: real, max7d: real, avg7d: real,
                                                       trend: seq<real>, dates: seq<string>, source: string)

  /** A JSON value received from a server and passed on untouched. */
  datatype Json = Json(text: string)

  /** The fields of the cortex's `/predict` answer that the client copies. */
  datatype CortexPrediction = CortexPrediction(riskScore: Json, riskLevel: Json, probability: Json,
                                               factors: Json, recommendation: Json, model: Json,
                                               weather: Json, discharge: Json, alerts: Json)

  /** The `RiskPrediction` the client resolves to, by where it came from. */
  datatype Prediction =
    | FromBackend(body: Json)
    | FromCortex(cortex: CortexPrediction)
    | FromFrontend(riskScore: real, riskLevel: string, probability: real, rainfallImpact: string,
                   recommendation: string, weather: DirectWeather, discharge: PlaceholderDischarge,
                   alerts: seq<Json>, model: string)

  /** The last resort built from the directly fetched weather. */
  function LastResort(lat: real, lon: real, w: DirectWeather): (r: Prediction)
    ensures r.FromFrontend? && r.model == "frontend-fallback" && r.alerts == [] && r.weather == w
    ensures r.discharge.source == UNAVAILABLE && r.discharge.current == 0.0 && r.discharge.max7d == 0.0
      && r.discharge.avg7d == 0.0 && r.discharge.trend == [] && r.discharge.dates == []
    ensures r.discharge.lat == lat && r.discharge.lon == lon
    ensures r.riskLevel == "HIGH" <==> LastResortScore(w.rainfall24h, w.soilMoisture) > 7.0
    ensures r.riskLevel == "MODERATE" <==> 4.0 < LastResortScore(w.rainfall24h, w.soilMoisture) <= 7.0
    ensures r.riskLevel == "LOW" <==> LastResortScore(w.rainfall24h, w.soilMoisture) <= 4.0
    ensures r.riskScore == RoundTo(LastResortScore(w.rainfall24h, w.soilMoisture), 1) && r.riskScore <= 10.0
    ensures r.probability == LastResortScore(w.rainfall24h, w.soilMoisture) / 10.0 && r.probability <= 1.0
    ensures w.rainfall24h >= 0.0 && w.soilMoisture >= 0.0 ==> 0.0 <= r.probability && 0.0 <= r.riskScore
    ensures r.rainfallImpact == (if w.rainfall24h > 50.0 then "HIGH" else "MODERATE")
    ensures r.recommendation == (if r.riskLevel == "HIGH" then "High risk. Monitor closely." else "Normal conditions.")
  {
    var score := LastResortScore(w.rainfall24h, w.soilMoisture);
    assert RoundTo(score, 1) <= 10.0 by {
      RoundToMonotone(score, 10.0, 1);
      RoundToWhole(10, 1);
    }
    assert score >= 0.0 ==> 0.0 <= RoundTo(score, 1) by {
      if score >= 0.0 {
        RoundToWithin(score, 0, 10, 1);
      }
    }
    FromFrontend(RoundTo(score, 1), LevelOf(score), MinReal(1.0, score / 10.0),
                 if w.rainfall24h > 50.0 then "HIGH" else "MODERATE",
                 if score > 7.0 then "High risk. Monitor closely." else "Normal conditions.",
                 w, PlaceholderDischarge(lat, lon, 0.0, 0.0, 0.0, [], [], UNAVAILABLE), [], "frontend-fallback")
  }

  // ---------------------------------------------------------------- fallback chain

  /** One `fetch` and `resp.json()`: the fetch throws, or a response arrives whose body
      parses (or throws while being parsed or read). */
  datatype HttpAttempt<T> = Threw(message: string) | Answered(ok: bool, body: Result<T>)

  /** A tier answers when the response is ok and its body can be read; otherwise the chain moves on. */
  predicate Answers<T>(a: HttpAttempt<T>)
  {
    a.Answered? && a.ok && a.body.Success?
  }

  /** `fetchRiskPrediction`: backend, then cortex, then the direct computation. Only the direct
      fetch is outside a `try`, so only its failure rejects the promise. */
  function FetchRiskPrediction(lat: real, lon: real, backend: HttpAttempt<Json>, cortex: HttpAttempt<CortexPrediction>,
                               direct: Result<WeatherPayload>, now: Timestamp): (r: Result<Prediction>)
    ensures Answers(backend) ==> r == Success(FromBackend(backend.body.value))
    ensures !Answers(backend) && Answers(cortex) ==> r == Success(FromCortex(cortex.body.value))
    ensures r.Failure? <==> !Answers(backend) && !Answers(cortex) && direct.Failure?
    ensures r.Success? && r.value.FromFrontend? <==> !Answers(backend) && !Answers(cortex) && direct.Success?
    ensures r.Success? && r.value.FromFrontend? ==>
      r.value == LastResort(lat, lon, FetchWeatherDirect(lat, lon, direct.value, now))
  {
    if Answers(backend) then Success(FromBackend(backend.body.value))
    else if Answers(cortex) then Success(FromCortex(cortex.body.value))
    else match direct
      case Success(p) => Success(LastResort(lat, lon, FetchWeatherDirect(lat, lon, p, now)))
      case Failure(e) => Failure(e)
  }

  /** A response body read as JSON, by its list-valued fields; a field that is absent or null
      is not in the map. */
  type JsonObject = map<string, seq<Json>>

  /** `json.<field> || []` inside a `try`: the list the response carries under the field, or
      `[]` when the field is missing or the request or the body parse throws. The response
      status is not looked at. */
  function FieldOrEmpty(a: HttpAttempt<JsonObject>, field: string): (r: seq<Json>)
    ensures a.Answered? && a.body.Success? && field in a.body.value ==> r == a.body.value[field]
    ensures a.Threw? || (a.Answered? && (a.body.Failure? || field !in a.body.value)) ==> r == []
  {
    match a
    case Threw(_) => []
    case Answered(_, body) =>
      match body
      case Failure(_) => []
      case Success(obj) => if field in obj then obj[field] else []
  }

  /** A failed response status reads the same list as a successful one. */
  lemma StatusNotChecked(body: Result<JsonObject>, field: string)
    ensures FieldOrEmpty(Answered(false, body), field) == FieldOrEmpty(Answered(true, body), field)
  {
  }

  /** `fetchAlerts`: the response's `alerts` list, or `[]`. */
  function FetchAlerts(a: HttpAttempt<JsonObject>): (r: seq<Json>)
    ensures a.Answered? && a.body.Success? && "alerts" in a.body.value ==> r == a.body.value["alerts"]
    ensures a.Threw? || (a.Answered? && (a.body.Failure? || "alerts" !in a.body.value)) ==> r == []
  {
    FieldOrEmpty(a, "alerts")
  }

  /** `fetchBulkRisk`: the response's `results` list, or `[]`; the posted locations only
      shape the request and are not modelled. */
  function FetchBulkRisk(a: HttpAttempt<JsonObject>): (r: seq<Json>)
    ensures a.Answered? && a.body.Success? && "results" in a.body.value ==> r == a.body.value["results"]
    ensures a.Threw? || (a.Answered? && (a.body.Failure? || "results" !in a.body.value)) ==> r == []
  {
    FieldOrEmpty(a, "results")
  }
}

=== FILE: mesh_chat.dfy ===
/** FloodMesh, the browser side of the mesh messenger: a bounded, de-duplicated message store,
    the relay rule that forwards a message with one less hop to live, and the node's own sends.
    The browser storage and broadcast channel become fields of `MeshNode`. */
module MeshChat {
  import opened Wrappers
  import opened Sorting

  datatype MessageType = Text | Sos | Alert | Location | Ack

  datatype MeshMessage = MeshMessage(id: string, senderId: string, senderName: string, channelId: string,
                                     ttl: int, hops: int, via: seq<string>, kind: MessageType,
                                     payload: string, timestamp: int)

  const MAX_TTL: int := 7
  const CHANNEL_GLOBAL: string := "floodmesh-global"
  const STORE_CAP: nat := 200
  const NODE_ID_CHARS: string := "ABCDEFGHIJKLMNOPQRSTUVWXYZ0123456789"

  /** The ids of the stored messages. */
  function Ids(all: seq<MeshMessage>): (ids: set<string>)
    ensures forall m :: m in all ==> m.id in ids
    ensures forall k :: k in ids ==> exists m :: m in all && m.id == k
  {
    set m | m in all :: m.id
  }

  /** The newest `cap` entries of `s`: the oldest are dropped first. */
  function KeepLast<T>(s: seq<T>, cap: nat): (r: seq<T>)
    ensures |r| == if |s| > cap then cap else |s|
    ensures r == s[|s| - |r|..]
  {
    if |s| > cap then s[|s| - cap..] else s
  }

  /** The store after `saveMessage`: unchanged when the id is already there, otherwise the
      message appended and the store cut back to its newest 200. */
  function Saved(all: seq<MeshMessage>, msg: MeshMessage): seq<MeshMessage>
  {
    if msg.id in Ids(all) then all else KeepLast(all + [msg], STORE_CAP)
  }

  /** No two stored messages share an id. */
  predicate UniqueIds(all: seq<MeshMessage>)
  {
    forall i, j :: 0 <= i < j < |all| ==> all[i].id != all[j].id
  }

  /** Saving never grows a store past 200, keeps ids unique, always holds the message afterwards
      (a new one is the newest entry), and saving the same message again changes nothing. */
  lemma SavedProperties(all: seq<MeshMessage>, msg: MeshMessage)
    requires |all| <= STORE_CAP && UniqueIds(all)
    ensures var s := Saved(all, msg);
      |s| <= STORE_CAP && UniqueIds(s) && msg.id in Ids(s)
      && (msg.id !in Ids(all) ==> s[|s| - 1] == msg && s == (all + [msg])[|all| + 1 - |s|..])
      && Saved(s, msg) == s
  {
    var s := Saved(all, msg);
    if msg.id !in Ids(all) {
      var full := all + [msg];
      forall i, j | 0 <= i < j < |full|
        ensures full[i].id != full[j].id
      {
        if j == |all| {
          assert full[i] in all;
        }
      }
      assert s[|s| - 1] == full[|full| - 1];
      assert msg.id in Ids(s) by {
        assert s[|s| - 1] in s;
      }
    }
  }

  /** The relayed copy of an incoming message: forwarded only while it has hops to live and has
      not passed through this node, with one hop fewer to live, one hop more taken, and this
      node appended to its path. */
  function Relayed(msg: MeshMessage, nodeId: string): (r: Option<MeshMessage>)
    ensures r.Some? <==> msg.ttl > 0 && nodeId !in msg.via
    ensures r.Some? ==>
              r.value.ttl + r.value.hops == msg.ttl + msg.hops && r.value.ttl >= 0 && r.value.ttl < msg.ttl
              && r.value.via == msg.via + [nodeId]
              && r.value.(ttl := msg.ttl, hops := msg.hops, via := msg.via) == msg
  {
    if msg.ttl > 0 && nodeId !in msg.via then Some(msg.(ttl := msg.ttl - 1, hops := msg.hops + 1, via := msg.via + [nodeId]))
    else None
  }

  /** The message as it arrives after being relayed by each node of `path` in turn, if every one
      of them forwards it. */
  function RelayedAlong(msg: MeshMessage, path: seq<string>): Option<MeshMessage>
    decreases |path|
  {
    if path == [] then Some(msg)
    else
      match Relayed(msg, path[0])
      case None => None
      case Some(next) => RelayedAlong(next, path[1..])
  }

  /** A message is forwarded at most `ttl` times along any path, each forwarding node is new to
      its path, and hops to live plus hops taken stay what they were at the sender. */
  lemma {:induction false} RelayBoundedByTtl(msg: MeshMessage, path: seq<string>)
    requires msg.ttl >= 0
    ensures var r := RelayedAlong(msg, path);
      r.Some? ==>
        |path| <= msg.ttl && r.value.ttl == msg.ttl - |path| && r.value.hops == msg.hops + |path|
        && r.value.via == msg.via + path
    decreases |path|
  {
    if path != [] {
      var next := Relayed(msg, path[0]);
      if next.Some? {
        RelayBoundedByTtl(next.value, path[1..]);
        assert msg.via + path == msg.via + [path[0]] + path[1..];
      }
    }
  }

  /** A message fresh from its sender reaches at most seven relays. */
  lemma SentMessageRelayedAtMostSevenTimes(msg: MeshMessage, path: seq<string>)
    requires msg.ttl == MAX_TTL && msg.hops == 0
    requires RelayedAlong(msg, path).Some?
    ensures |path| <= 7 && RelayedAlong(msg, path).value.hops == |path|
  {
    RelayBoundedByTtl(msg, path);
  }

  /** The stored messages of a channel, filtered in store order. */
  function OnChannel(all: seq<MeshMessage>, channelId: string): (r: seq<MeshMessage>)
    ensures forall m :: m in r <==> m in all && m.channelId == channelId
    ensures |r| <= |all|
  {
    if all == [] then []
    else
      assert all == [all[0]] + all[1..];
      (if all[0].channelId == channelId then [all[0]] else []) + OnChannel(all[1..], channelId)
  }

  function TimestampKey(m: MeshMessage): real
  {
    m.timestamp as real
  }

  /** `getMessages`: the channel's messages, oldest first. */
  function MessagesOn(all: seq<MeshMessage>, channelId: string): (r: seq<MeshMessage>)
    ensures multiset(r) == multiset(OnChannel(all, channelId))
    ensures forall m :: m in r <==> m in all && m.channelId == channelId
    ensures forall i, j :: 0 <= i < j < |r| ==> r[i].timestamp <= r[j].timestamp
  {
    var r := SortBy(OnChannel(all, channelId), TimestampKey);
    assert forall m :: m in r <==> m in multiset(OnChannel(all, channelId));
    assert forall i, j :: 0 <= i < j < |r| ==> TimestampKey(r[i]) <= TimestampKey(r[j]);
    r
  }

  /** The character `chars[Math.floor(r * chars.length)]` picks for a draw `r` in [0, 1). */
  function NodeIdChar(r: real): (c: char)
    requires 0.0 <= r < 1.0
    ensures c in NODE_ID_CHARS
  {
    var k := (r * 36.0).Floor;
    assert 0 <= k < 36;
    NODE_ID_CHARS[k]
  }

  /** `genNodeId`, given its six random draws. */
  method GenNodeId(draws: seq<real>) returns (id: string)
    requires |draws| == 6 && forall i :: 0 <= i < 6 ==> 0.0 <= draws[i] < 1.0
    ensures |id| == 9 && id[..3] == "FM-"
    ensures forall i :: 3 <= i < 9 ==> id[i] in NODE_ID_CHARS && id[i] == NodeIdChar(draws[i - 3])
  {
    id := "FM-";
    var i := 0;
    while i < 6
      invariant 0 <= i <= 6 && |id| == 3 + i && id[..3] == "FM-"
      invariant forall k :: 3 <= k < 3 + i ==> id[k] == NodeIdChar(draws[k - 3])
    {
      id := id + [NODE_ID_CHARS[(draws[i] * 36.0).Floor]];
      i := i + 1;
    }
  }

  /** `MeshState` as `startMesh` reports it. */
  datatype MeshState = MeshState(nodeId: string, nickname: string, isActive: bool, peerCount: nat, messagesRelayed: nat)

  /** One browser node: its identity, the stored messages, the ids already seen, and the
      messages it has posted to the channel and handed to the page, in order. `active` is a
      channel and a callback installed by `startMesh` and removed by `stopMesh`. */
  class MeshNode {
    const nodeId: string
    const nickname: string
    var stored: seq<MeshMessage>
    var seenIds: set<string>
    var posted: seq<MeshMessage>
    var delivered: seq<MeshMessage>
    var active: bool

    ghost predicate Valid()
      reads this
    {
      |stored| <= STORE_CAP && UniqueIds(stored)
    }

    constructor (nodeId: string, nickname: string)
      ensures this.nodeId == nodeId && this.nickname == nickname
      ensures stored == [] && seenIds == {} && posted == [] && delivered == [] && !active
      ensures Valid()
    {
      this.nodeId := nodeId;
      this.nickname := nickname;
      stored := [];
      seenIds := {};
      posted := [];
      delivered := [];
      active := false;
    }

    /** `saveMessage`: look the id up, then append and trim. */
    method SaveMessage(msg: MeshMessage)
      requires Valid()
      modifies this
      ensures stored == Saved(old(stored), msg) && Valid()
      ensures seenIds == old(seenIds) && posted == old(posted) && delivered == old(delivered) && active == old(active)
    {
      SavedProperties(stored, msg);
      var i := 0;
      while i < |stored|
        invariant 0 <= i <= |stored|
        invariant forall j :: 0 <= j < i ==> stored[j].id != msg.id
      {
        if stored[i].id == msg.id {
          assert stored[i] in stored;
          return;
        }
        i := i + 1;
      }
      assert msg.id !in Ids(stored);
      var all := stored + [msg];
      if |all| > STORE_CAP {
        all := all[|all| - STORE_CAP..];
      }
      stored := all;
    }

    /** The channel's `onmessage` handler. A message seen before is dropped outright; otherwise
        its id is remembered, the relayed copy (if any) is posted, and the message is stored and
        handed to the page. */
    method OnMessage(msg: MeshMessage)
      requires Valid() && active
      modifies this
      ensures Valid() && active
      ensures msg.id in old(seenIds) ==>
                stored == old(stored) && seenIds == old(seenIds) && posted == old(posted) && delivered == old(delivered)
      ensures msg.id !in old(seenIds) ==>
                seenIds == old(seenIds) + {msg.id}
                && posted == old(posted) + (match Relayed(msg, nodeId) case Some(r) => [r] case None => [])
                && stored == Saved(old(stored), msg)
                && delivered == old(delivered) + [msg]
    {
      if msg.id in seenIds {
        return;
      }
      seenIds := seenIds + {msg.id};
      if msg.ttl > 0 && nodeId !in msg.via {
        posted := posted + [msg.(ttl := msg.ttl - 1, hops := msg.hops + 1, via := msg.via + [nodeId])];
      }
      SaveMessage(msg);
      delivered := delivered + [msg];
    }

    /** `sendMeshMessage`: a new message with seven hops to live, no hops taken and this node as
        its path; its id is marked seen, so its own echo is dropped, and it is stored, posted and
        handed to the page when the mesh is running. */
    method SendMeshMessage(id: string, payload: string, kind: MessageType, channelId: string, now: int)
      returns (msg: MeshMessage)
      requires Valid()
      modifies this
      ensures Valid() && active == old(active)
      ensures msg == MeshMessage(id, nodeId, nickname, channelId, MAX_TTL, 0, [nodeId], kind, payload, now)
      ensures seenIds == old(seenIds) + {id} && stored == Saved(old(stored), msg)
      ensures posted == old(posted) + (if active then [msg] else [])
      ensures delivered == old(delivered) + (if active then [msg] else [])
    {
      msg := MeshMessage(id, nodeId, nickname, channelId, MAX_TTL, 0, [nodeId], kind, payload, now);
      seenIds := seenIds + {id};
      SaveMessage(msg);
      if active {
        posted := posted + [msg];
        delivered := delivered + [msg];
      }
    }

    /** `startMesh`: install the handler, announce this node on the global channel with an ACK
        that lives one hop, then replay the stored global messages to the page. */
    method StartMesh(announceId: string, announcement: string, now: int) returns (state: MeshState)
      requires Valid()
      modifies this
      ensures Valid() && active && stored == old(stored) && seenIds == old(seenIds)
      ensures posted == old(posted) + [MeshMessage(announceId, nodeId, nickname, CHANNEL_GLOBAL, 1, 0, [nodeId], Ack, announcement, now)]
      ensures delivered == old(delivered) + MessagesOn(old(stored), CHANNEL_GLOBAL)
      ensures state == MeshState(nodeId, nickname, true, 0, 0)
    {
      active := true;
      posted := posted + [MeshMessage(announceId, nodeId, nickname, CHANNEL_GLOBAL, 1, 0, [nodeId], Ack, announcement, now)];
      delivered := delivered + MessagesOn(stored, CHANNEL_GLOBAL);
      state := MeshState(nodeId, nickname, true, 0, 0);
    }

    /** `stopMesh`: close the channel and drop the handler; the store is kept. */
    method StopMesh()
      modifies this
      ensures !active && stored == old(stored) && seenIds == old(seenIds)
      ensures posted == old(posted) && delivered == old(delivered)
    {
      active := false;
    }
  }

  /** The announcement is forwarded by at most one other node, whose copy then stops. */
  lemma AnnouncementTravelsOneHop(nodeId: string, nickname: string, announceId: string, announcement: string, now: int, path: seq<string>)
    requires RelayedAlong(MeshMessage(announceId, nodeId, nickname, CHANNEL_GLOBAL, 1, 0, [nodeId], Ack, announcement, now), path).Some?
    ensures |path| <= 1
  {
    RelayBoundedByTtl(MeshMessage(announceId, nodeId, nickname, CHANNEL_GLOBAL, 1, 0, [nodeId], Ack, announcement, now), path);
  }
}

=== FILE: numeric.dfy ===
/** Arithmetic on exact reals used by the aggregates of the model. */
module Numeric {

  function Pow10(d: nat): (r: nat)
    ensures r >= 1
  {
    if d == 0 then 1 else 10 * Pow10(d - 1)
  }

  function Pow2(k: nat): (r: nat)
    ensures r >= 1
  {
    if k == 0 then 1 else 2 * Pow2(k - 1)
  }

  function MinInt(a: int, b: int): int { if a <= b then a else b }
  function MaxInt(a: int, b: int): int { if a >= b then a else b }
  function MinReal(a: real, b: real): real { if a <= b then a else b }

  /** `10^d` as a real, the scale of rounding to `d` decimal places. */
  function Scale(d: nat): (s: real)
    ensures s >= 1.0
  {
    Pow10(d) as real
  }

  /** `x` scaled by `10^d` and rounded half up to a whole number. */
  function Scaled(x: real, d: nat): int
  {
    (x * Scale(d) + 0.5).Floor
  }

  /** Rounds `x` half up to `d` decimal places: `Math.round(x * 10^d) / 10^d` on exact reals. */
  function RoundTo(x: real, d: nat): real
  {
    Scaled(x, d) as real / Scale(d)
  }

  lemma MulMonotone(x: real, y: real, s: real)
    requires x <= y && s > 0.0
    ensures x * s <= y * s
  {
  }

  lemma DivMonotone(x: real, y: real, s: real)
    requires x <= y && s > 0.0
    ensures x / s <= y / s
  {
  }

  lemma MulDivCancel(x: real, n: real)
    requires n > 0.0
    ensures (n * x) / n == x
  {
  }

  /** Rounding never reverses the order of two values. */
  lemma RoundToMonotone(x: real, y: real, d: nat)
    requires x <= y
    ensures RoundTo(x, d) <= RoundTo(y, d)
  {
    MulMonotone(x, y, Scale(d));
    assert Scaled(x, d) <= Scaled(y, d);
    DivMonotone(Scaled(x, d) as real, Scaled(y, d) as real, Scale(d));
  }

  /** Whole numbers are left unchanged by rounding. */
  lemma RoundToWhole(n: int, d: nat)
    ensures RoundTo(n as real, d) == n as real
  {
    var p := Pow10(d);
    assert n as real * Scale(d) == (n * p) as real;
    assert Scaled(n as real, d) == n * p;
    assert (n * p) as real / Scale(d) == n as real;
  }

  /** Rounding keeps a value inside a range whose ends are whole numbers. */
  lemma RoundToWithin(x: real, lo: int, hi: int, d: nat)
    requires lo as real <= x <= hi as real
    ensures lo as real <= RoundTo(x, d) <= hi as real
  {
    RoundToMonotone(lo as real, x, d);
    RoundToMonotone(x, hi as real, d);
    RoundToWhole(lo, d);
    RoundToWhole(hi, d);
  }

  /** The sum of a sequence of reals, as Python's `sum` and a JavaScript `reduce` compute it. */
  function Sum(v: seq<real>): real
  {
    if v == [] then 0.0 else v[0] + Sum(v[1..])
  }

  lemma {:induction false} SumAppend(a: seq<real>, b: seq<real>)
    ensures Sum(a + b) == Sum(a) + Sum(b)
  {
    if a != [] {
      assert (a + b)[0] == a[0];
      assert (a + b)[1..] == a[1..] + b;
      SumAppend(a[1..], b);
    } else {
      assert a + b == b;
    }
  }

  lemma {:induction false} SumNonnegative(v: seq<real>)
    requires forall i :: 0 <= i < |v| ==> v[i] >= 0.0
    ensures Sum(v) >= 0.0
  {
    if v != [] {
      SumNonnegative(v[1..]);
    }
  }

  /** The largest element of a non-empty sequence (Python's `max`). */
  function MaxOf(v: seq<real>): (m: real)
    requires v != []
    ensures m in v
    ensures forall i :: 0 <= i < |v| ==> v[i] <= m
  {
    if |v| == 1 then v[0]
    else
      var rest := MaxOf(v[1..]);
      if v[0] >= rest then v[0] else rest
  }

  /** A sum is at most the count times any upper bound of its terms. */
  lemma {:induction false} SumAtMostCountTimesMax(v: seq<real>, m: real)
    requires forall i :: 0 <= i < |v| ==> v[i] <= m
    ensures Sum(v) <= |v| as real * m
  {
    if v != [] {
      SumAtMostCountTimesMax(v[1..], m);
    }
  }

  lemma MeanOfBound(total: real, n: nat, m: real)
    requires n > 0 && total <= n as real * m
    ensures total / n as real <= m
  {
    var c := n as real;
    DivMonotone(total, c * m, c);
    assert c * m / c == m;
  }

  /** A total between `n·lo` and `n·hi` has its mean over `n` between `lo` and `hi`. */
  lemma MeanBetween(total: real, n: nat, lo: real, hi: real)
    requires n > 0 && n as real * lo <= total <= n as real * hi
    ensures lo <= total / n as real <= hi
  {
    var c := n as real;
    DivMonotone(c * lo, total, c);
    DivMonotone(total, c * hi, c);
    MulDivCancel(lo, c);
    MulDivCancel(hi, c);
  }

  /** The arithmetic mean of a non-empty sequence (`sum(v) / len(v)`). */
  function Mean(v: seq<real>): real
    requires v != []
  {
    Sum(v) / |v| as real
  }

  /** The mean of a non-empty sequence never exceeds its maximum. */
  lemma MeanAtMostMax(v: seq<real>)
    requires v != []
    ensures Mean(v) <= MaxOf(v)
  {
    var m := MaxOf(v);
    SumAtMostCountTimesMax(v, m);
    MeanOfBound(Sum(v), |v|, m);
  }
}

=== FILE: reports_store.dfy ===
/** The dashboard's shared citizen-report list: loaded once (from browser storage or the built-in
    sample reports), new reports pushed on the front, statuses changed in place; plus the pure
    filters and counters over it and the simulated location helpers. */
module ReportsStore {
  import opened Wrappers
  import opened Numeric
  import opened Text
  import opened Sorting

  /** A citizen report; `submittedAt` is a time in milliseconds, `photoUrl` is "" when absent. */
  datatype CitizenReport = CitizenReport(id: string, kind: string, description: string, photoUrl: string,
                                         lat: real, lon: real, district: string, state: string,
                                         severity: string, status: string, submittedAt: int,
                                         submittedBy: string, upvotes: nat)

  /** The fields a caller of `addReport` supplies. */
  datatype NewReport = NewReport(kind: string, description: string, photoUrl: string, lat: real, lon: real,
                                 district: string, state: string, severity: string, submittedBy: string)

  const MINUTE_MS: int := 60000

  /** The eight sample reports shown when nothing is stored, dated relative to `now`. */
  function DefaultReports(now: int): seq<CitizenReport>
  {
    [ CitizenReport("RPT-2401", "waterlogging", "Heavy waterlogging near Pragati Maidan underpass, water ~3 feet deep. Vehicles stranded.", "",
                    28.6180, 77.2494, "East Delhi", "Delhi", "HIGH", "acknowledged", now - 25 * MINUTE_MS, "+91 98765XXXXX", 12),
      CitizenReport("RPT-2402", "drainage_blocked", "Storm drain blocked by construction debris near Sector 62, Noida. Water overflowing onto road.", "",
                    28.6278, 77.3649, "East Delhi", "Delhi", "MODERATE", "investigating", now - 45 * MINUTE_MS, "+91 87654XXXXX", 7),
      CitizenReport("RPT-2403", "road_flooded", "NH-44 near Moolchand flyover completely submerged. Traffic diverted. Please avoid this route.", "",
                    28.5700, 77.2340, "Central Delhi", "Delhi", "HIGH", "acknowledged", now - 60 * MINUTE_MS, "+91 99988XXXXX", 23),
      CitizenReport("RPT-2404", "embankment_breach", "Minor breach observed in Yamuna embankment near Wazirabad barrage. Water seeping through.", "",
                    28.7200, 77.2300, "East Delhi", "Delhi", "SEVERE", "investigating", now - 10 * MINUTE_MS, "+91 77665XXXXX", 31),
      CitizenReport("RPT-2405", "waterlogging", "Waist-high water in Patna railway station area. Pumps not working. People stuck.", "",
                    25.6100, 85.1400, "Patna", "Bihar", "SEVERE", "submitted", now - 5 * MINUTE_MS, "+91 66554XXXXX", 45),
      CitizenReport("RPT-2406", "road_flooded", "Main road to Kamrup relief camp is flooded. Only boats can pass.", "",
                    26.1400, 91.7400, "Kamrup", "Assam", "HIGH", "acknowledged", now - 35 * MINUTE_MS, "+91 55443XXXXX", 18),
      CitizenReport("RPT-2407", "drainage_blocked", "Multiple drains overflowing in Wayanad Chungam area due to landslide debris.", "",
                    11.6900, 76.0800, "Wayanad", "Kerala", "HIGH", "submitted", now - 15 * MINUTE_MS, "+91 44332XXXXX", 9),
      CitizenReport("RPT-2408", "waterlogging", "Chennai OMR road near Thoraipakkam signal completely waterlogged. Traffic standstill.", "",
                    12.9400, 80.2300, "Chennai", "Tamil Nadu", "MODERATE", "acknowledged", now - 50 * MINUTE_MS, "+91 33221XXXXX", 15) ]
  }

  /** `loadReports`: the stored list when storage holds one (`None` is a missing, empty or
      unparsable entry), otherwise the sample reports. */
  function LoadReports(storage: Option<seq<CitizenReport>>, defaults: seq<CitizenReport>): (rs: seq<CitizenReport>)
    ensures storage.Some? ==> rs == storage.value
    ensures storage.None? ==> rs == defaults
  {
    match storage
    case Some(saved) => saved
    case None => defaults
  }

  /** The id `RPT-${Math.floor(r * 9000 + 1000)}` for a draw `r` in [0, 1): "RPT-" and four digits. */
  function ReportId(r: real): (id: string)
    requires 0.0 <= r < 1.0
    ensures |id| == 8 && id[..4] == "RPT-"
    ensures forall i :: 4 <= i < 8 ==> IsDigit(id[i])
  {
    var n := (r * 9000.0 + 1000.0).Floor;
    assert 1000 <= n <= 9999;
    assert Pow10(3) == 1000 && Pow10(4) == 10000;
    DecimalLength(n, 4);
    "RPT-" + Decimal(n)
  }

  /** The position of the first report with the id, as `find` locates it. */
  function FirstIndex(rs: seq<CitizenReport>, id: string): (k: Option<nat>)
    ensures k.Some? ==> k.value < |rs| && rs[k.value].id == id && forall j :: 0 <= j < k.value ==> rs[j].id != id
    ensures k.None? ==> forall j :: 0 <= j < |rs| ==> rs[j].id != id
  {
    if rs == [] then None
    else if rs[0].id == id then Some(0)
    else
      match FirstIndex(rs[1..], id)
      case None => None
      case Some(k) =>
        assert forall j :: 1 <= j < k + 1 ==> rs[j] == rs[1..][j - 1];
        Some(k + 1)
  }

  /** The list after `updateReportStatus`: only the status of the first report carrying the id
      changes; every other report, and the order, stay as they were; with no such report
      nothing changes. */
  function WithStatus(rs: seq<CitizenReport>, id: string, status: string): (r: seq<CitizenReport>)
    ensures |r| == |rs|
    ensures forall i :: 0 <= i < |rs| ==> r[i].(status := rs[i].status) == rs[i]
    ensures forall i :: 0 <= i < |rs| && r[i] != rs[i] ==>
              rs[i].id == id && r[i].status == status && forall j :: 0 <= j < i ==> rs[j].id != id
    ensures forall i :: 0 <= i < |rs| && rs[i].id == id && (forall j :: 0 <= j < i ==> rs[j].id != id) ==>
              r[i].status == status
    ensures (forall i :: 0 <= i < |rs| ==> rs[i].id != id) ==> r == rs
  {
    match FirstIndex(rs, id)
    case None => rs
    case Some(k) => rs[k := rs[k].(status := status)]
  }

  /** A report passes the location filters: every filter given (not `""`) matches. */
  predicate AtLocation(x: CitizenReport, state: string, district: string)
  {
    (state == "" || x.state == state) && (district == "" || x.district == district)
  }

  /** `getReportsByLocation`: with neither filter (`""`) the whole list; otherwise the reports
      matching every filter given, in list order, each as often as it occurs. */
  function ByLocation(rs: seq<CitizenReport>, state: string, district: string): (r: seq<CitizenReport>)
    ensures state == "" && district == "" ==> r == rs
    ensures forall x :: x in r <==> x in rs && AtLocation(x, state, district)
    ensures forall x :: multiset(r)[x] == if AtLocation(x, state, district) then multiset(rs)[x] else 0
    ensures |r| <= |rs|
  {
    if rs == [] then []
    else
      assert rs == [rs[0]] + rs[1..];
      (if AtLocation(rs[0], state, district) then [rs[0]] else []) + ByLocation(rs[1..], state, district)
  }

  /** `r` takes its elements from `xs` at the strictly increasing positions `idx`. */
  ghost predicate Picks<T>(xs: seq<T>, r: seq<T>, idx: seq<int>)
  {
    |idx| == |r|
    && (forall j :: 0 <= j < |idx| ==> 0 <= idx[j] < |xs| && r[j] == xs[idx[j]])
    && (forall j, k :: 0 <= j < k < |idx| ==> idx[j] < idx[k])
  }

  function Shift(idx: seq<int>): (s: seq<int>)
    ensures |s| == |idx| && forall j :: 0 <= j < |idx| ==> s[j] == idx[j] + 1
  {
    if idx == [] then [] else [idx[0] + 1] + Shift(idx[1..])
  }

  /** Putting one element in front of the list shifts every position by one; when the element
      is kept too, it is picked at position 0. */
  lemma PicksCons<T>(x: T, xs: seq<T>, r: seq<T>, idx: seq<int>)
    requires Picks(xs, r, idx)
    ensures Picks([x] + xs, [x] + r, [0] + Shift(idx))
    ensures Picks([x] + xs, r, Shift(idx))
  {
    var s := Shift(idx);
    assert forall j :: 0 <= j < |s| ==> ([x] + xs)[s[j]] == xs[idx[j]];
    var withHead := [0] + s;
    assert forall j :: 1 <= j < |withHead| ==> withHead[j] == s[j - 1];
  }

  /** Filtering by location keeps the list order: the result picks its reports from the list
      at increasing positions. With the exact multiplicities `ByLocation` ensures, this makes
      it the list of matching reports in their original order. */
  lemma {:induction false} ByLocationIsSubsequence(rs: seq<CitizenReport>, state: string, district: string)
    returns (idx: seq<int>)
    ensures Picks(rs, ByLocation(rs, state, district), idx)
  {
    if rs == [] {
      idx := [];
    } else {
      var tail := ByLocationIsSubsequence(rs[1..], state, district);
      var rest := ByLocation(rs[1..], state, district);
      PicksCons(rs[0], rs[1..], rest, tail);
      assert [rs[0]] + rs[1..] == rs;
      if AtLocation(rs[0], state, district) {
        idx := [0] + Shift(tail);
        assert ByLocation(rs, state, district) == [rs[0]] + rest;
      } else {
        idx := Shift(tail);
        assert ByLocation(rs, state, district) == rest;
      }
    }
  }

  /** The number of reports whose `field` reads `value`. */
  function Count(rs: seq<CitizenReport>, field: CitizenReport -> string, value: string): (n: nat)
    ensures n <= |rs|
  {
    if rs == [] then 0 else (if field(rs[0]) == value then 1 else 0) + Count(rs[1..], field, value)
  }

  function SeverityOf(x: CitizenReport): string { x.severity }
  function StatusOf(x: CitizenReport): string { x.status }

  datatype ReportStats = ReportStats(total: nat, severe: nat, high: nat, pending: nat, investigating: nat, resolved: nat)

  /** `getReportStats`: the list length and one count per severity or status bucket. */
  function Stats(rs: seq<CitizenReport>): (s: ReportStats)
    ensures s.total == |rs|
    ensures s.severe <= s.total && s.high <= s.total
    ensures s.pending <= s.total && s.investigating <= s.total && s.resolved <= s.total
  {
    ReportStats(|rs|, Count(rs, SeverityOf, "SEVERE"), Count(rs, SeverityOf, "HIGH"),
                Count(rs, StatusOf, "submitted"), Count(rs, StatusOf, "investigating"), Count(rs, StatusOf, "resolved"))
  }

  /** The buckets of one field never overlap: together they count at most every report once. */
  lemma {:induction false} BucketsDisjoint(rs: seq<CitizenReport>)
    ensures var s := Stats(rs);
      s.severe + s.high <= s.total && s.pending + s.investigating + s.resolved <= s.total
  {
    if rs != [] {
      BucketsDisjoint(rs[1..]);
    }
  }

  /** A new report is pending and counted in the total and in its severity bucket. */
  lemma NewReportIsPending(rs: seq<CitizenReport>, nr: CitizenReport)
    requires nr.status == "submitted"
    ensures Stats([nr] + rs).total == Stats(rs).total + 1
    ensures Stats([nr] + rs).pending == Stats(rs).pending + 1
    ensures Stats([nr] + rs).investigating == Stats(rs).investigating
    ensures Stats([nr] + rs).resolved == Stats(rs).resolved
    ensures Stats([nr] + rs).severe == Stats(rs).severe + (if nr.severity == "SEVERE" then 1 else 0)
    ensures Stats([nr] + rs).high == Stats(rs).high + (if nr.severity == "HIGH" then 1 else 0)
  {
    assert ([nr] + rs)[1..] == rs;
  }

  /** The location method from a position's accuracy in metres. */
  function LocationMethod(accuracy: real): (m: string)
    ensures m == "gps" <==> accuracy < 50.0
    ensures m == "wifi" <==> 50.0 <= accuracy < 500.0
    ensures m == "cell_tower" <==> accuracy >= 500.0
  {
    if accuracy < 50.0 then "gps" else if accuracy < 500.0 then "wifi" else "cell_tower"
  }

  /** The five random draws behind one simulated tower. */
  datatype TowerDraw = TowerDraw(dLat: real, dLon: real, idHigh: real, idLow: real, signal: real)

  predicate ValidDraw(d: TowerDraw)
  {
    0.0 <= d.dLat < 1.0 && 0.0 <= d.dLon < 1.0 && 0.0 <= d.idHigh < 1.0 && 0.0 <= d.idLow < 1.0 && 0.0 <= d.signal < 1.0
  }

  datatype Tower = Tower(id: string, lat: real, lon: real, signal: int, distanceKm: real)

  /** A tower id `TWR-<3 digits>-<2 digits>`. */
  function TowerId(high: real, low: real): (id: string)
    requires 0.0 <= high < 1.0 && 0.0 <= low < 1.0
    ensures |id| == 10 && id[..4] == "TWR-" && id[7] == '-'
    ensures forall i :: 4 <= i < 7 || 8 <= i < 10 ==> IsDigit(id[i])
  {
    var a := (high * 900.0 + 100.0).Floor;
    var b := (low * 90.0 + 10.0).Floor;
    assert Pow10(1) == 10 && Pow10(2) == 100 && Pow10(3) == 1000;
    DecimalLength(a, 3);
    DecimalLength(b, 2);
    "TWR-" + Decimal(a) + "-" + Decimal(b)
  }

  /** One simulated tower within 0.015 degrees of the point; `planarKm` is the Euclidean
      length of a degree offset, times 111 km. */
  function TowerOf(lat: real, lon: real, d: TowerDraw, planarKm: (real, real) -> real): (t: Tower)
    requires ValidDraw(d)
    ensures -0.015 <= t.lat - lat < 0.015 && -0.015 <= t.lon - lon < 0.015
    ensures -79 <= t.signal <= -50
  {
    var tLat := lat + (d.dLat - 0.5) * 0.03;
    var tLon := lon + (d.dLon - 0.5) * 0.03;
    var s := (d.signal * 30.0 + 50.0).Floor;
    assert 50 <= s < 80;
    Tower(TowerId(d.idHigh, d.idLow), tLat, tLon, -s, RoundTo(planarKm(tLat - lat, tLon - lon), 2))
  }

  function TowerDistance(t: Tower): real
  {
    t.distanceKm
  }

  /** The three towers in the order they are generated. */
  function TowersOf(lat: real, lon: real, draws: seq<TowerDraw>, planarKm: (real, real) -> real): (ts: seq<Tower>)
    requires forall i :: 0 <= i < |draws| ==> ValidDraw(draws[i])
    ensures |ts| == |draws|
    ensures forall i :: 0 <= i < |ts| ==> ts[i] == TowerOf(lat, lon, draws[i], planarKm)
  {
    seq(|draws|, i requires 0 <= i < |draws| => TowerOf(lat, lon, draws[i], planarKm))
  }

  /** `getNearestTowers`: three simulated towers, nearest first. */
  method GetNearestTowers(lat: real, lon: real, draws: seq<TowerDraw>, planarKm: (real, real) -> real)
    returns (towers: seq<Tower>)
    requires |draws| == 3 && forall i :: 0 <= i < 3 ==> ValidDraw(draws[i])
    ensures |towers| == 3
    ensures multiset(towers) == multiset(TowersOf(lat, lon, draws, planarKm))
    ensures forall i, j :: 0 <= i < j < 3 ==> towers[i].distanceKm <= towers[j].distanceKm
  {
    ghost var all := TowersOf(lat, lon, draws, planarKm);
    towers := [];
    var i := 0;
    while i < 3
      invariant 0 <= i <= 3 && towers == all[..i]
    {
      towers := towers + [TowerOf(lat, lon, draws[i], planarKm)];
      i := i + 1;
    }
    assert towers == all;
    towers := SortBy(towers, TowerDistance);
    assert SortedBy(towers, TowerDistance);
  }

  /** The module's `_reports` list and the storage entry it is saved to; `seed` builds the
      sample reports for the time of loading. */
  class ReportList {
    var reports: seq<CitizenReport>
    var loaded: bool
    var storage: Option<seq<CitizenReport>>
    const seed: int -> seq<CitizenReport>

    constructor (storage: Option<seq<CitizenReport>>)
      ensures this.storage == storage && !loaded && reports == [] && seed == DefaultReports
    {
      this.storage := storage;
      loaded := false;
      reports := [];
      seed := DefaultReports;
    }

    /** The list as `getReports` would hand it out now. */
    function Current(now: int): seq<CitizenReport>
      reads this
    {
      if loaded then reports else LoadReports(storage, seed(now))
    }

    /** `getReports`: load on the first call only; afterwards the same list is returned. */
    method GetReports(now: int) returns (rs: seq<CitizenReport>)
      modifies this
      ensures loaded && rs == reports && reports == old(Current(now))
      ensures storage == old(storage)
      ensures old(loaded) ==> reports == old(reports)
    {
      if !loaded {
        reports := LoadReports(storage, seed(now));
        loaded := true;
      }
      rs := reports;
    }

    /** `addReport`: the new report goes first, submitted with no upvotes; the list is saved. */
    method AddReport(input: NewReport, r: real, now: int) returns (nr: CitizenReport)
      requires 0.0 <= r < 1.0
      modifies this
      ensures nr == CitizenReport(ReportId(r), input.kind, input.description, input.photoUrl, input.lat, input.lon,
                                  input.district, input.state, input.severity, "submitted", now, input.submittedBy, 0)
      ensures loaded && reports == [nr] + old(Current(now)) && storage == Some(reports)
    {
      nr := CitizenReport(ReportId(r), input.kind, input.description, input.photoUrl, input.lat, input.lon,
                          input.district, input.state, input.severity, "submitted", now, input.submittedBy, 0);
      var rs := GetReports(now);
      reports := [nr] + rs;
      storage := Some(reports);
    }

    /** `updateReportStatus`: find the first report with the id and change its status in place;
        the list is saved only when one was found. */
    method UpdateReportStatus(id: string, status: string, now: int)
      modifies this
      ensures loaded && reports == WithStatus(old(Current(now)), id, status)
      ensures storage == if FirstIndex(old(Current(now)), id).Some? then Some(reports) else old(storage)
    {
      var rs := GetReports(now);
      var i := 0;
      while i < |rs|
        invariant 0 <= i <= |rs| && rs == reports
        invariant forall j :: 0 <= j < i ==> rs[j].id != id
      {
        if rs[i].id == id {
          assert FirstIndex(rs, id) == Some(i);
          reports := rs[i := rs[i].(status := status)];
          storage := Some(reports);
          return;
        }
        i := i + 1;
      }
    }
  }
}

=== FILE: sorting.dfy ===
/** The stable ascending sort by a numeric key that JavaScript's `Array.prototype.sort`
    performs when given the comparator `(a, b) => key(a) - key(b)`. */
module Sorting {

  predicate SortedBy<T>(s: seq<T>, key: T -> real)
  {
    forall i, j :: 0 <= i < j < |s| ==> key(s[i]) <= key(s[j])
  }

  /** Inserts `x` before the first element whose key is not smaller, which keeps equal keys in input order. */
  function InsertBy<T>(x: T, s: seq<T>, key: T -> real): (r: seq<T>)
    ensures multiset(r) == multiset(s) + multiset{x}
    ensures forall y :: y in r ==> y == x || y in s
  {
    if s == [] then [x]
    else if key(x) <= key(s[0]) then [x] + s
    else
      assert s == [s[0]] + s[1..];
      [s[0]] + InsertBy(x, s[1..], key)
  }

  lemma {:induction false} InsertBySorted<T>(x: T, s: seq<T>, key: T -> real)
    requires SortedBy(s, key)
    ensures SortedBy(InsertBy(x, s, key), key)
  {
    if s != [] && key(x) > key(s[0]) {
      var tail := InsertBy(x, s[1..], key);
      InsertBySorted(x, s[1..], key);
      forall y | y in tail
        ensures key(s[0]) <= key(y)
      {
        if y != x {
          var j :| 0 <= j < |s[1..]| && s[1..][j] == y;
          assert s[j + 1] == y;
        }
      }
      var r := [s[0]] + tail;
      forall i, j | 0 <= i < j < |r|
        ensures key(r[i]) <= key(r[j])
      {
        if i == 0 {
          assert r[j] in tail;
        } else {
          assert r[i] == tail[i - 1] && r[j] == tail[j - 1];
        }
      }
    }
  }

  function SortBy<T>(s: seq<T>, key: T -> real): (r: seq<T>)
    ensures multiset(r) == multiset(s)
    ensures |r| == |s|
    ensures SortedBy(r, key)
  {
    if s == [] then []
    else
      assert s == [s[0]] + s[1..];
      var rest := SortBy(s[1..], key);
      InsertBySorted(s[0], rest, key);
      InsertBy(s[0], rest, key)
  }
}

=== FILE: states_data.dfy ===
/** The dashboard's state and district table and its query helpers. The table is a sequence of
    optional states: the stray comma after Delhi leaves a hole that `flatMap` skips but `find`
    visits. The figures of the table are a parameter; its layout (which state sits where, and
    the hole) is `LaidOutLikeStatesData`. */
module StatesData {
  import opened Wrappers
  import opened Numeric
  import opened Sorting

  datatype VulnerabilityInput = VulnerabilityInput(elderlyPct: real, childrenPct: real, disabledPct: real,
                                                   ewsPct: real, densityPerSqkm: real)

  datatype Vulnerability = Vulnerability(elderlyPct: real, childrenPct: real, disabledPct: real,
                                         ewsPct: real, densityPerSqkm: real, score: real)

  /** The weighted sum behind the vulnerability score, before the cap. */
  function RawVulnerability(v: VulnerabilityInput): real
  {
    v.elderlyPct / 15.0 * 2.0 + v.childrenPct / 35.0 * 2.0 + v.disabledPct / 5.0 * 2.0
    + v.ewsPct / 50.0 * 2.0 + v.densityPerSqkm / 10000.0 * 2.0
  }

  predicate NonNegative(v: VulnerabilityInput)
  {
    v.elderlyPct >= 0.0 && v.childrenPct >= 0.0 && v.disabledPct >= 0.0 && v.ewsPct >= 0.0 && v.densityPerSqkm >= 0.0
  }

  /** `vulnScore`: the inputs copied, plus the weighted sum capped at 10 and rounded to one decimal. */
  function VulnScore(v: VulnerabilityInput): (r: Vulnerability)
    ensures r.elderlyPct == v.elderlyPct && r.childrenPct == v.childrenPct && r.disabledPct == v.disabledPct
    ensures r.ewsPct == v.ewsPct && r.densityPerSqkm == v.densityPerSqkm
    ensures r.score <= 10.0
    ensures NonNegative(v) ==> 0.0 <= r.score
  {
    var capped := MinReal(10.0, RawVulnerability(v));
    assert capped <= 10.0;
    RoundToMonotone(capped, 10.0, 1);
    RoundToWhole(10, 1);
    assert NonNegative(v) ==> 0.0 <= RoundTo(capped, 1) by {
      if NonNegative(v) {
        RoundToWithin(capped, 0, 10, 1);
      }
    }
    Vulnerability(v.elderlyPct, v.childrenPct, v.disabledPct, v.ewsPct, v.densityPerSqkm, RoundTo(capped, 1))
  }

  /** A larger share of any vulnerable group never lowers the score. */
  lemma VulnScoreMonotone(v: VulnerabilityInput, w: VulnerabilityInput)
    requires v.elderlyPct <= w.elderlyPct && v.childrenPct <= w.childrenPct && v.disabledPct <= w.disabledPct
    requires v.ewsPct <= w.ewsPct && v.densityPerSqkm <= w.densityPerSqkm
    ensures VulnScore(v).score <= VulnScore(w).score
  {
    assert RawVulnerability(v) <= RawVulnerability(w);
    RoundToMonotone(MinReal(10.0, RawVulnerability(v)), MinReal(10.0, RawVulnerability(w)), 1);
  }

  datatype Dam = Dam(name: string, river: string, capacityMcm: real, currentLevelPct: real, status: string, lat: real, lng: real)

  /** A district; `nearbyDams` is empty where the table gives none. */
  datatype District = District(name: string, riskLevel: string, riskScore: real, population: int, rainfall: real,
                               waterLevel: real, shelters: int, lat: real, lng: real, vulnerability: Vulnerability,
                               nearbyDams: seq<Dam>)

  datatype StateData = StateData(name: string, code: string, lat: real, lng: real, districts: seq<District>)

  /** The table, holes included. */
  type Table = seq<Option<StateData>>

  /** The names of the 36 states in table order; the hole sits between the tenth and the eleventh. */
  const STATE_NAMES: seq<string> := [
    "Assam", "Bihar", "Uttarakhand", "Kerala", "West Bengal", "Maharashtra", "Gujarat", "Uttar Pradesh",
    "Tamil Nadu", "Delhi", "Odisha", "Andhra Pradesh", "Telangana", "Karnataka", "Rajasthan", "Madhya Pradesh",
    "Punjab", "Haryana", "Chhattisgarh", "Jharkhand", "Himachal Pradesh", "Jammu & Kashmir", "Meghalaya",
    "Tripura", "Manipur", "Mizoram", "Nagaland", "Sikkim", "Arunachal Pradesh", "Goa", "Puducherry",
    "Chandigarh", "Andaman & Nicobar", "Ladakh", "Lakshadweep", "Dadra Nagar Haveli & Daman Diu"]

  const HOLE: nat := 10

  /** The layout of `STATES_DATA`: 37 slots, the eleventh empty, the others the states in order. */
  predicate LaidOutLikeStatesData(table: Table)
  {
    |STATE_NAMES| == 36 && |table| == 37 && table[HOLE].None?
    && forall i :: 0 <= i < 37 && i != HOLE ==>
         table[i].Some? && table[i].value.name == STATE_NAMES[if i < HOLE then i else i - 1]
  }

  datatype TaggedDistrict = TaggedDistrict(district: District, stateName: string)

  datatype TaggedDam = TaggedDam(dam: Dam, district: string, state: string)

  /** One state's districts, each tagged with the state's name. */
  function TagDistricts(districts: seq<District>, stateName: string): (r: seq<TaggedDistrict>)
    ensures |r| == |districts|
    ensures forall i :: 0 <= i < |r| ==> r[i] == TaggedDistrict(districts[i], stateName)
  {
    seq(|districts|, i requires 0 <= i < |districts| => TaggedDistrict(districts[i], stateName))
  }

  /** `getAllDistricts`: every district of every state present, state by state, holes skipped. */
  function AllDistricts(table: Table): (r: seq<TaggedDistrict>)
    ensures forall x :: x in r ==> exists s :: Some(s) in table && x.district in s.districts && x.stateName == s.name
    ensures forall s, d :: Some(s) in table && d in s.districts ==> TaggedDistrict(d, s.name) in r
  {
    if table == [] then []
    else
      var rest := AllDistricts(table[1..]);
      assert forall o :: o in table <==> o == table[0] || o in table[1..];
      match table[0]
      case None => rest
      case Some(s) =>
        var mine := TagDistricts(s.districts, s.name);
        assert forall d :: d in s.districts ==> TaggedDistrict(d, s.name) in mine by {
          forall d | d in s.districts
            ensures TaggedDistrict(d, s.name) in mine
          {
            var i :| 0 <= i < |s.districts| && s.districts[i] == d;
            assert mine[i] == TaggedDistrict(d, s.name);
          }
        }
        mine + rest
  }

  /** The number of districts over the states present. */
  function DistrictCount(table: Table): nat
  {
    if table == [] then 0 else (match table[0] case None => 0 case Some(s) => |s.districts|) + DistrictCount(table[1..])
  }

  /** One entry per district, and a hole contributes nothing: removing it changes no entry. */
  lemma AllDistrictsSkipsHoles(a: Table, b: Table)
    ensures |AllDistricts(a)| == DistrictCount(a)
    ensures AllDistricts(a + [None] + b) == AllDistricts(a) + AllDistricts(b)
    ensures AllDistricts(a + b) == AllDistricts(a) + AllDistricts(b)
  {
    AllDistrictsLength(a);
    AllDistrictsAppend(a, b);
    AllDistrictsAppend(a, [None] + b);
    assert a + [None] + b == a + ([None] + b);
    assert ([None] + b)[1..] == b;
  }

  lemma {:induction false} AllDistrictsLength(a: Table)
    ensures |AllDistricts(a)| == DistrictCount(a)
  {
    if a != [] {
      AllDistrictsLength(a[1..]);
    }
  }

  lemma {:induction false} AllDistrictsAppend(a: Table, b: Table)
    ensures AllDistricts(a + b) == AllDistricts(a) + AllDistricts(b)
  {
    if a == [] {
      assert a + b == b;
    } else {
      AllDistrictsAppend(a[1..], b);
      assert a == [a[0]] + a[1..];
      assert a + b == [a[0]] + (a[1..] + b);
      AllDistrictsCons(a[0], a[1..]);
      AllDistrictsCons(a[0], a[1..] + b);
    }
  }

  /** The entries one slot of the table contributes. */
  function SlotEntries(slot: Option<StateData>): seq<TaggedDistrict>
  {
    match slot
    case None => []
    case Some(s) => TagDistricts(s.districts, s.name)
  }

  lemma AllDistrictsCons(slot: Option<StateData>, t: Table)
    ensures AllDistricts([slot] + t) == SlotEntries(slot) + AllDistricts(t)
  {
    assert ([slot] + t)[1..] == t;
  }

  function NegRiskScore(d: TaggedDistrict): real
  {
    -d.district.riskScore
  }

  function NegVulnerability(d: TaggedDistrict): real
  {
    -d.district.vulnerability.score
  }

  function OnlyHigh(ds: seq<TaggedDistrict>): (r: seq<TaggedDistrict>)
    ensures forall x :: x in r <==> x in ds && x.district.riskLevel == "HIGH"
  {
    if ds == [] then []
    else
      assert ds == [ds[0]] + ds[1..];
      (if ds[0].district.riskLevel == "HIGH" then [ds[0]] else []) + OnlyHigh(ds[1..])
  }

  /** `getHighRiskDistricts`: exactly the HIGH districts, highest risk score first. */
  function HighRiskDistricts(table: Table): (r: seq<TaggedDistrict>)
    ensures multiset(r) == multiset(OnlyHigh(AllDistricts(table)))
    ensures forall i, j :: 0 <= i < j < |r| ==> r[i].district.riskScore >= r[j].district.riskScore
  {
    var r := SortBy(OnlyHigh(AllDistricts(table)), NegRiskScore);
    assert forall i, j :: 0 <= i < j < |r| ==> NegRiskScore(r[i]) <= NegRiskScore(r[j]);
    r
  }

  /** The high-risk list holds exactly the HIGH districts of the table, each once per occurrence. */
  lemma HighRiskIsExactlyHigh(table: Table)
    ensures forall x :: x in HighRiskDistricts(table) <==> x in AllDistricts(table) && x.district.riskLevel == "HIGH"
  {
    var all := AllDistricts(table);
    var r := HighRiskDistricts(table);
    assert forall x :: x in r <==> x in multiset(OnlyHigh(all));
  }

  /** `getVulnerableDistricts`: every district, most vulnerable first. */
  function VulnerableDistricts(table: Table): (r: seq<TaggedDistrict>)
    ensures multiset(r) == multiset(AllDistricts(table))
    ensures forall i, j :: 0 <= i < j < |r| ==> r[i].district.vulnerability.score >= r[j].district.vulnerability.score
  {
    var r := SortBy(AllDistricts(table), NegVulnerability);
    assert forall i, j :: 0 <= i < j < |r| ==> NegVulnerability(r[i]) <= NegVulnerability(r[j]);
    r
  }

  /** The dams near one district, tagged with the district and the given state name. */
  function TagDams(dams: seq<Dam>, district: string, state: string): (r: seq<TaggedDam>)
    ensures |r| == |dams|
    ensures forall i :: 0 <= i < |r| ==> r[i] == TaggedDam(dams[i], district, state)
  {
    seq(|dams|, i requires 0 <= i < |dams| => TaggedDam(dams[i], district, state))
  }

  /** The dams of a list of districts, district by district. */
  function DamsOfDistricts(ds: seq<District>, state: string): (r: seq<TaggedDam>)
    ensures forall t :: t in r ==> t.state == state && exists d :: d in ds && t.dam in d.nearbyDams && t.district == d.name
    ensures forall d, dam :: d in ds && dam in d.nearbyDams ==> TaggedDam(dam, d.name, state) in r
  {
    if ds == [] then []
    else
      var mine := TagDams(ds[0].nearbyDams, ds[0].name, state);
      assert forall d :: d in ds <==> d == ds[0] || d in ds[1..];
      assert forall dam :: dam in ds[0].nearbyDams ==> TaggedDam(dam, ds[0].name, state) in mine by {
        forall dam | dam in ds[0].nearbyDams
          ensures TaggedDam(dam, ds[0].name, state) in mine
        {
          var i :| 0 <= i < |ds[0].nearbyDams| && ds[0].nearbyDams[i] == dam;
          assert mine[i] == TaggedDam(dam, ds[0].name, state);
        }
      }
      mine + DamsOfDistricts(ds[1..], state)
  }

  /** `getAllDams`: every nearby dam of every district of every state present, and nothing else. */
  function AllDams(table: Table): (r: seq<TaggedDam>)
    ensures forall t :: t in r ==>
              exists s :: Some(s) in table && t.state == s.name
                && exists d :: d in s.districts && t.dam in d.nearbyDams && t.district == d.name
    ensures forall s, d, dam :: Some(s) in table && d in s.districts && dam in d.nearbyDams ==> TaggedDam(dam, d.name, s.name) in r
  {
    if table == [] then []
    else
      assert forall o :: o in table <==> o == table[0] || o in table[1..];
      match table[0]
      case None => AllDams(table[1..])
      case Some(s) =>
        var mine := DamsOfDistricts(s.districts, s.name);
        assert forall t :: t in mine ==>
                 Some(s) in table && t.state == s.name
                 && exists d :: d in s.districts && t.dam in d.nearbyDams && t.district == d.name;
        mine + AllDams(table[1..])
  }

  predicate IsDanger(t: TaggedDam)
  {
    t.dam.status == "DANGER" || t.dam.status == "OVERFLOW"
  }

  /** `getDangerDams`: exactly the dams at DANGER or OVERFLOW, in `getAllDams` order. */
  function DangerDams(table: Table): (r: seq<TaggedDam>)
    ensures forall t :: t in r <==> t in AllDams(table) && IsDanger(t)
  {
    KeepDanger(AllDams(table))
  }

  function KeepDanger(ts: seq<TaggedDam>): (r: seq<TaggedDam>)
    ensures forall t :: t in r <==> t in ts && IsDanger(t)
    ensures |r| <= |ts|
  {
    if ts == [] then []
    else
      assert ts == [ts[0]] + ts[1..];
      (if IsDanger(ts[0]) then [ts[0]] else []) + KeepDanger(ts[1..])
  }

  // ---------------------------------------------------------------- lookups by name

  /** How a name lookup ends: a state, no state, or a `TypeError` from reading `name` of the hole. */
  datatype Lookup = Found(state: StateData) | NotFound | Threw

  /** `STATES_DATA.find(s => s.name === name)` as written: the hole is visited and read. */
  function FindAsWritten(table: Table, name: string): (r: Lookup)
    ensures r.Found? ==> Some(r.state) in table && r.state.name == name
  {
    if table == [] then NotFound
    else
      match table[0]
      case None => Threw
      case Some(s) =>
        if s.name == name then Found(s)
        else
          var rest := FindAsWritten(table[1..], name);
          assert rest.Found? ==> Some(rest.state) in table by {
            if rest.Found? {
              assert Some(rest.state) in table[1..];
            }
          }
          rest
  }

  /** A name not matched before the first hole makes the lookup throw. */
  lemma {:induction false} LookupPastHoleThrows(table: Table, name: string, hole: nat)
    requires hole < |table| && table[hole].None?
    requires forall i :: 0 <= i < hole ==> table[i].Some? && table[i].value.name != name
    ensures FindAsWritten(table, name) == Threw
    decreases hole
  {
    if hole > 0 {
      LookupPastHoleThrows(table[1..], name, hole - 1);
    }
  }

  /** In the shipped layout, every state after the hole is unreachable by name: asking for Odisha
      throws although Odisha is in the table. */
  lemma OdishaLookupThrows(table: Table)
    requires LaidOutLikeStatesData(table)
    ensures table[11].Some? && table[11].value.name == "Odisha"
    ensures FindAsWritten(table, "Odisha") == Threw
  {
    forall i | 0 <= i < HOLE
      ensures table[i].Some? && table[i].value.name != "Odisha"
    {
      assert table[i].value.name == STATE_NAMES[i];
    }
    LookupPastHoleThrows(table, "Odisha", HOLE);
  }

  /** The written lookup returns the first state with the name when every slot before it holds
      a state of another name. */
  lemma {:induction false} FoundBeforeHole(table: Table, name: string, i: nat)
    requires i < |table| && table[i].Some? && table[i].value.name == name
    requires forall j :: 0 <= j < i ==> table[j].Some? && table[j].value.name != name
    ensures FindAsWritten(table, name) == Found(table[i].value)
    decreases i
  {
    if i > 0 {
      FoundBeforeHole(table[1..], name, i - 1);
    }
  }

  /** In the shipped layout, each of the ten states before the hole is found by its name. */
  lemma FoundBeforeHoleInLayout(table: Table, i: nat)
    requires LaidOutLikeStatesData(table) && i < HOLE
    ensures FindAsWritten(table, STATE_NAMES[i]) == Found(table[i].value)
  {
    forall j | 0 <= j < i
      ensures table[j].Some? && table[j].value.name != STATE_NAMES[i]
    {
      assert table[j].value.name == STATE_NAMES[j];
      assert forall a, b :: 0 <= a < b < HOLE ==> STATE_NAMES[a] != STATE_NAMES[b];
    }
    FoundBeforeHole(table, STATE_NAMES[i], i);
  }

  /** The evidently intended lookup: the first state present with the name, holes skipped. */
  function FindState(table: Table, name: string): (r: Option<StateData>)
    ensures r.Some? ==> Some(r.value) in table && r.value.name == name
    ensures r.None? ==> forall s :: Some(s) in table ==> s.name != name
  {
    if table == [] then None
    else
      assert forall o :: o in table <==> o == table[0] || o in table[1..];
      match table[0]
      case Some(s) => if s.name == name then Some(s) else FindState(table[1..], name)
      case None => FindState(table[1..], name)
  }

  /** Wherever the written lookup returns, the intended one returns the same state. */
  lemma {:induction false} LookupsAgreeWhenNoThrow(table: Table, name: string)
    ensures FindAsWritten(table, name).Found? ==> FindState(table, name) == Some(FindAsWritten(table, name).state)
    ensures FindAsWritten(table, name).NotFound? ==> FindState(table, name).None?
  {
    if table != [] && table[0].Some? && table[0].value.name != name {
      LookupsAgreeWhenNoThrow(table[1..], name);
    }
  }

  /** With the intended lookup, every state of the shipped layout is found by its name. */
  lemma EveryStateFoundWhenHolesSkipped(table: Table, i: nat)
    requires LaidOutLikeStatesData(table) && i < 37 && i != HOLE
    ensures FindState(table, table[i].value.name).Some?
    ensures FindState(table, table[i].value.name).value.name == table[i].value.name
  {
    assert Some(table[i].value) in table;
  }

  /** The outcome of a helper that looks a state up by name. */
  datatype Outcome<T> = Returned(value: T) | Thrown

  /** `getDamsByState`: the dams of the named state tagged with that name, `[]` for an unknown one. */
  function DamsByState(table: Table, stateName: string): (r: Outcome<seq<TaggedDam>>)
    ensures r.Thrown? <==> FindAsWritten(table, stateName).Threw?
    ensures FindAsWritten(table, stateName).NotFound? ==> r == Returned([])
    ensures FindAsWritten(table, stateName).Found? ==>
              r == Returned(DamsOfDistricts(FindAsWritten(table, stateName).state.districts, stateName))
    ensures FindAsWritten(table, stateName).Found? ==>
              forall t :: t in r.value ==> t.state == stateName && exists d :: d in FindAsWritten(table, stateName).state.districts && t.district == d.name
    ensures FindAsWritten(table, stateName).Found? ==>
              forall d, dam :: d in FindAsWritten(table, stateName).state.districts && dam in d.nearbyDams ==>
                TaggedDam(dam, d.name, stateName) in r.value
  {
    match FindAsWritten(table, stateName)
    case Threw => Thrown
    case NotFound => Returned([])
    case Found(s) => Returned(DamsOfDistricts(s.districts, stateName))
  }

  /** `getVulnerableByState`: the named state's districts, most vulnerable first. */
  function VulnerableByState(table: Table, stateName: string): (r: Outcome<seq<TaggedDistrict>>)
    ensures r.Thrown? <==> FindAsWritten(table, stateName).Threw?
    ensures FindAsWritten(table, stateName).NotFound? ==> r == Returned([])
    ensures FindAsWritten(table, stateName).Found? ==>
              multiset(r.value) == multiset(TagDistricts(FindAsWritten(table, stateName).state.districts, stateName))
              && forall i, j :: 0 <= i < j < |r.value| ==>
                   r.value[i].district.vulnerability.score >= r.value[j].district.vulnerability.score
  {
    match FindAsWritten(table, stateName)
    case Threw => Thrown
    case NotFound => Returned([])
    case Found(s) =>
      var r := SortBy(TagDistricts(s.districts, stateName), NegVulnerability);
      assert forall i, j :: 0 <= i < j < |r| ==> NegVulnerability(r[i]) <= NegVulnerability(r[j]);
      Returned(r)
  }

  // ---------------------------------------------------------------- risk summary

  /** `avgRisk` is `None` where the source divides 0 by 0 and yields `NaN`. */
  datatype RiskSummary = RiskSummary(highCount: nat, moderateCount: nat, lowCount: nat, avgRisk: Option<real>,
                                     totalPop: int, totalShelters: int)

  function CountLevel(ds: seq<District>, level: string): (n: nat)
    ensures n <= |ds|
  {
    if ds == [] then 0 else (if ds[0].riskLevel == level then 1 else 0) + CountLevel(ds[1..], level)
  }

  function TotalRisk(ds: seq<District>): real
  {
    if ds == [] then 0.0 else ds[0].riskScore + TotalRisk(ds[1..])
  }

  function TotalPopulation(ds: seq<District>): int
  {
    if ds == [] then 0 else ds[0].population + TotalPopulation(ds[1..])
  }

  function TotalShelters(ds: seq<District>): int
  {
    if ds == [] then 0 else ds[0].shelters + TotalShelters(ds[1..])
  }

  /** The summary of a state found, or all zeros when there is none: one count per risk level,
      the mean risk score rounded to one decimal (NaN, here `None`, for a state without
      districts), and the summed population and shelters. */
  function Summary(found: Option<StateData>): (r: RiskSummary)
    ensures found.None? ==> r == RiskSummary(0, 0, 0, Some(0.0), 0, 0)
    ensures found.Some? ==>
              r.highCount + r.moderateCount + r.lowCount <= |found.value.districts|
              && (r.avgRisk.None? <==> found.value.districts == [])
    ensures found.Some? ==>
              var ds := found.value.districts;
              r.highCount == CountLevel(ds, "HIGH") && r.moderateCount == CountLevel(ds, "MODERATE")
              && r.lowCount == CountLevel(ds, "LOW")
              && r.totalPop == TotalPopulation(ds) && r.totalShelters == TotalShelters(ds)
    ensures found.Some? && found.value.districts != [] ==>
              r.avgRisk == Some(RoundTo(TotalRisk(found.value.districts) / |found.value.districts| as real, 1))
  {
    match found
    case None => RiskSummary(0, 0, 0, Some(0.0), 0, 0)
    case Some(s) =>
      var ds := s.districts;
      LevelCountsPartition(ds);
      RiskSummary(CountLevel(ds, "HIGH"), CountLevel(ds, "MODERATE"), CountLevel(ds, "LOW"),
                  if ds == [] then None else Some(RoundTo(TotalRisk(ds) / |ds| as real, 1)),
                  TotalPopulation(ds), TotalShelters(ds))
  }

  predicate LevelsKnown(ds: seq<District>)
  {
    forall i :: 0 <= i < |ds| ==> ds[i].riskLevel in {"HIGH", "MODERATE", "LOW"}
  }

  /** The three level counts never overlap, and cover every district whose level is one of the three. */
  lemma {:induction false} LevelCountsPartition(ds: seq<District>)
    ensures CountLevel(ds, "HIGH") + CountLevel(ds, "MODERATE") + CountLevel(ds, "LOW") <= |ds|
    ensures LevelsKnown(ds) ==> CountLevel(ds, "HIGH") + CountLevel(ds, "MODERATE") + CountLevel(ds, "LOW") == |ds|
  {
    if ds != [] {
      LevelCountsPartition(ds[1..]);
      assert LevelsKnown(ds) ==> LevelsKnown(ds[1..]) by {
        if LevelsKnown(ds) {
          forall i | 0 <= i < |ds[1..]|
            ensures ds[1..][i].riskLevel in {"HIGH", "MODERATE", "LOW"}
          {
            assert ds[1..][i] == ds[i + 1];
          }
        }
      }
    }
  }

  /** A district added to a state raises the count of its own level by one, leaves the other
      level counts alone, and adds its population and shelters to the totals. */
  lemma SummaryOfAddedDistrict(s: StateData, d: District)
    ensures var before := Summary(Some(s));
      var after := Summary(Some(s.(districts := [d] + s.districts)));
      after.highCount == before.highCount + (if d.riskLevel == "HIGH" then 1 else 0)
      && after.moderateCount == before.moderateCount + (if d.riskLevel == "MODERATE" then 1 else 0)
      && after.lowCount == before.lowCount + (if d.riskLevel == "LOW" then 1 else 0)
      && after.totalPop == before.totalPop + d.population
      && after.totalShelters == before.totalShelters + d.shelters
  {
    assert ([d] + s.districts)[1..] == s.districts;
  }

  /** With every risk score between `lo` and `hi`, the sum lies between `|ds|·lo` and `|ds|·hi`. */
  lemma {:induction false} TotalRiskBetween(ds: seq<District>, lo: real, hi: real)
    requires forall i :: 0 <= i < |ds| ==> lo <= ds[i].riskScore <= hi
    ensures |ds| as real * lo <= TotalRisk(ds) <= |ds| as real * hi
  {
    if ds != [] {
      assert forall i :: 0 <= i < |ds[1..]| ==> ds[1..][i] == ds[i + 1];
      TotalRiskBetween(ds[1..], lo, hi);
    }
  }

  /** The rounded mean of risk scores between whole numbers `lo` and `hi` is between them too. */
  lemma RoundedMeanWithin(ds: seq<District>, lo: int, hi: int)
    requires ds != []
    requires forall i :: 0 <= i < |ds| ==> lo as real <= ds[i].riskScore <= hi as real
    ensures lo as real <= RoundTo(TotalRisk(ds) / |ds| as real, 1) <= hi as real
  {
    TotalRiskBetween(ds, lo as real, hi as real);
    MeanBetween(TotalRisk(ds), |ds|, lo as real, hi as real);
    RoundToWithin(TotalRisk(ds) / |ds| as real, lo, hi, 1);
  }

  /** The rounded average risk of a state stays within whole-number bounds on its districts'
      risk scores, such as the table's 0 to 10 scale. */
  lemma AverageRiskWithin(s: StateData, lo: int, hi: int)
    requires s.districts != []
    requires forall i :: 0 <= i < |s.districts| ==> lo as real <= s.districts[i].riskScore <= hi as real
    ensures var avg := Summary(Some(s)).avgRisk;
      avg.Some? && lo as real <= avg.value <= hi as real
  {
    RoundedMeanWithin(s.districts, lo, hi);
  }

  /** The argument of `getStateRiskSummary`: a state itself, or its name. */
  datatype StateArg = GivenState(state: StateData) | GivenName(name: string)

  /** `getStateRiskSummary`: a given state is summarised directly; a name is looked up first. */
  function StateRiskSummary(table: Table, arg: StateArg): (r: Outcome<RiskSummary>)
    ensures arg.GivenState? ==> r == Returned(Summary(Some(arg.state)))
    ensures arg.GivenName? ==> (r.Thrown? <==> FindAsWritten(table, arg.name).Threw?)
    ensures arg.GivenName? && FindAsWritten(table, arg.name).NotFound? ==> r == Returned(RiskSummary(0, 0, 0, Some(0.0), 0, 0))
    ensures arg.GivenName? && FindAsWritten(table, arg.name).Found? ==>
              r == Returned(Summary(Some(FindAsWritten(table, arg.name).state)))
  {
    match arg
    case GivenState(s) => Returned(Summary(Some(s)))
    case GivenName(name) =>
      match FindAsWritten(table, name)
      case Threw => Thrown
      case NotFound => Returned(Summary(None))
      case Found(s) => Returned(Summary(Some(s)))
  }

  /** When every district has a known level, the three counts add up to the number of districts. */
  lemma SummaryCountsAddUp(s: StateData)
    requires LevelsKnown(s.districts)
    ensures var r := Summary(Some(s));
      r.highCount + r.moderateCount + r.lowCount == |s.districts|
  {
    LevelCountsPartition(s.districts);
  }
}

=== FILE: text.dfy ===
/** String helpers: prefixes, suffixes and decimal rendering of whole numbers. */
module Text {
  import opened Numeric

  predicate StartsWith(s: string, prefix: string)
  {
    |prefix| <= |s| && s[..|prefix|] == prefix
  }

  predicate EndsWith(s: string, suffix: string)
  {
    |suffix| <= |s| && s[|s| - |suffix|..] == suffix
  }

  const DIGITS: string := "0123456789"

  predicate IsDigit(c: char)
  {
    '0' <= c <= '9'
  }

  /** The decimal form of a whole number, as JavaScript's `String(n)` and Python's `str(n)` print it. */
  function Decimal(n: nat): (s: string)
    ensures |s| >= 1
    ensures forall i :: 0 <= i < |s| ==> IsDigit(s[i])
  {
    if n < 10 then [DIGITS[n]] else Decimal(n / 10) + [DIGITS[n % 10]]
  }

  /** A number with k digits prints as k characters. */
  lemma {:induction false} DecimalLength(n: nat, k: nat)
    requires k >= 1
    requires (if k == 1 then 0 else Pow10(k - 1)) <= n < Pow10(k)
    ensures |Decimal(n)| == k
  {
    if k > 1 {
      assert Pow10(k - 1) == 10 * Pow10(k - 2) && Pow10(k) == 10 * Pow10(k - 1);
      assert n / 10 < Pow10(k - 1);
      assert k - 1 == 1 || Pow10(k - 2) <= n / 10;
      DecimalLength(n / 10, k - 1);
    }
  }
}

=== FILE: translations.dfy ===
/** The dashboard's translation lookup: a language's native name picks one of twelve language
    codes, and a key is read from that language's table, then from English, then the key itself.
    The string tables are a parameter: a missing entry and an empty one behave alike. */
module Translations {

  datatype LangCode = En | Hi | Bn | Te | Ta | Mr | Gu | Kn | Ml | Pa | As | Or

  /** The native language names offered in the interface and their codes. */
  const LANG_MAP: map<string, LangCode> := map[
    "English" := En, "हिन्दी" := Hi, "বাংলা" := Bn, "తెలుగు" := Te,
    "தமிழ்" := Ta, "मराठी" := Mr, "ગુજરાતી" := Gu, "ಕನ್ನಡ" := Kn,
    "മലയാളം" := Ml, "ਪੰਜਾਬੀ" := Pa, "অসমীয়া" := As, "ଓଡ଼ିଆ" := Or
  ]

  /** The native name of each code. */
  function NameOf(code: LangCode): string
  {
    match code
    case En => "English" case Hi => "हिन्दी" case Bn => "বাংলা" case Te => "తెలుగు"
    case Ta => "தமிழ்" case Mr => "मराठी" case Gu => "ગુજરાતી" case Kn => "ಕನ್ನಡ"
    case Ml => "മലയാളം" case Pa => "ਪੰਜਾਬੀ" case As => "অসমীয়া" case Or => "ଓଡ଼ିଆ"
  }

  /** The twelve names map onto the twelve codes, no two names onto the same code: naming the
      code a name maps to gives the name back. */
  lemma LangMapIsOneToOne()
    ensures forall code :: NameOf(code) in LANG_MAP && LANG_MAP[NameOf(code)] == code
    ensures forall a :: a in LANG_MAP ==> NameOf(LANG_MAP[a]) == a
    ensures forall a, b :: a in LANG_MAP && b in LANG_MAP && a != b ==> LANG_MAP[a] != LANG_MAP[b]
  {
    forall a | a in LANG_MAP
      ensures NameOf(LANG_MAP[a]) == a
    {
    }
  }

  /** `LANG_MAP[lang] || "en"`: the listed code, English for any other name. */
  function CodeOf(lang: string): (code: LangCode)
    ensures lang in LANG_MAP ==> code == LANG_MAP[lang]
    ensures lang !in LANG_MAP ==> code == En
  {
    if lang in LANG_MAP then LANG_MAP[lang] else En
  }

  /** The translation tables, one string table per code. */
  type Tables = map<LangCode, map<string, string>>

  /** One table's entry, `""` when the table or the key is missing. */
  function Entry(tables: Tables, code: LangCode, key: string): string
  {
    if code in tables && key in tables[code] then tables[code][key] else ""
  }

  /** `t`: the chosen language's string when it is non-empty, else the English one when that is
      non-empty, else the key itself. */
  function T(tables: Tables, lang: string, key: string): (s: string)
    ensures Entry(tables, CodeOf(lang), key) != "" ==> s == Entry(tables, CodeOf(lang), key)
    ensures Entry(tables, CodeOf(lang), key) == "" && Entry(tables, En, key) != "" ==> s == Entry(tables, En, key)
    ensures Entry(tables, CodeOf(lang), key) == "" && Entry(tables, En, key) == "" ==> s == key
    ensures key != "" ==> s != ""
  {
    var chosen := Entry(tables, CodeOf(lang), key);
    if chosen != "" then chosen
    else
      var english := Entry(tables, En, key);
      if english != "" then english else key
  }

  /** An unlisted language name reads exactly what English reads. */
  lemma UnknownLanguageReadsEnglish(tables: Tables, lang: string, key: string)
    requires lang !in LANG_MAP
    ensures T(tables, lang, key) == T(tables, "English", key)
  {
    assert LANG_MAP["English"] == En;
  }
}

=== FILE: weather_service.dfy ===
/** The resilient data-acquisition layer of the AI cortex: a bounded retry loop with
    exponential backoff, two per-grid-cell caches, the normalisers that turn raw
    Open-Meteo series into aggregates, and the three-tier fallback
    (fresh result, cached copy relabelled "(cached)", fixed default labelled "unavailable"). */
module WeatherService {
  import opened Wrappers
  import opened Numeric
  import opened Text

  /** An ISO-8601 time read from the clock; the model never looks inside it. */
  type Timestamp = string

  // ---------------------------------------------------------------- cache key

  /** `round(x, 2)` as a whole number of hundredths, rounding half up. */
  function Hundredths(x: real): (n: int)
    ensures n as real - 0.5 <= x * 100.0 < n as real + 0.5
  {
    (x * 100.0 + 0.5).Floor
  }

  /** The cache key `f"{round(lat, 2)},{round(lon, 2)}"`, kept as the pair of rounded values it prints. */
  datatype CacheKey = CacheKey(latHundredths: int, lonHundredths: int)

  function KeyOf(lat: real, lon: real): (k: CacheKey)
    ensures k.latHundredths == Hundredths(lat) && k.lonHundredths == Hundredths(lon)
  {
    CacheKey(Hundredths(lat), Hundredths(lon))
  }

  /** Two coordinates that share a cache entry are less than 0.01 degrees apart on each axis. */
  lemma SharedKeyIsClose(lat1: real, lon1: real, lat2: real, lon2: real)
    requires KeyOf(lat1, lon1) == KeyOf(lat2, lon2)
    ensures -0.01 < lat1 - lat2 < 0.01
    ensures -0.01 < lon1 - lon2 < 0.01
  {
    var a, b := Hundredths(lat1), Hundredths(lon1);
    assert a as real - 0.5 <= lat2 * 100.0 < a as real + 0.5;
    assert b as real - 0.5 <= lon2 * 100.0 < b as real + 0.5;
  }

  /** Every coordinate pair inside the same 0.01-degree cell shares that cell's key. */
  lemma SameCellSharesKey(lat: real, lon: real, a: int, b: int)
    requires a as real - 0.5 <= lat * 100.0 < a as real + 0.5
    requires b as real - 0.5 <= lon * 100.0 < b as real + 0.5
    ensures KeyOf(lat, lon) == CacheKey(a, b)
  {
  }

  /** Points 0.002 degrees apart can still fall on either side of a cell boundary. */
  lemma NeighboursMayNotShareKey()
    ensures KeyOf(26.14, 77.454) != KeyOf(26.14, 77.456)
  {
    assert Hundredths(77.454) == 7745;
    assert Hundredths(77.456) == 7746;
  }

  // ---------------------------------------------------------- retry with backoff

  /** The exception classes the retry loop distinguishes. */
  datatype ErrorKind = ConnectError | TimeoutError | HttpStatusError | OtherError

  /** An exception together with the text `str(e)` gives for it. */
  datatype FetchError = FetchError(kind: ErrorKind, message: string)

  /** Only connection failures, timeouts and non-2xx statuses are retried. */
  predicate Retryable(e: FetchError)
  {
    e.kind != OtherError
  }

  /** What one `client.get(...)` / `raise_for_status()` / `json()` sequence yields. */
  datatype Attempt<J> = Response(body: J) | Raise(error: FetchError)

  /** What a whole retrying fetch yields to its caller. */
  datatype Outcome<J> = Fetched(body: J) | Raised(error: FetchError)

  const DEFAULT_RETRIES: int := 3

  /** `raise None` after zero attempts raises a TypeError with this text. */
  const RAISE_NONE: FetchError := FetchError(OtherError, "exceptions must derive from BaseException")

  /** The sleep before attempt `k + 1`: `(2 ** k) * 0.5` seconds. */
  function Backoff(k: nat): (w: real)
    ensures w >= 0.5
  {
    Pow2(k) as real * 0.5
  }

  /** A finished retry run: what it yields, the sleeps it took in order, and how many requests it made. */
  datatype RetryRun<J> = RetryRun(outcome: Outcome<J>, waits: seq<real>, attempts: nat)

  /** The run of the retry loop from attempt number `attempt` on, after `lastError` was observed;
      `net(k)` is what the `k`-th request yields. */
  function RetryFrom<J>(net: nat -> Attempt<J>, retries: int, attempt: nat, lastError: Option<FetchError>): RetryRun<J>
    decreases retries - attempt
  {
    if attempt >= retries then RetryRun(Raised(lastError.GetOr(RAISE_NONE)), [], 0)
    else match net(attempt)
      case Response(body) => RetryRun(Fetched(body), [], 1)
      case Raise(e) =>
        if !Retryable(e) then RetryRun(Raised(e), [], 1)
        else
          var rest := RetryFrom(net, retries, attempt + 1, Some(e));
          var wait := if attempt < retries - 1 then [Backoff(attempt)] else [];
          RetryRun(rest.outcome, wait + rest.waits, rest.attempts + 1)
  }

  /** A run that continues after `made` requests and the sleeps `slept`. */
  function Resume<J>(slept: seq<real>, made: nat, rest: RetryRun<J>): RetryRun<J>
  {
    RetryRun(rest.outcome, slept + rest.waits, made + rest.attempts)
  }

  /** `_fetch_with_retry`: up to `retries` requests; returns the first response, lets a
      non-retryable error escape at once, and otherwise raises the last error seen. */
  method FetchWithRetry<J>(net: nat -> Attempt<J>, retries: int) returns (outcome: Outcome<J>, waits: seq<real>, attempts: nat)
    ensures RetryRun(outcome, waits, attempts) == RetryFrom(net, retries, 0, None)
  {
    var lastError: Option<FetchError> := None;
    waits := [];
    var attempt: nat := 0;
    while attempt < retries
      invariant Resume(waits, attempt, RetryFrom(net, retries, attempt, lastError)) == RetryFrom(net, retries, 0, None)
      decreases retries - attempt
    {
      match net(attempt)
      case Response(body) =>
        return Fetched(body), waits, attempt + 1;
      case Raise(e) =>
        if !Retryable(e) {
          return Raised(e), waits, attempt + 1;
        }
        lastError := Some(e);
        if attempt < retries - 1 {
          waits := waits + [Backoff(attempt)];
        }
        attempt := attempt + 1;
    }
    outcome, attempts := Raised(lastError.GetOr(RAISE_NONE)), attempt;
  }

  /** The request budget is never exceeded, and the loop sleeps only between two requests:
      one sleep fewer than requests, the k-th of them `0.5 * 2^k` seconds. */
  lemma {:induction false} RetryShape<J>(net: nat -> Attempt<J>, retries: int, attempt: nat, lastError: Option<FetchError>)
    ensures var run := RetryFrom(net, retries, attempt, lastError);
      attempt + run.attempts <= MaxInt(retries, attempt)
      && (attempt < retries ==> run.attempts >= 1)
      && |run.waits| == (if run.attempts == 0 then 0 else run.attempts - 1)
      && forall k :: 0 <= k < |run.waits| ==> run.waits[k] == Backoff(attempt + k)
    decreases retries - attempt
  {
    if attempt < retries {
      match net(attempt)
      case Response(_) =>
      case Raise(e) =>
        if Retryable(e) {
          var rest := RetryFrom(net, retries, attempt + 1, Some(e));
          RetryShape(net, retries, attempt + 1, Some(e));
          var run := RetryFrom(net, retries, attempt, lastError);
          if attempt < retries - 1 {
            assert run.waits == [Backoff(attempt)] + rest.waits;
            forall k | 0 <= k < |run.waits|
              ensures run.waits[k] == Backoff(attempt + k)
            {
              if k > 0 {
                assert run.waits[k] == rest.waits[k - 1];
              }
            }
          } else {
            assert rest.attempts == 0;
            assert run.waits == [];
          }
        }
    }
  }

  /** Attempts that fail with a retryable error, up to (not including) attempt `stop`. */
  predicate RetryableFailuresBetween<J>(net: nat -> Attempt<J>, from: nat, stop: nat)
  {
    forall k :: from <= k < stop ==> net(k).Raise? && Retryable(net(k).error)
  }

  /** The first attempt that does not fail retryably decides the run: a response is returned,
      any other error escapes, and nothing after it is requested. */
  lemma {:induction false} FirstDecisiveAttemptWins<J>(net: nat -> Attempt<J>, retries: int, attempt: nat, lastError: Option<FetchError>, k: nat)
    requires attempt <= k < retries
    requires RetryableFailuresBetween(net, attempt, k)
    requires !(net(k).Raise? && Retryable(net(k).error))
    ensures var run := RetryFrom(net, retries, attempt, lastError);
      run.attempts == k - attempt + 1
      && run.outcome == (match net(k) case Response(b) => Fetched(b) case Raise(e) => Raised(e))
    decreases k - attempt
  {
    if attempt < k {
      FirstDecisiveAttemptWins(net, retries, attempt + 1, Some(net(attempt).error), k);
    }
  }

  /** When every allowed attempt fails retryably, the error of the last attempt is raised. */
  lemma {:induction false} ExhaustedRetriesRaiseLast<J>(net: nat -> Attempt<J>, retries: int, attempt: nat, lastError: Option<FetchError>)
    requires attempt < retries
    requires RetryableFailuresBetween(net, attempt, retries)
    ensures var run := RetryFrom(net, retries, attempt, lastError);
      run.attempts == retries - attempt && run.outcome == Raised(net(retries - 1).error)
    decreases retries - attempt
  {
    if attempt < retries - 1 {
      ExhaustedRetriesRaiseLast(net, retries, attempt + 1, Some(net(attempt).error));
    }
  }

  /** With the default budget of three requests the loop sleeps at most twice: 0.5 s, then 1 s. */
  lemma DefaultRetriesWaitTwice<J>(net: nat -> Attempt<J>)
    requires RetryableFailuresBetween(net, 0, DEFAULT_RETRIES)
    ensures RetryFrom(net, DEFAULT_RETRIES, 0, None).waits == [0.5, 1.0]
    ensures RetryFrom(net, DEFAULT_RETRIES, 0, None).outcome == Raised(net(2).error)
  {
    RetryShape(net, DEFAULT_RETRIES, 0, None);
    ExhaustedRetriesRaiseLast(net, DEFAULT_RETRIES, 0, None);
    var waits := RetryFrom(net, DEFAULT_RETRIES, 0, None).waits;
    assert Backoff(0) == 0.5 && Backoff(1) == 1.0;
    assert |waits| == 2 && waits[0] == 0.5 && waits[1] == 1.0;
  }

  /** A budget of zero makes no request and raises the TypeError of `raise None`. */
  lemma NoBudgetRaisesTypeError<J>(net: nat -> Attempt<J>, retries: int)
    requires retries <= 0
    ensures RetryFrom(net, retries, 0, None) == RetryRun(Raised(RAISE_NONE), [], 0)
  {
  }

  // ---------------------------------------------------------- series normalisation

  /** One hourly or daily sample; `None` is a JSON null. */
  type Sample = Option<real>

  /** Hourly samples cover 7 past days and 3 forecast days; the last 72 are the forecast. */
  const FORECAST_HOURS: nat := 72

  /** `series[max(0, now_idx - hours):now_idx]` with `now_idx = len(series) - 72`, or `[]` when `now_idx <= 0`. */
  function PastWindow(series: seq<Sample>, hours: nat): (w: seq<Sample>)
    ensures var nowIdx := |series| - FORECAST_HOURS;
      |w| == (if nowIdx > 0 then MinInt(hours, nowIdx) else 0)
      && forall i :: 0 <= i < |w| ==> w[i] == series[nowIdx - |w| + i]
  {
    var nowIdx := |series| - FORECAST_HOURS;
    if nowIdx > 0 then series[MaxInt(0, nowIdx - hours)..nowIdx] else []
  }

  /** The non-null values of a series, in order (`[p for p in s if p is not None]`). */
  function NonNull(s: seq<Sample>): (v: seq<real>)
    ensures |v| <= |s|
    ensures forall x :: x in v <==> Some(x) in s
  {
    if s == [] then []
    else
      var rest := NonNull(s[1..]);
      assert s == [s[0]] + s[1..];
      match s[0]
      case Some(x) => [x] + rest
      case None => rest
  }

  lemma {:induction false} NonNullAppend(a: seq<Sample>, b: seq<Sample>)
    ensures NonNull(a + b) == NonNull(a) + NonNull(b)
  {
    if a == [] {
      assert a + b == b;
    } else {
      assert (a + b)[0] == a[0];
      assert (a + b)[1..] == a[1..] + b;
      NonNullAppend(a[1..], b);
    }
  }

  /** The sum of the non-null samples: nulls count as nothing. */
  function SumNonNull(s: seq<Sample>): real
  {
    Sum(NonNull(s))
  }

  /** The last non-null sample, or 0.0 when there is none (`valid[-1] if valid else 0.0`). */
  function LastValid(s: seq<Sample>): real
  {
    var v := NonNull(s);
    if v == [] then 0.0 else v[|v| - 1]
  }

  /** `LastValid` is the value of the last `Some` sample, and 0.0 exactly when every sample is null. */
  lemma {:induction false} LastValidIsLastSome(s: seq<Sample>)
    ensures (forall i :: 0 <= i < |s| ==> s[i] == None) ==> LastValid(s) == 0.0
    ensures forall i ::
              0 <= i < |s| && s[i].Some? && (forall j :: i < j < |s| ==> s[j] == None) ==> LastValid(s) == s[i].value
  {
    if s != [] {
      var n := |s| - 1;
      assert s == s[..n] + [s[n]];
      NonNullAppend(s[..n], [s[n]]);
      assert NonNull([s[n]]) == (match s[n] case Some(x) => [x] case None => []) by {
        assert |[s[n]][1..]| == 0;
      }
      LastValidIsLastSome(s[..n]);
      if s[n] == None {
        assert NonNull(s) == NonNull(s[..n]);
        forall i | 0 <= i < |s| && s[i].Some? && (forall j :: i < j < |s| ==> s[j] == None)
          ensures LastValid(s) == s[i].value
        {
          assert i < n;
          assert s[..n][i] == s[i];
          assert forall j :: i < j < n ==> s[..n][j] == None;
        }
        if forall i :: 0 <= i < |s| ==> s[i] == None {
          assert forall i :: 0 <= i < n ==> s[..n][i] == None;
        }
      }
    }
  }

  /** On the usual 240-sample series (168 past hours, 72 forecast hours) the windows are
      hours 144..167 and 0..167. */
  lemma StandardWindows(series: seq<Sample>)
    requires |series| == 240
    ensures PastWindow(series, 24) == series[144..168]
    ensures PastWindow(series, 168) == series[..168]
  {
  }

  /** The 24-hour window is the tail of the 7-day window. */
  lemma DayWindowEndsWeekWindow(series: seq<Sample>)
    ensures var week := PastWindow(series, 168);
      |PastWindow(series, 24)| <= |week|
      && PastWindow(series, 24) == week[|week| - |PastWindow(series, 24)|..]
  {
  }

  lemma {:induction false} SumNonNullNonnegative(s: seq<Sample>)
    requires forall i :: 0 <= i < |s| && s[i].Some? ==> s[i].value >= 0.0
    ensures SumNonNull(s) >= 0.0
  {
    var v := NonNull(s);
    forall i | 0 <= i < |v| ensures v[i] >= 0.0 {
      assert v[i] in v;
      var j :| 0 <= j < |s| && s[j] == Some(v[i]);
    }
    SumNonnegative(v);
  }

  /** Dropping a prefix of non-negative samples never increases the total. */
  lemma SuffixSumAtMost(s: seq<Sample>, t: nat)
    requires t <= |s|
    requires forall i :: 0 <= i < |s| && s[i].Some? ==> s[i].value >= 0.0
    ensures SumNonNull(s[t..]) <= SumNonNull(s)
  {
    assert s == s[..t] + s[t..];
    NonNullAppend(s[..t], s[t..]);
    SumAppend(NonNull(s[..t]), NonNull(s[t..]));
    SumNonNullNonnegative(s[..t]);
  }

  /** With no negative rainfall sample, the 24-hour total never exceeds the 7-day total. */
  lemma DayRainAtMostWeekRain(series: seq<Sample>)
    requires forall i :: 0 <= i < |series| && series[i].Some? ==> series[i].value >= 0.0
    ensures RoundTo(SumNonNull(PastWindow(series, 24)), 1) <= RoundTo(SumNonNull(PastWindow(series, 168)), 1)
  {
    var week := PastWindow(series, 168);
    var day := PastWindow(series, 24);
    DayWindowEndsWeekWindow(series);
    SuffixSumAtMost(week, |week| - |day|);
    RoundToMonotone(SumNonNull(day), SumNonNull(week), 1);
  }

  // ---------------------------------------------------------------- weather

  /** The parts of the forecast response the normaliser reads; a missing object or
      array is represented by an empty map or sequence. */
  datatype WeatherPayload = WeatherPayload(
    current: map<string, Sample>,
    hourlyPrecipitation: seq<Sample>,
    hourlySoilMoisture: seq<Sample>,
    dailyPrecipitationSum: seq<Sample>,
    dailyTime: seq<string>)

  /** The weather dictionary handed to the predictor. `cachedAt` is the `_cached_at`
      entry and `error` the `error` entry; `None` means the entry is absent. */
  datatype Weather = Weather(
    lat: real, lon: real,
    temperature: Sample, humidity: Sample,
    currentPrecipitation: Sample, currentRain: Sample,
    windSpeed: Sample, weatherCode: Sample,
    rainfall24h: real, rainfall7d: real, soilMoisture: real,
    dailyPrecipitation: seq<Sample>, dailyDates: seq<string>,
    source: string, timestamp: Timestamp,
    cachedAt: Option<Timestamp>, error: Option<string>)

  /** `current.get(name, 0)`: a present field is passed through, null included. */
  function CurrentField(current: map<string, Sample>, name: string): (v: Sample)
    ensures name !in current ==> v == Some(0.0)
  {
    if name in current then current[name] else Some(0.0)
  }

  const WEATHER_SOURCE: string := "Open-Meteo"
  const WEATHER_CACHED_SOURCE: string := "Open-Meteo (cached)"
  const UNAVAILABLE: string := "unavailable"

  /** The successful branch of `get_current_weather`, before `_cached_at` is added. */
  function NormalizeWeather(lat: real, lon: real, p: WeatherPayload, now: Timestamp): (w: Weather)
    ensures w.lat == lat && w.lon == lon
    ensures w.source == WEATHER_SOURCE && w.error == None && w.cachedAt == None
    ensures w.dailyPrecipitation == p.dailyPrecipitationSum && w.dailyDates == p.dailyTime
  {
    Weather(lat, lon,
      CurrentField(p.current, "temperature_2m"), CurrentField(p.current, "relative_humidity_2m"),
      CurrentField(p.current, "precipitation"), CurrentField(p.current, "rain"),
      CurrentField(p.current, "wind_speed_10m"), CurrentField(p.current, "weather_code"),
      RoundTo(SumNonNull(PastWindow(p.hourlyPrecipitation, 24)), 1),
      RoundTo(SumNonNull(PastWindow(p.hourlyPrecipitation, 168)), 1),
      RoundTo(LastValid(p.hourlySoilMoisture), 4),
      p.dailyPrecipitationSum, p.dailyTime,
      WEATHER_SOURCE, now, None, None)
  }

  /** The safe defaults returned when the fetch failed and nothing is cached. */
  function DefaultWeather(lat: real, lon: real, now: Timestamp, error: string): (w: Weather)
    ensures w.source == UNAVAILABLE && w.error == Some(error) && w.cachedAt == None
  {
    Weather(lat, lon, Some(28.0), Some(70.0), Some(0.0), Some(0.0), Some(5.0), Some(0.0),
      0.0, 0.0, 0.2, [], [], UNAVAILABLE, now, None, Some(error))
  }

  /** With fewer than 73 hourly samples there is no past window and both rainfall totals are 0. */
  lemma ShortSeriesHasNoRain(lat: real, lon: real, p: WeatherPayload, now: Timestamp)
    requires |p.hourlyPrecipitation| <= FORECAST_HOURS
    ensures NormalizeWeather(lat, lon, p, now).rainfall24h == 0.0
    ensures NormalizeWeather(lat, lon, p, now).rainfall7d == 0.0
  {
    RoundToWhole(0, 1);
  }

  /** Null samples are skipped: one hour of 1 mm, a null hour and one hour of 2 mm make 3 mm. */
  lemma NullSamplesSkipped()
    ensures SumNonNull([Some(1.0), None, Some(2.0)]) == 3.0
  {
    assert NonNull([Some(1.0), None, Some(2.0)]) == [1.0, 2.0] by {
      assert [Some(1.0), None, Some(2.0)][1..] == [None, Some(2.0)];
      assert [None, Some(2.0)][1..] == [Some(2.0)];
      assert |[Some(2.0)][1..]| == 0;
    }
    assert [1.0, 2.0][1..] == [2.0];
    assert |[2.0][1..]| == 0;
  }

  // ---------------------------------------------------------------- discharge

  /** The parts of the flood-API response the normaliser reads. */
  datatype DischargePayload = DischargePayload(riverDischarge: seq<Sample>, time: seq<string>)

  datatype Discharge = Discharge(
    lat: real, lon: real,
    current: real, max7d: real, avg7d: real,
    trend: seq<Sample>, dates: seq<string>,
    source: string, cachedAt: Option<Timestamp>, error: Option<string>)

  const DISCHARGE_SOURCE: string := "Open-Meteo Flood API"
  const DISCHARGE_CACHED_SOURCE: string := "Open-Meteo Flood API (cached)"

  /** The successful branch of `get_river_discharge`, before `_cached_at` is added. The
      aggregates run over every non-null sample, forecast days included. */
  function NormalizeDischarge(lat: real, lon: real, p: DischargePayload): (d: Discharge)
    ensures d.lat == lat && d.lon == lon
    ensures d.source == DISCHARGE_SOURCE && d.error == None && d.cachedAt == None
    ensures d.trend == p.riverDischarge && d.dates == p.time
  {
    var valid := NonNull(p.riverDischarge);
    Discharge(lat, lon,
      LastValid(p.riverDischarge),
      if valid == [] then 0.0 else MaxOf(valid),
      if valid == [] then 0.0 else RoundTo(Mean(valid), 2),
      p.riverDischarge, p.time, DISCHARGE_SOURCE, None, None)
  }

  /** The aggregates are 0.0 when every sample is null; otherwise `current` is a sample no greater
      than `max7d`, `max7d` is the largest sample, and `avg7d` does not exceed `max7d` rounded. */
  lemma DischargeAggregates(lat: real, lon: real, p: DischargePayload)
    ensures var d := NormalizeDischarge(lat, lon, p);
      var valid := NonNull(p.riverDischarge);
      (valid == [] ==> d.current == 0.0 && d.max7d == 0.0 && d.avg7d == 0.0)
      && (valid != [] ==>
            Some(d.current) in p.riverDischarge
            && Some(d.max7d) in p.riverDischarge
            && (forall i :: 0 <= i < |p.riverDischarge| && p.riverDischarge[i].Some? ==> p.riverDischarge[i].value <= d.max7d)
            && d.current <= d.max7d
            && d.avg7d <= RoundTo(d.max7d, 2))
  {
    var valid := NonNull(p.riverDischarge);
    var s := p.riverDischarge;
    if valid != [] {
      var m := MaxOf(valid);
      assert valid[|valid| - 1] in valid;
      forall i | 0 <= i < |s| && s[i].Some? ensures s[i].value <= m {
        assert s[i].value in valid;
      }
      MeanAtMostMax(valid);
      RoundToMonotone(Mean(valid), m, 2);
    }
  }

  /** The discharge series [7, null, 5] gives current 5, max 7 and mean 6. */
  lemma DischargeExample()
    ensures var d := NormalizeDischarge(0.0, 0.0, DischargePayload([Some(7.0), None, Some(5.0)], []));
      d.current == 5.0 && d.max7d == 7.0 && d.avg7d == 6.0
  {
    var s: seq<Sample> := [Some(7.0), None, Some(5.0)];
    assert NonNull(s) == [7.0, 5.0] by {
      assert s[1..] == [None, Some(5.0)];
      assert s[1..][1..] == [Some(5.0)];
      assert |s[1..][1..][1..]| == 0;
    }
    var v: seq<real> := [7.0, 5.0];
    assert v[1..] == [5.0] && |v[1..][1..]| == 0;
    assert Mean(v) == 6.0;
    RoundToWhole(6, 2);
  }

  // ---------------------------------------------------------------- fallback

  /** What one call to the acquisition layer returns, and the cache it leaves behind. */
  datatype Acquired<T> = Acquired(result: T, cache: map<CacheKey, T>)

  /** `get_current_weather` once the fetch has run: a fresh result is stamped and written to the
      cache; on failure any cached entry for the cell is served relabelled and unstamped,
      however old; with no entry the defaults are returned. */
  function AcquireWeather(cache: map<CacheKey, Weather>, lat: real, lon: real, fetched: Outcome<WeatherPayload>, now: Timestamp): Acquired<Weather>
  {
    var key := KeyOf(lat, lon);
    match fetched
    case Fetched(p) =>
      var result := NormalizeWeather(lat, lon, p, now).(cachedAt := Some(now));
      Acquired(result, cache[key := result])
    case Raised(e) =>
      if key in cache then Acquired(cache[key].(source := WEATHER_CACHED_SOURCE, cachedAt := None), cache)
      else Acquired(DefaultWeather(lat, lon, now, e.message), cache)
  }

  /** `get_river_discharge` once the fetch has run, with the same three tiers. */
  function AcquireDischarge(cache: map<CacheKey, Discharge>, lat: real, lon: real, fetched: Outcome<DischargePayload>, now: Timestamp): Acquired<Discharge>
  {
    var key := KeyOf(lat, lon);
    match fetched
    case Fetched(p) =>
      var result := NormalizeDischarge(lat, lon, p).(cachedAt := Some(now));
      Acquired(result, cache[key := result])
    case Raised(e) =>
      if key in cache then Acquired(cache[key].(source := DISCHARGE_CACHED_SOURCE, cachedAt := None), cache)
      else Acquired(Discharge(lat, lon, 0.0, 0.0, 0.0, [], [], UNAVAILABLE, None, Some(e.message)), cache)
  }

  /** A weather cache holds only fresh, stamped results, each under the key of its own coordinates. */
  ghost predicate WeatherCacheValid(cache: map<CacheKey, Weather>)
  {
    forall k :: k in cache ==>
      k == KeyOf(cache[k].lat, cache[k].lon) && cache[k].source == WEATHER_SOURCE
      && cache[k].cachedAt.Some? && cache[k].error == None
  }

  ghost predicate DischargeCacheValid(cache: map<CacheKey, Discharge>)
  {
    forall k :: k in cache ==>
      k == KeyOf(cache[k].lat, cache[k].lon) && cache[k].source == DISCHARGE_SOURCE
      && cache[k].cachedAt.Some? && cache[k].error == None
  }

  /** The three tiers of the weather fallback, the write-through of fresh results, and the
      invariant that the cache holds only fresh results. The result is fresh exactly when the
      fetch succeeded; a cached copy comes from within 0.01 degrees; nothing escapes. */
  lemma AcquireWeatherTiers(cache: map<CacheKey, Weather>, lat: real, lon: real, fetched: Outcome<WeatherPayload>, now: Timestamp)
    requires WeatherCacheValid(cache)
    ensures var a := AcquireWeather(cache, lat, lon, fetched, now);
      var key := KeyOf(lat, lon);
      WeatherCacheValid(a.cache)
      && (a.result.source == WEATHER_SOURCE <==> fetched.Fetched?)
      && (fetched.Fetched? ==>
            a.cache == cache[key := a.result] && a.result.cachedAt == Some(now)
            && a.result.lat == lat && a.result.lon == lon)
      && (fetched.Raised? ==> a.cache == cache && a.result.cachedAt == None)
      && (fetched.Raised? && key in cache ==>
            a.result == cache[key].(source := WEATHER_CACHED_SOURCE)
            .(cachedAt := None)
            && -0.01 < a.result.lat - lat < 0.01 && -0.01 < a.result.lon - lon < 0.01)
      && (fetched.Raised? && key !in cache ==>
            a.result == DefaultWeather(lat, lon, now, fetched.error.message))
  {
    var key := KeyOf(lat, lon);
    if fetched.Raised? && key in cache {
      SharedKeyIsClose(cache[key].lat, cache[key].lon, lat, lon);
    }
  }

  /** The same tiers for discharge. */
  lemma AcquireDischargeTiers(cache: map<CacheKey, Discharge>, lat: real, lon: real, fetched: Outcome<DischargePayload>, now: Timestamp)
    requires DischargeCacheValid(cache)
    ensures var a := AcquireDischarge(cache, lat, lon, fetched, now);
      var key := KeyOf(lat, lon);
      DischargeCacheValid(a.cache)
      && (a.result.source == DISCHARGE_SOURCE <==> fetched.Fetched?)
      && (fetched.Fetched? ==>
            a.cache == cache[key := a.result] && a.result.cachedAt == Some(now)
            && a.result.lat == lat && a.result.lon == lon)
      && (fetched.Raised? ==> a.cache == cache && a.result.cachedAt == None)
      && (fetched.Raised? && key in cache ==>
            a.result == cache[key].(source := DISCHARGE_CACHED_SOURCE)
            .(cachedAt := None)
            && -0.01 < a.result.lat - lat < 0.01 && -0.01 < a.result.lon - lon < 0.01)
      && (fetched.Raised? && key !in cache ==>
            a.result.source == UNAVAILABLE && a.result.error == Some(fetched.error.message)
            && a.result.current == 0.0 && a.result.max7d == 0.0 && a.result.avg7d == 0.0
            && a.result.trend == [] && a.result.dates == [])
  {
    var key := KeyOf(lat, lon);
    if fetched.Raised? && key in cache {
      SharedKeyIsClose(cache[key].lat, cache[key].lon, lat, lon);
    }
  }

  /** A cached entry never expires: a failure at any later time, at any point of the same cell,
      returns the data of the last success there. */
  lemma CachedWeatherNeverExpires(cache: map<CacheKey, Weather>, lat: real, lon: real, p: WeatherPayload,
                                  t1: Timestamp, lat2: real, lon2: real, e: FetchError, t2: Timestamp)
    requires KeyOf(lat2, lon2) == KeyOf(lat, lon)
    ensures var first := AcquireWeather(cache, lat, lon, Fetched(p), t1);
      var second := AcquireWeather(first.cache, lat2, lon2, Raised(e), t2);
      second.result == NormalizeWeather(lat, lon, p, t1).(source := WEATHER_CACHED_SOURCE)
      && second.cache == first.cache
  {
  }

  // ---------------------------------------------------------------- the stateful layer

  /** The two module-level caches and the operations that read and write them. */
  class AcquisitionLayer {
    var weatherCache: map<CacheKey, Weather>
    var dischargeCache: map<CacheKey, Discharge>

    ghost predicate Valid()
      reads this
    {
      WeatherCacheValid(weatherCache) && DischargeCacheValid(dischargeCache)
    }

    constructor ()
      ensures Valid() && weatherCache == map[] && dischargeCache == map[]
    {
      weatherCache := map[];
      dischargeCache := map[];
    }

    /** `get_current_weather`: the retrying fetch with the default budget, then the fallback. */
    method GetCurrentWeather(lat: real, lon: real, net: nat -> Attempt<WeatherPayload>, now: Timestamp)
      returns (w: Weather, waits: seq<real>)
      requires Valid()
      modifies this
      ensures Valid()
      ensures var run := RetryFrom(net, DEFAULT_RETRIES, 0, None);
        Acquired(w, weatherCache) == AcquireWeather(old(weatherCache), lat, lon, run.outcome, now)
        && waits == run.waits
      ensures dischargeCache == old(dischargeCache)
    {
      var key := KeyOf(lat, lon);
      var outcome, slept, _ := FetchWithRetry(net, DEFAULT_RETRIES);
      waits := slept;
      AcquireWeatherTiers(weatherCache, lat, lon, outcome, now);
      match outcome
      case Fetched(p) =>
        w := NormalizeWeather(lat, lon, p, now).(cachedAt := Some(now));
        weatherCache := weatherCache[key := w];
      case Raised(e) =>
        if key in weatherCache {
          w := weatherCache[key].(source := WEATHER_CACHED_SOURCE, cachedAt := None);
        } else {
          w := DefaultWeather(lat, lon, now, e.message);
        }
    }

    /** `get_river_discharge`: the retrying fetch with the default budget, then the fallback. */
    method GetRiverDischarge(lat: real, lon: real, net: nat -> Attempt<DischargePayload>, now: Timestamp)
      returns (d: Discharge, waits: seq<real>)
      requires Valid()
      modifies this
      ensures Valid()
      ensures var run := RetryFrom(net, DEFAULT_RETRIES, 0, None);
        Acquired(d, dischargeCache) == AcquireDischarge(old(dischargeCache), lat, lon, run.outcome, now)
        && waits == run.waits
      ensures weatherCache == old(weatherCache)
    {
      var key := KeyOf(lat, lon);
      var outcome, slept, _ := FetchWithRetry(net, DEFAULT_RETRIES);
      waits := slept;
      AcquireDischargeTiers(dischargeCache, lat, lon, outcome, now);
      match outcome
      case Fetched(p) =>
        d := NormalizeDischarge(lat, lon, p).(cachedAt := Some(now));
        dischargeCache := dischargeCache[key := d];
      case Raised(e) =>
        if key in dischargeCache {
          d := dischargeCache[key].(source := DISCHARGE_CACHED_SOURCE, cachedAt := None);
        } else {
          d := Discharge(lat, lon, 0.0, 0.0, 0.0, [], [], UNAVAILABLE, None, Some(e.message));
        }
    }
  }
}

=== FILE: wrappers.dfy ===
/** Optional values and results with an error, shared by every module of the model. */
module Wrappers {

  /** A value that may be absent: a JSON `null`, a missing key, an `undefined`. */
  datatype Option<+T> = None | Some(value: T) {
    function GetOr(default: T): T {
      match this
      case Some(v) => v
      case None => default
    }
  }

  /** The outcome of an operation that may throw: its value, or the error text. */
  datatype Result<+T> = Success(value: T) | Failure(error: string)
}
